=== FILE: README.md ===
# Okta admin tool server: policy layer in Dafny

This project models the policy layer of an MCP tool server that fronts the
Okta admin API (nivikamal/mcp-okta), and proves properties of it:

- **the role policy**: three roles, with a fixed allow list of tool names per
  role, a default role and a validity check;
- **the access guard**: it resolves the caller's role from the invocation
  context and denies a tool that role does not list;
- **the audit recorder**: one record per call, with a shallow redaction of
  sensitive top-level fields;
- **the confirmation gate**: every destructive action is a preview tool plus
  a `_confirm` execute tool that guards, acts once, audits once and re-throws;
- **the five read tools**: their input schemas, request parameters, response
  mapping, descriptions and the guard/handler/audit wrapper;
- **the Okta client's decision logic**: token-cache freshness, the `after`
  cursor of the `next` link, and the rate-limit warning;
- **the validation helpers**: query stripping, the filter recogniser, capped
  exponential backoff, the retry predicate, the cursor check, `Link` header
  parsing and the limit schemas;
- **the server's tool catalog**: 21 registered tools, each reached by name,
  with the payload parsed by the tool's schema before its handler runs.

Each module mirrors one source file or concern:

| file | module | models |
|---|---|---|
| base.dfy | `Base` | `Option`, `Result` and the thrown `Error` |
| text.dfy | `Text` | string search, `\s`, join/split, decimal numerals |
| values.dfy | `Values` | JSON-shaped JavaScript values: truthiness, spread, property reads |
| role_policy.dfy | `RolePolicy` | src/config/rbac.ts |
| access_guard.dfy | `AccessGuard` | src/utils/rbac.ts |
| audit.dfy | `Audit` | src/utils/audit.ts |
| schemas.dfy | `Schemas` | the zod object schemas the tools use |
| link_header.dfy | `LinkHeader` | the two `Link` header regular expressions |
| validation.dfy | `Validation` | src/utils/validation.ts |
| okta_client.dfy | `OktaClient` | `getToken`, `nextCursorFromLink` and `handleRateLimit` |
| invocation.dfy | `Invocation` | requests, traces and the shared guard/handler/audit wrapper |
| read_tools.dfy | `ReadHandlers` | src/tools/read-tools.ts |
| admin_tools.dfy | `AdminHandlers` | src/tools/admin-tools.ts |
| catalog.dfy | `Catalog` | the tool registration of src/server.ts |

Effects become data. Each tool invocation returns a `Run`: a trace of events
and a result. The events are guard consulted, API request made, rate-limit
warning and audit record. A `Failure` result is a thrown error. The HTTP
client is a function `Request -> Result<Response>`. The clock and the uuid
generator enter as values.

Points where the code's behaviour is easy to misread, all modelled as
written:

- The execute tool guards under the action's base name (`suspend_user`), not
  under its own `_confirm` name (src/tools/admin-tools.ts:54).
  `AdminHandlers.ConfirmNameAlwaysDenied` shows that guarding under the
  `_confirm` name would deny every role, because no allow list holds such a
  name.
- `deactivate_user` is the preview tool: it never guards and never audits,
  so a helpdesk caller invoking it gets the instruction message. The denial
  and its audit happen at `deactivate_user_confirm`
  (`Catalog.HelpdeskCannotDeactivate`, `Catalog.UnlistedExecutionDenied`).
- A payload the tool's schema rejects never reaches the handler, so it is
  neither guarded nor audited (`Catalog.AuditedAtMostOnce`).
- The audit's `role` is the raw `callerRole` string, even when it names no
  role, while the guard maps such a string to analyst
  (`Audit.AuditRoleMatchesGuardRole`). The audit's correlation id falls back
  to a fresh uuid, while `getCorrelationIdFromContext` falls back to
  `"unknown"` (`Audit.AuditCorrelationIdMatchesGuard`).

## Model

| member | source | states |
|---|---|---|
| RolePolicy.AllowList | src/config/rbac.ts:3-39 | every role's list begins with the five read tools, and no listed name contains a comma |
| RolePolicy.DefaultRole | src/config/rbac.ts:41-43 | the default role is analyst, whose tools every other role may also use |
| RolePolicy.ParseRole | src/config/rbac.ts:45-47 | a string is read as a role exactly when it is that role's name; any other string names no role |
| RolePolicy.IsRoleValid | src/config/rbac.ts:45-47 | a string is valid iff it is the name of one of the three roles |
| RolePolicy.ParseName | src/config/rbac.ts:45-47 | analyst, helpdesk and admin are valid and read back as themselves |
| RolePolicy.NoConfirmToolListed | src/config/rbac.ts:3-39 | no allow list holds a name ending in `_confirm` |
| RolePolicy.AllowListsNested | src/config/rbac.ts:4-38 | analyst's tools ⊆ helpdesk's ⊆ admin's |
| RolePolicy.AdminBeyondHelpdesk | src/config/rbac.ts:11-37 | admin's tools minus helpdesk's are exactly deactivate_user and reactivate_user |
| RolePolicy.AnalystReadOnly | src/config/rbac.ts:4-10 | analyst may use exactly the five read tools |
| AccessGuard.RoleFromContext | src/utils/rbac.ts:21-29 | a missing or empty role and any non-role string resolve to analyst; a role name resolves to that role; resolution never fails |
| AccessGuard.CallerFromContext | src/utils/rbac.ts:31-33 | the caller when present and non-empty, otherwise "unknown" |
| AccessGuard.CorrelationIdFromContext | src/utils/rbac.ts:35-37 | the correlation id when present and non-empty, otherwise "unknown" |
| AccessGuard.ValidateRole | src/utils/rbac.ts:39-41 | valid iff the string names one of the three roles |
| AccessGuard.EnsureAllowed | src/utils/rbac.ts:9-19 | permits iff the resolved role's list holds the tool; otherwise denies with a plain error built from role, tool and list |
| AccessGuard.GuardFollowsPolicy | src/utils/rbac.ts:9-28 | with a role name the guard permits exactly that role's tools; with junk or no metadata, exactly analyst's |
| AccessGuard.DenialListsAllowedTools | src/utils/rbac.ts:13-17 | a denial message starts with the role and the tool, and splitting its tail at ", " gives back the role's allow list in order, without the denied tool |
| Audit.RedactFields | src/utils/audit.ts:84-90 | keeps the key set; a listed key gets the marker, every other key keeps its value |
| Audit.Sanitize | src/utils/audit.ts:77-93 | falsy and non-object values pass through; objects keep their spread keys, with sensitive ones masked and the rest unchanged |
| Audit.SanitizeInputs | src/utils/audit.ts:77-93 | on an object: same keys; password, secret, token and key are masked, every other field is kept |
| Audit.SanitizeResult | src/utils/audit.ts:95-111 | on an object: same keys; tempPassword, secret and token are masked, every other field, `key` included, is kept |
| Audit.SanitizeIdempotent | src/utils/audit.ts:82-90 | sanitizing twice equals sanitizing once |
| Audit.SpreadOfIndexedValueRedactsNothing | src/utils/audit.ts:82-90 | an array, empty or not, is spread to an object of its index keys, and when no sensitive name is a numeral nothing in it is masked |
| Audit.KeyMaskedInInputsOnly | src/utils/audit.ts:77-111 | a `key` field is masked in inputs but kept in results |
| Audit.AuditCorrelationId | src/utils/audit.ts:41 | the context's correlation id when present and non-empty, otherwise the fresh uuid |
| Audit.AuditRole | src/utils/audit.ts:43 | the raw `callerRole` when present and non-empty, even one naming no role; otherwise "analyst" |
| Audit.Audit | src/utils/audit.ts:32-66 | ok iff no error; the result is kept (sanitized) iff truthy; the error is carried as given; inputs are sanitized; tool, caller, request id and duration are recorded as given; the timestamp is the clock's; the role is the raw callerRole or "analyst"; the correlation id is the context's or the fresh uuid |
| Audit.AuditRoleMatchesGuardRole | src/utils/audit.ts:43 | the audited role equals the guard's role iff callerRole is missing, empty or a real role name |
| Audit.AuditCorrelationIdMatchesGuard | src/utils/audit.ts:41 | the audited correlation id agrees with the guard's reading iff the context carries a non-empty one, or the fresh uuid happens to be "unknown" |
| Invocation.RateLimitEvents | src/tools/read-tools.ts:149-150 | at most one warning event, present iff handleRateLimit warns; it calls, writes and audits nothing |
| Invocation.Exchange | src/tools/read-tools.ts:149-150 | exactly one request, made first; a failed request is re-thrown unchanged; an answer is passed on to the rest of the handler |
| Invocation.GuardedRun | src/tools/read-tools.ts:65-85 | the guard comes first and one audit last; a denial skips the handler and re-throws the guard's error; otherwise the handler's events sit between; success iff permitted and the handler succeeded |
| Invocation.ExactlyOneAudit | src/tools/read-tools.ts:65-85 | a wrapped invocation is audited exactly once, whether denied, failed or successful |
| Invocation.CallsOnlyWhenPermitted | src/tools/read-tools.ts:67-69 | a denied invocation makes no request; a permitted one makes exactly the handler's requests |
| Invocation.PermittedRun | src/tools/read-tools.ts:67-85 | a permitted invocation is the guard, the handler's events and the audit of what the handler returned or threw; it returns the handler's result |
| AdminHandlers.PreviewMessage | src/tools/admin-tools.ts:43 | the instruction starts with "Call " and the `<base>_confirm` name, and ends with " with { ...args, confirm: true } to execute." |
| AdminHandlers.ParseExecuteInput | src/tools/admin-tools.ts:50 | the execute schema accepts iff the action's own schema accepts and confirm is literally true, and parses like the merged schema |
| AdminHandlers.Preview | src/tools/admin-tools.ts:41-44 | no events; succeeds with exactly `confirmationRequired: true` and the action's instruction message |
| AdminHandlers.ActionRequest | src/tools/admin-tools.ts:79-174 | each action sends a non-GET request without query parameters |
| AdminHandlers.ActionResult | src/tools/admin-tools.ts:79-174 | `ok: true` and the action's message; a password reset also carries `res.data?.tempPassword` |
| AdminHandlers.Act | src/tools/admin-tools.ts:79-174 | an action makes exactly one request, which writes, and audits nothing |
| AdminHandlers.ConfirmedInput | src/tools/admin-tools.ts:59 | `{...input, confirm: true}` keeps the input's keys, sets confirm to true, and every other field keeps its value |
| AdminHandlers.Execute | src/tools/admin-tools.ts:47-73 | one audit always; the guard under the base name first; exactly one write iff the role lists the base name, and no other request |
| AdminHandlers.PreviewIgnoresInput | src/tools/admin-tools.ts:37-45 | every preview of an action is the same answer, with no request and no audit |
| AdminHandlers.PreviewNamesConfirmTool | src/tools/admin-tools.ts:43 | the instruction names `<base>_confirm` right after "Call " |
| AdminHandlers.ConfirmNameAlwaysDenied | src/tools/admin-tools.ts:48-54 | guarding under the `_confirm` name would deny every caller |
| AdminHandlers.ConfirmRequired | src/tools/admin-tools.ts:50 | a payload whose confirm is missing or not literally true is rejected |
| AdminHandlers.ConfirmedInputOfAccepted | src/tools/admin-tools.ts:50-59 | on an accepted payload the audited `{...input, confirm: true}` is the payload itself |
| AdminHandlers.UserGroupNeedsBothIds | src/tools/admin-tools.ts:21-23 | the user/group schema admits a payload iff it carries both ids as non-empty strings |
| AdminHandlers.DeniedExecutionActsNever | src/tools/admin-tools.ts:53-71 | a denied execution is the guard then one failure audit of the raw input, and re-throws the denial |
| AdminHandlers.PermittedExecutionActsOnce | src/tools/admin-tools.ts:55-66 | a permitted, answered execution is guard, one request, one success audit of the confirmed input, and returns the action's result |
| AdminHandlers.FailedActionRethrown | src/tools/admin-tools.ts:67-71 | a failed request is audited once with the raw input, a null result and the error, then re-thrown |
| AdminHandlers.TempPasswordReturnedNotAudited | src/tools/admin-tools.ts:163-171 | the caller receives the API's temporary password, while the audit record holds the redaction marker instead |
| AdminHandlers.ResetResultRedacted | src/utils/audit.ts:103-108 | the sanitized reset result holds the marker as its tempPassword |
| AdminHandlers.MessageLead | src/tools/admin-tools.ts:84-169 | each action's message opens with a non-empty lead ending in a blank |
| AdminHandlers.MessageTail | src/tools/admin-tools.ts:84-153 | a message's tail is empty or starts with a blank; for the group actions it ends with the group id |
| AdminHandlers.MessageShape | src/tools/admin-tools.ts:79-174 | every success message is the action's lead, then the user id, then the action's tail, with no other text |
| ReadHandlers.WithIfTruthy | src/tools/read-tools.ts:177-179 | adds the key iff the value is truthy; every other key is unchanged |
| ReadHandlers.SearchUsersParams | src/tools/read-tools.ts:139-147 | search, limit and after always; filter iff the status is truthy, holding `status eq "<status>"` |
| ReadHandlers.GroupQueryParams | src/tools/read-tools.ts:172-179 | limit and after always; q iff the query is truthy, holding the query |
| ReadHandlers.LogQueryParams | src/tools/read-tools.ts:233-246 | each of query, since and until is sent iff truthy, holding its input value; limit and after always |
| ReadHandlers.RequestOf | src/tools/read-tools.ts:106-266 | every read tool sends a GET |
| ReadHandlers.MapSeq | src/tools/read-tools.ts:152-158 | succeeds iff every item maps, giving same length and order; otherwise throws the first failing item's error |
| ReadHandlers.MapItems | src/tools/read-tools.ts:152-158 | a nullish body throws on reading map, a non-array has no map, an array maps item by item preserving length and order |
| ReadHandlers.UserRecord | src/tools/read-tools.ts:121-131 | throws iff the user or its profile is nullish; otherwise reports exactly id, status, email and names, plus login for the lookup, with id and status read from the user and every other field from its profile under the same name |
| ReadHandlers.GroupSummary | src/tools/read-tools.ts:184-188 | throws iff the group is nullish; otherwise exactly the group's id and type and its profile's name, a missing profile giving an undefined name |
| ReadHandlers.AppSummary | src/tools/read-tools.ts:214-219 | throws iff the app is nullish; otherwise exactly id, label, status and name, each the app's own property of that name |
| ReadHandlers.EventSummary | src/tools/read-tools.ts:251-258 | throws iff the event is nullish; otherwise exactly the event's uuid, published and eventType, with outcome, actor and target read through optional chaining |
| ReadHandlers.ListResult | src/tools/read-tools.ts:152-164 | succeeds iff the body is an array whose every item maps, else throws the mapping's error; on success exactly the tool's key and nextCursor, the i-th output is the i-th item's mapping, and nextCursor is null iff the link header yields no cursor, otherwise that cursor |
| ReadHandlers.GetUserByEmailParams | src/tools/read-tools.ts:110-112 | the lookup sends only `search`, holding `profile.email eq "<email>"` |
| ReadHandlers.EmailSearchAccepted | src/tools/read-tools.ts:111 | for a quote-free e-mail the lookup's search expression passes the filter validator |
| ReadHandlers.UserLookup | src/tools/read-tools.ts:114-131 | a nullish body throws; an empty array or a falsy first item is `{found: false}`; a truthy first user gives `found: true` with its record, or that record's error |
| ReadHandlers.Handler | src/tools/read-tools.ts:106-266 | one GET, made first, writing and auditing nothing |
| ReadHandlers.Invoke | src/tools/read-tools.ts:56-88 | the guard first and one audit last, no write; on success the handler's result |
| ReadHandlers.GetToolDescription | src/tools/read-tools.ts:90-103 | the tool's own description, or "No description available." for any other name |
| ReadHandlers.ReadToolsAlwaysRun | src/tools/read-tools.ts:65-85 | whatever the role, a read tool runs its handler: one GET right after the guard, and the handler's result |
| ReadHandlers.ReadToolListed | src/config/rbac.ts:3-39 | every role lists every read tool |
| ReadHandlers.FailedCallRethrown | src/tools/read-tools.ts:81-85 | a failed API call is re-thrown unchanged and audited as a failure of the tool |
| ReadHandlers.PageSizeWithinBounds | src/tools/read-tools.ts:38-53 | on any admitted input a list tool asks for 1..max items, 100 when absent, as the shared limit schema would yield |
| ReadHandlers.LimitRuleOf | src/tools/read-tools.ts:38-51 | the list schemas bound limit by 200, the log schema by 1000 |
| ReadHandlers.LimitParamOf | src/tools/read-tools.ts:141-234 | every list tool sends `limit ?? 100` |
| ReadHandlers.ParsedLimit | src/utils/validation.ts:7-8 | a schema's optional limit in 1..max yields the same page size as the standalone limit schema |
| ReadHandlers.StatusesHaveNoQuotes | src/tools/read-tools.ts:26-37 | no admitted status contains a quote |
| ReadHandlers.StatusFilterIsValid | src/tools/read-tools.ts:145-147 | on any admitted input, a filter is sent iff a status was given, and the filter validator accepts it |
| ReadHandlers.ListKeepsOrder | src/tools/read-tools.ts:152-158 | a list tool reports one summary per item, in order |
| ReadHandlers.DescriptionsCoverReadTools | src/tools/read-tools.ts:90-103 | each read tool has its own description; any other name gets the fallback |
| OktaClient.GetToken | src/utils/okta-client.ts:21-65 | no fetch iff a cache exists and now < exp - 30; a fetch stores the token with expiry from the post-response clock; a failed fetch keeps the cache and throws the prefixed message |
| OktaClient.FetchedTokenReusedUntilBuffer | src/utils/okta-client.ts:25-57 | after a fetch, later calls reuse the token exactly while they start over 30 s before the new expiry |
| OktaClient.ShortLivedTokenNeverReused | src/utils/okta-client.ts:25-57 | a token granted for 30 s or less is never reused |
| OktaClient.StalenessPersists | src/utils/okta-client.ts:22-27 | a cache that is stale now is stale at every later time |
| OktaClient.FailedFetchKeepsState | src/utils/okta-client.ts:61-64 | a failed fetch leaves the cache as it was, so a retry fetches again |
| OktaClient.FormDecode | src/utils/okta-client.ts:116 | each `+` becomes a blank and every other character stays in place; no `+` is left |
| OktaClient.GetParam | src/utils/okta-client.ts:116 | none iff no non-empty piece has that name; otherwise the form-decoded value of the first such piece |
| OktaClient.NextCursorFromLink | src/utils/okta-client.ts:108-120 | null for an absent or empty header, no next link, or a URL that does not parse; a cursor never holds `+` |
| OktaClient.CursorOfNextUrl | src/utils/okta-client.ts:111-116 | with a parsable next URL the cursor is that URL's after parameter |
| OktaClient.AfterParamOfNextLink | src/utils/okta-client.ts:108-120 | the after value of a next link comes back form-decoded |
| OktaClient.CursorRoundTrip | src/utils/okta-client.ts:108-120 | a cursor without `&`, `#`, `>`, `+` or `%` written into a next link is read back unchanged |
| OktaClient.PlusInCursorComesBackAsBlank | src/utils/okta-client.ts:114-116 | a `+` in a cursor comes back as a blank, which the cursor check rejects |
| OktaClient.FirstNextVersusLastNext | src/utils/okta-client.ts:111 | with two next links the cursor comes from the first, while parseLinkHeader keeps the second |
| OktaClient.ParseInt | src/utils/okta-client.ts:127 | a number is read only when the text has a digit |
| OktaClient.ParseIntOfNumeral | src/utils/okta-client.ts:127 | a digit string parses to its value |
| OktaClient.HandleRateLimit | src/utils/okta-client.ts:123-130 | no warning without the header or for text with no digits; for a numeral, a warning iff it is below 10; the warning carries remaining and reset |
| OktaClient.RateLimitWarnsBelowTen | src/utils/okta-client.ts:127-129 | for a count written as a number, a warning iff fewer than 10 requests remain |
| LinkHeader.TargetAt | src/utils/okta-client.ts:111 | a match starts at a `<` and has a non-empty URL |
| LinkHeader.FirstNext | src/utils/okta-client.ts:111 | the least index at which the next pattern matches |
| LinkHeader.RelMatchAt | src/utils/validation.ts:114 | a match has a non-empty URL and relation and ends past its start |
| LinkHeader.AllMatches | src/utils/validation.ts:114-119 | every match lies within the header |
| LinkHeader.RelMatchOfLink | src/utils/validation.ts:114 | a well-formed link is matched where it starts, with its URL and relation, ending right after it |
| LinkHeader.NextOfLink | src/utils/okta-client.ts:111 | a well-formed next link is matched by the next pattern, giving its URL |
| LinkHeader.AllMatchesOfTwoLinks | src/utils/validation.ts:117-119 | two links separated by ", " are found in order |
| Validation.StripUnsafe | src/utils/validation.ts:36-39 | never longer, and holds none of `< > " ' &` |
| Validation.SanitizeSearchQuery | src/utils/validation.ts:36-39 | the loop deletes exactly the unsafe characters, keeping the others in order |
| Validation.StripAppend | src/utils/validation.ts:38 | stripping distributes over concatenation |
| Validation.StripOne | src/utils/validation.ts:38 | one character is deleted iff it is unsafe |
| Validation.StripSafe | src/utils/validation.ts:38 | a string without unsafe characters is left unchanged |
| Validation.StripIdempotent | src/utils/validation.ts:36-39 | sanitizing twice equals sanitizing once |
| Validation.ValidateOktaFilter | src/utils/validation.ts:41-67 | an accepted filter has at least seven characters, starts with a field character and ends with a quote |
| Validation.FilterAcceptedIffWellFormed | src/utils/validation.ts:64-66 | a filter is accepted iff it renders some field, blanks, operator, blanks and quoted quote-free value |
| Validation.AcceptedFilterDecomposes | src/utils/validation.ts:64-66 | every accepted filter is field, blanks, operator, blanks and a quoted quote-free value |
| Validation.WellFormedFilterAccepted | src/utils/validation.ts:64-66 | every such rendering is accepted and splits back into the same pieces |
| Validation.EqualityFilterAccepted | src/utils/validation.ts:64-66 | `<field> eq "<value>"` is accepted for any non-empty field of letters and dots and any quote-free value |
| Validation.StatusFilterAccepted | src/utils/validation.ts:64-66 | `status eq "<s>"` is accepted for any quote-free s |
| Validation.CalculateBackoffDelay | src/utils/validation.ts:89-94 | at most 30000 and at most base·2^attempt, and equal to one of them |
| Validation.BackoffMonotone | src/utils/validation.ts:89-94 | with a non-negative base the delay never shrinks as attempts grow |
| Validation.DefaultBackoffSchedule | src/utils/validation.ts:89-94 | with the default base: 1, 2, 4, 8, 16 s, then 30 s from the sixth attempt |
| Validation.ShouldRetry | src/utils/validation.ts:96-98 | below 500 only 429 is retried; every status from 500 up is |
| Validation.ValidateCursor | src/utils/validation.ts:101-105 | valid iff absent or every character is in `[A-Za-z0-9+/=]` |
| Validation.ValidCursorSurvivesSanitizing | src/utils/validation.ts:101-105 | a valid cursor is unchanged by the query sanitizer |
| Validation.ToMapKeys | src/utils/validation.ts:117-119 | the stored relations are exactly the matched ones |
| Validation.ToMapLastWins | src/utils/validation.ts:117-119 | each relation maps to the URL of its last match |
| Validation.ParseLinkHeader | src/utils/validation.ts:107-122 | empty for an absent or empty header; otherwise its keys are the matched relations, each mapped to its last URL |
| Validation.TwoLinksMatched | src/utils/validation.ts:114-119 | a two-link header is read as those two links in order |
| Validation.TwoLinksParsed | src/utils/validation.ts:107-122 | two links are both kept, or the second wins when their relations agree |
| Validation.ParseLimit | src/utils/validation.ts:7-8 | absent gives 100; a number is admitted iff in 1..max, and is then returned unchanged; anything else is rejected |
| Validation.LimitSchemasInRange | src/utils/validation.ts:7-8 | both limit schemas only yield limits in their range |
| Schemas.CheckField | src/tools/read-tools.ts:23-53 | a present value passes through unchanged; only an absent one may be filled in |
| Schemas.ParseObject | src/tools/read-tools.ts:23-53 | accepts iff an object whose declared fields pass; keeps only declared fields, each as its validator yields it |
| Schemas.ParseIntersection | src/tools/admin-tools.ts:50 | accepts iff both sides accept, giving an object |
| Schemas.ParseIdempotent | src/tools/read-tools.ts:23-53 | a parsed payload parses to itself |
| Schemas.IntersectionIsUnion | src/tools/admin-tools.ts:50 | for disjoint fields the intersection parses like the merged schema |
| Schemas.RequiredStringsSchema | src/tools/admin-tools.ts:21-23 | a schema of required strings admits exactly the objects with each as a non-empty string |
| Catalog.Lookup | src/server.ts:63-191 | a found tool carries the name and is registered; none found means no registered tool has it |
| Catalog.Dispatch | src/server.ts:63-191 | a rejected payload runs nothing and throws InvalidInput; an accepted one is audited once unless the tool is a preview; only an execute tool can write |
| Catalog.OnlyToolWithName | src/server.ts:63-191 | a registered tool is the only one carrying its name |
| Catalog.Invoke | src/server.ts:63-191 | nothing runs iff no registered tool has the name; otherwise the run is that tool's dispatch of the payload |
| Catalog.EveryToolRegistered | src/server.ts:63-191 | every read, preview and execute tool is registered |
| Catalog.SuffixMarksExecute | src/tools/admin-tools.ts:37-48 | a tool's name ends in `_confirm` iff it is an execute tool |
| Catalog.NamesIdentifyTools | src/server.ts:63-191 | no two tools share a name |
| Catalog.LookupFindsEachTool | src/server.ts:63-191 | looking up a tool's name finds that tool |
| Catalog.ListedNames | src/config/rbac.ts:24-38 | admin's list names the read and preview tools, in order, and no execute tool |
| Catalog.AllowedNamesAreTools | src/config/rbac.ts:3-39 | every allowed name is a registered tool, and never an execute tool |
| Catalog.OnlyConfirmedPermittedExecutionsWrite | src/tools/admin-tools.ts:47-73 | a write happens only through an execute tool whose payload said confirm: true and whose base name the role lists |
| Catalog.AuditedAtMostOnce | src/tools/admin-tools.ts:37-73 | previews and rejected payloads are never audited; every other invocation exactly once |
| Catalog.ConfirmNameReachesExecute | src/tools/admin-tools.ts:47-51 | the `_confirm` name runs the action's execution on the accepted payload |
| Catalog.UnlistedExecutionDenied | src/tools/admin-tools.ts:53-71 | an execute tool the role does not list makes no request, even on a confirmed payload; it audits once and throws the denial |
| Catalog.HelpdeskLists | src/config/rbac.ts:11-23 | helpdesk lists every base name except deactivate_user and reactivate_user |
| Catalog.HelpdeskCannotDeactivate | src/config/rbac.ts:11-37 | a helpdesk caller's confirmed execution makes no request iff it is a deactivation or reactivation |

### Worked examples and corollaries

These single inputs and small consequences illustrate the general members
above; they are not properties in their own right.

- `Audit.RedactsPasswordKeepsUserId` (src/utils/audit.ts:84-90) — example: `{userId, password}` keeps the user id and masks the password
- `AdminHandlers.MessageNamesTargets` (src/tools/admin-tools.ts:79-174) — corollary of MessageShape: every success message contains the user id, and the group actions' messages end with the group id
- `ReadHandlers.EmptyAnswerIsNotFound` (src/tools/read-tools.ts:117-119) — example: an empty answer to get_user_by_email reports `{found: false}`
- `OktaClient.OktaNextLinkCursor` (src/utils/okta-client.ts:108-120) — example: the cursor of a typical Okta next link
- `Catalog.DeactivatePayloadAccepted` (src/tools/admin-tools.ts:99-108) — example: `{userId, confirm: true}` passes the deactivation execute schema

## Left out

- Process bootstrap (src/server.ts): the environment-variable check, the stdio transport and the signal handlers are I/O. Only the tool registration list is modelled, as `Catalog.Tools`.
- Tool descriptions: the admin tools' text and the `description || fallback` of the registration are left out. Only `getToolDescription` is modelled.
- The MCP SDK parsing the payload with the tool's schema is modelled as `Catalog.Dispatch`. A rejected payload gives one fixed `InvalidInput` error; zod's issue lists and messages are not modelled.
- zod's e-mail regular expression is simplified to `Schemas.LooksLikeEmail`: one `@`, a non-empty local part and a dotted domain.
- The WHATWG URL parser is reduced to a scheme check, the query between `?` and `#`, `&` splitting and `+`-to-blank decoding. Percent-decoding and the rest of URL parsing are not modelled.
- OktaClient.ParseInt: reads base-ten numbers with leading white space and a sign only; `parseInt`'s `0x` prefix is not modelled. The result is an unbounded integer: a numeral too long for a double, which `parseInt` turns into `Infinity` or a rounded value, gives the exact integer instead. In `handleRateLimit` neither is below 10, so the warning decision is the same.
- JavaScript numbers are integers (`Num(int)`). Floating point, `NaN` and fractional limits are left out. `calculateBackoffDelay` takes a natural attempt, so `Math.pow` on negative or fractional exponents is not modelled.
- `role in roleToolAllowList` also holds in JavaScript for prototype names such as `toString`. Roles are a three-constructor datatype, so that quirk is not reproduced. The `|| []` fallback of `ensureAllowed` is therefore unreachable.
- Validation.ParseLinkHeader: a link whose relation is `__proto__` is stored under that key by the model, while assigning `links["__proto__"]` on a plain JavaScript object stores no own property; relations are otherwise stored as given.
- ReadHandlers.GetToolDescription: a name such as `toString` or `constructor` finds an inherited function on the JavaScript `descriptions` object, which is truthy and so is returned instead of the fallback; the model returns the fallback text for every name that is not a read tool.
- Schemas.ParseIntersection: the tools only intersect schemas with disjoint fields. For a field both sides declare, zod rejects values that differ, while the model keeps the right side's value; that case is not modelled.
- axios, its interceptors, the bearer header, the OAuth POST and its scope string are left out. The HTTP client is the `Env.provider` function, and the token fetch is the `fetch` parameter of `OktaClient.GetToken`.
- `Date.now`, `new Date().toISOString()` and `uuidv4` are inputs: `Env.duration`, `Env.stamp` and the clock readings of `GetToken`. Their values are opaque.
- The pino logger is not modelled. The audit record and the rate-limit warning are returned as events instead of being logged.
- Concurrent token refreshes are not modelled; every invocation is sequential.
- Invocation metadata values (`correlationId`, `caller`, `callerRole`) are `Option<string>`: the source only casts them with `as string`, so a truthy non-string value, which would reach the audit record unconverted, is not modelled.
- Only `Error` values are thrown. The error's `code` is carried but never set by the model's own errors.
- `ValidationError`, `OktaApiError`, `generateCorrelationId` and the unused schemas of src/utils/validation.ts (`EmailSchema`, `UserIdSchema`, `GroupIdSchema`, `OktaStatusSchema`, `OktaEventTypeSchema`) have no logic the tools use. `LimitSchema` and `LogLimitSchema` are modelled as `Validation.ParseLimit`.
- The text of `ReadHandlers.NotAnArray` stands for the engine's "map is not a function" error. Its exact wording is engine-specific.
- Regular expressions are modelled as deterministic scanners. In both `Link` patterns `[^>]+` can only stop at the first `>` and `[^"]+` at the first `"`. In the filter pattern, fields, blanks and operators use disjoint characters. So no backtracking choice exists.

=== FILE: access_guard.dfy ===
/** The access guard (src/utils/rbac.ts): it resolves the caller's role
    from the invocation context and denies a tool missing from that role's
    allow list. Its only effect is the possible denial, so it is a pure
    function returning a verdict. */
module AccessGuard {
  import opened Base
  import opened Text
  import opened Values
  import opened RolePolicy

  /** `ctx.metadata`: every entry may be missing. */
  datatype Metadata = Metadata(
    correlationId: Option<string>,
    caller: Option<string>,
    callerRole: Option<string>)

  /** A tool invocation context; `ctx?.metadata` may itself be missing. */
  datatype Context = Context(metadata: Option<Metadata>)

  /** `ctx?.metadata?.callerRole`. */
  function RawRole(ctx: Context): Option<string> {
    if ctx.metadata.Some? then ctx.metadata.value.callerRole else None
  }

  /** `ctx?.metadata?.caller`. */
  function RawCaller(ctx: Context): Option<string> {
    if ctx.metadata.Some? then ctx.metadata.value.caller else None
  }

  /** `ctx?.metadata?.correlationId`. */
  function RawCorrelationId(ctx: Context): Option<string> {
    if ctx.metadata.Some? then ctx.metadata.value.correlationId else None
  }

  /** The role of a context that carries `callerRole` and nothing else. */
  function WithRole(role: string): Context {
    Context(Some(Metadata(None, None, Some(role))))
  }

  /** `getRoleFromContext`: a missing or empty role, and any string that is
      not a role name, resolve to the default role; a role name resolves to
      that role. Resolution never fails. */
  function RoleFromContext(ctx: Context): (r: Role)
    ensures RawRole(ctx).None? || RawRole(ctx).value == "" ==> r == Analyst
    ensures RawRole(ctx).Some? && IsRoleValid(RawRole(ctx).value) ==> Name(r) == RawRole(ctx).value
    ensures RawRole(ctx).Some? && !IsRoleValid(RawRole(ctx).value) ==> r == Analyst
  {
    var role := OrElse(RawRole(ctx), Name(DefaultRole()));
    match ParseRole(role)
    case None => DefaultRole()
    case Some(r) => r
  }

  /** `getCallerFromContext`: the caller, or "unknown" when it is missing or
      empty. */
  function CallerFromContext(ctx: Context): (caller: string)
    ensures RawCaller(ctx).Some? && RawCaller(ctx).value != "" ==> caller == RawCaller(ctx).value
    ensures RawCaller(ctx).None? || RawCaller(ctx).value == "" ==> caller == "unknown"
  {
    OrElse(RawCaller(ctx), "unknown")
  }

  /** `getCorrelationIdFromContext`: the correlation id, or "unknown" when it
      is missing or empty. */
  function CorrelationIdFromContext(ctx: Context): (id: string)
    ensures RawCorrelationId(ctx).Some? && RawCorrelationId(ctx).value != "" ==> id == RawCorrelationId(ctx).value
    ensures RawCorrelationId(ctx).None? || RawCorrelationId(ctx).value == "" ==> id == "unknown"
  {
    OrElse(RawCorrelationId(ctx), "unknown")
  }

  /** `validateRole`: the same test as `isRoleValid`. */
  function ValidateRole(s: string): (valid: bool)
    ensures valid <==> exists r: Role :: Name(r) == s
  {
    IsRoleValid(s)
  }

  datatype Verdict = Permit | Deny(error: Error)

  /** The part of a denial message before the list of allowed tools. */
  function DenialHead(role: Role, tool: string): string {
    "Role '" + Name(role) + "' is not allowed to use tool '" + tool
    + "'. Allowed tools for this role: "
  }

  function DenialMessage(role: Role, tool: string): string {
    DenialHead(role, tool) + Join(AllowList(role), ListSeparator)
  }

  /** `ensureAllowed`: permits exactly the tools in the resolved role's
      allow list; otherwise denies with a plain error naming the role, the
      tool and the allowed tools. */
  function EnsureAllowed(tool: string, ctx: Context): (v: Verdict)
    ensures v.Permit? <==> tool in AllowList(RoleFromContext(ctx))
    ensures v.Deny? ==> v.error == Plain(DenialMessage(RoleFromContext(ctx), tool))
  {
    var role := RoleFromContext(ctx);
    var allowed := AllowList(role);
    if tool in allowed then Permit else Deny(Plain(DenialMessage(role, tool)))
  }

  /** For a context naming a role, the guard permits a tool iff that role's
      allow list has it; a context naming no role behaves as analyst. */
  lemma GuardFollowsPolicy(r: Role, tool: string, junk: string)
    requires !IsRoleValid(junk)
    ensures EnsureAllowed(tool, WithRole(Name(r))).Permit? <==> tool in Allowed(r)
    ensures EnsureAllowed(tool, WithRole(junk)).Permit? <==> tool in Allowed(Analyst)
    ensures EnsureAllowed(tool, Context(None)).Permit? <==> tool in Allowed(Analyst)
  {
    ParseName(r);
  }

  /** A denial message starts with the role and the tool and ends with the
      role's allow list, which splitting at the separators recovers in
      order; the denied tool is not in it. */
  lemma DenialListsAllowedTools(tool: string, ctx: Context)
    requires EnsureAllowed(tool, ctx).Deny?
    ensures var role := RoleFromContext(ctx);
            var msg := EnsureAllowed(tool, ctx).error.message;
            && StartsAt(msg, 0, DenialHead(role, tool))
            && SplitList(msg[|DenialHead(role, tool)|..]) == AllowList(role)
            && tool !in AllowList(role)
  {
    var role := RoleFromContext(ctx);
    var msg := EnsureAllowed(tool, ctx).error.message;
    var head := DenialHead(role, tool);
    assert msg == head + Join(AllowList(role), ListSeparator);
    assert msg[|head|..] == Join(AllowList(role), ListSeparator);
    assert msg[0..|head|] == head;
    SplitJoin(AllowList(role));
  }
}

=== FILE: admin_tools.dfy ===
/** The confirmation gate (src/tools/admin-tools.ts): every destructive
    action is a pair of tools. The preview tool only answers with an
    instruction; the `_confirm` tool demands `confirm: true`, guards and
    audits under the base name, performs the action once and re-throws
    what fails. */
module AdminHandlers {
  import opened Base
  import opened Text
  import opened Values
  import opened RolePolicy
  import opened AccessGuard
  import opened Audit
  import opened Schemas
  import opened Invocation

  datatype AdminAction =
    | SuspendUser | UnsuspendUser | DeactivateUser | ReactivateUser
    | ClearUserSessions | AddUserToGroup | RemoveUserFromGroup | ResetPassword
  {
    /** The action's place in the order the tools are registered in. */
    function Index(): nat {
      match this
      case SuspendUser => 0
      case UnsuspendUser => 1
      case DeactivateUser => 2
      case ReactivateUser => 3
      case ClearUserSessions => 4
      case AddUserToGroup => 5
      case RemoveUserFromGroup => 6
      case ResetPassword => 7
    }
  }

  /** The name of the preview tool, which is also the name the guard and
      the audit use. */
  function BaseName(a: AdminAction): string {
    match a
    case SuspendUser => "suspend_user"
    case UnsuspendUser => "unsuspend_user"
    case DeactivateUser => "deactivate_user"
    case ReactivateUser => "reactivate_user"
    case ClearUserSessions => "clear_user_sessions"
    case AddUserToGroup => "add_user_to_group"
    case RemoveUserFromGroup => "remove_user_from_group"
    case ResetPassword => "reset_password"
  }

  const ConfirmSuffix: string := "_confirm"

  /** The name of the execute tool. */
  function ConfirmName(a: AdminAction): string {
    BaseName(a) + ConfirmSuffix
  }

  // ---------------------------------------------------------------------
  // Schemas

  const UserIdSchema: Schema := map["userId" := NonEmptyString]

  const GroupIdSchema: Schema := map["groupId" := NonEmptyString]

  /** `UserIdSchema.extend(GroupIdSchema.shape)`. */
  const UserGroupSchema: Schema := UserIdSchema + GroupIdSchema

  const SuspendUserSchema: Schema := map["userId" := NonEmptyString, "reason" := OptionalString]

  const ConfirmSchema: Schema := map["confirm" := LiteralTrue]

  /** The preview tool's schema, whatever the action. */
  const PreviewSchema: Schema := map["preview" := BoolDefault(true)]

  /** The action's own schema. */
  function SchemaOf(a: AdminAction): Schema {
    match a
    case SuspendUser => SuspendUserSchema
    case AddUserToGroup => UserGroupSchema
    case RemoveUserFromGroup => UserGroupSchema
    case _ => UserIdSchema
  }

  /** The execute tool's schema: the action's own fields and
      `confirm: true`. */
  function ParseExecuteInput(a: AdminAction, raw: Value): (r: Result<Value>)
    ensures r.Success? <==> ParseObject(SchemaOf(a), raw).Success? && FieldOf(raw, "confirm") == Bool(true)
    ensures r == ParseObject(SchemaOf(a) + ConfirmSchema, raw)
  {
    assert "confirm" in ConfirmSchema && ConfirmSchema["confirm"] == LiteralTrue;
    IntersectionIsUnion(SchemaOf(a), ConfirmSchema, raw);
    ParseIntersection(SchemaOf(a), ConfirmSchema, raw)
  }

  // ---------------------------------------------------------------------
  // Preview

  /** The preview's instruction: call the execute tool with the same
      arguments and `confirm: true`. */
  function PreviewMessage(a: AdminAction): (m: string)
    ensures StartsAt(m, 0, "Call ") && StartsAt(m, 5, ConfirmName(a))
    ensures EndsWith(m, " with { ...args, confirm: true } to execute.")
  {
    var tail := " with { ...args, confirm: true } to execute.";
    InfixAt("Call ", ConfirmName(a), tail);
    SuffixAt("Call " + ConfirmName(a), tail);
    assert ("Call " + ConfirmName(a) + tail)[..5] == "Call ";
    "Call " + ConfirmName(a) + tail
  }

  /** The preview handler: the same instruction for every input, and
      nothing else happens. */
  function Preview(a: AdminAction, input: Value): (run: Run)
    ensures run.trace == []
    ensures run.result.Success? && run.result.value.Obj?
    ensures run.result.value.fields == map["confirmationRequired" := Bool(true), "message" := Str(PreviewMessage(a))]
  {
    Run([], Success(Obj(map["confirmationRequired" := Bool(true), "message" := Str(PreviewMessage(a))])))
  }

  // ---------------------------------------------------------------------
  // Actions

  /** `${userId}` and `${groupId}` in the paths and messages. */
  function UserIdText(input: Value): string {
    Interpolate(FieldOf(input, "userId"))
  }

  function GroupIdText(input: Value): string {
    Interpolate(FieldOf(input, "groupId"))
  }

  /** The one request each action sends; none has query parameters
      beyond the ones written into the path. */
  function ActionRequest(a: AdminAction, input: Value): (req: Request)
    ensures !req.verb.GET? && req.params == map[]
  {
    var user := "/users/" + UserIdText(input);
    var member := "/groups/" + GroupIdText(input) + "/users/" + UserIdText(input);
    match a
    case SuspendUser => Request(POST, user + "/lifecycle/suspend", map[])
    case UnsuspendUser => Request(POST, user + "/lifecycle/unsuspend", map[])
    case DeactivateUser => Request(POST, user + "/lifecycle/deactivate", map[])
    case ReactivateUser => Request(POST, user + "/lifecycle/reactivate", map[])
    case ClearUserSessions => Request(DELETE, user + "/sessions", map[])
    case AddUserToGroup => Request(PUT, member, map[])
    case RemoveUserFromGroup => Request(DELETE, member, map[])
    case ResetPassword => Request(POST, user + "/lifecycle/expiring_password?tempPassword=true", map[])
  }

  /** The message each action reports on success: a lead, the user id and
      a tail, which names the group for the group actions. */
  function SuccessMessage(a: AdminAction, input: Value): string {
    MessageLead(a) + UserIdText(input) + MessageTail(a, GroupIdText(input))
  }

  /** The text before the user id; it ends in a blank. */
  function MessageLead(a: AdminAction): (lead: string)
    ensures |lead| > 0 && lead[|lead| - 1] == ' '
  {
    match a
    case ClearUserSessions => "All sessions cleared for user "
    case ResetPassword => "Password reset for user "
    case _ => "User "
  }

  /** The text after the user id: empty, or a blank and the outcome; the
      group actions end it with the group id. */
  function MessageTail(a: AdminAction, group: string): (tail: string)
    ensures tail == "" || tail[0] == ' '
    ensures (a == AddUserToGroup || a == RemoveUserFromGroup) ==> EndsWith(tail, group)
  {
    match a
    case SuspendUser => " suspended successfully"
    case UnsuspendUser => " unsuspended successfully"
    case DeactivateUser => " deactivated successfully"
    case ReactivateUser => " reactivated successfully"
    case ClearUserSessions => ""
    case AddUserToGroup =>
      SuffixAt(" added to group ", group);
      " added to group " + group
    case RemoveUserFromGroup =>
      SuffixAt(" removed from group ", group);
      " removed from group " + group
    case ResetPassword => ""
  }

  /** The action's result: `ok` and the message, and for a password reset
      the temporary password the API answered with (`res.data?.tempPassword`). */
  function ActionResult(a: AdminAction, input: Value, res: Response): (v: Value)
    ensures v.Obj? && v.fields.Keys == {"ok", "message"} + (if a == ResetPassword then {"tempPassword"} else {})
    ensures v.fields["ok"] == Bool(true) && v.fields["message"] == Str(SuccessMessage(a, input))
    ensures a == ResetPassword ==> v.fields["tempPassword"] == OptGet(res.data, "tempPassword")
  {
    var fields := map["ok" := Bool(true), "message" := Str(SuccessMessage(a, input))];
    if a == ResetPassword then Obj(fields["tempPassword" := OptGet(res.data, "tempPassword")])
    else Obj(fields)
  }

  /** What the action does: its one request, and its result once the
      request succeeded. */
  function Act(a: AdminAction, input: Value, env: Env): (run: Run)
    ensures Calls(run.trace) == 1 && Writes(run.trace) == 1 && Audits(run.trace) == 0
    ensures run.trace == [Called(ActionRequest(a, input))]
  {
    Exchange(env, ActionRequest(a, input), false, (res: Response) => Success(ActionResult(a, input, res)))
  }

  /** `{ ...input, confirm: true }`, what a successful execution audits. */
  function ConfirmedInput(input: Value): (v: Value)
    ensures v.Obj? && "confirm" in v.fields && v.fields["confirm"] == Bool(true)
    ensures input.Obj? ==> v.fields.Keys == input.fields.Keys + {"confirm"}
    ensures input.Obj? ==> forall k :: k in input.fields && k != "confirm" ==> v.fields[k] == input.fields[k]
  {
    Obj(Spread(input)["confirm" := Bool(true)])
  }

  /** The execute handler: guard and audit under the base name, the action
      in between. */
  function Execute(a: AdminAction, input: Value, ctx: Context, env: Env): (run: Run)
    ensures Audits(run.trace) == 1
    ensures Writes(run.trace) == (if BaseName(a) in AllowList(RoleFromContext(ctx)) then 1 else 0)
    ensures Calls(run.trace) == Writes(run.trace)
    ensures run.trace[0] == Guarded(BaseName(a))
  {
    var body := Act(a, input, env);
    ExactlyOneAudit(BaseName(a), input, ConfirmedInput(input), ctx, env, body);
    CallsOnlyWhenPermitted(BaseName(a), input, ConfirmedInput(input), ctx, env, body);
    GuardedRun(BaseName(a), input, ConfirmedInput(input), ctx, env, body)
  }

  // ---------------------------------------------------------------------
  // Properties

  /** Previews ignore their input: every preview of an action is the same
      instruction and touches nothing. */
  lemma PreviewIgnoresInput(a: AdminAction, x: Value, y: Value)
    ensures Preview(a, x) == Preview(a, y)
    ensures Calls(Preview(a, x).trace) == 0 && Audits(Preview(a, x).trace) == 0
  {
  }

  /** The instruction names the execute tool. */
  lemma PreviewNamesConfirmTool(a: AdminAction)
    ensures StartsAt(PreviewMessage(a), 5, ConfirmName(a))
  {
    var m := PreviewMessage(a);
    assert m == "Call " + ConfirmName(a) + " with { ...args, confirm: true } to execute.";
    assert m[5..5 + |ConfirmName(a)|] == ConfirmName(a);
  }

  /** No execute-tool name is in any allow list, so guarding under it
      would deny every role: the guard has to use the base name. */
  lemma ConfirmNameAlwaysDenied(a: AdminAction, ctx: Context)
    ensures EnsureAllowed(ConfirmName(a), ctx).Deny?
  {
    var role := RoleFromContext(ctx);
    var name := ConfirmName(a);
    assert EndsWith(name, "_confirm") by {
      assert name[|name| - |ConfirmSuffix|..] == ConfirmSuffix;
    }
    NoConfirmToolListed(role);
  }

  /** The execute schema rejects any payload whose `confirm` is missing or
      anything but `true`. */
  lemma ConfirmRequired(a: AdminAction, raw: Value)
    requires FieldOf(raw, "confirm") != Bool(true)
    ensures ParseExecuteInput(a, raw).Failure?
  {
    assert !FieldsPass(ConfirmSchema, raw) by {
      assert "confirm" in ConfirmSchema && ConfirmSchema["confirm"] == LiteralTrue;
    }
  }

  /** An accepted payload already holds `confirm: true`, so the input the
      success audit records is the accepted payload itself. */
  lemma ConfirmedInputOfAccepted(a: AdminAction, raw: Value)
    requires ParseExecuteInput(a, raw).Success?
    ensures ConfirmedInput(ParseExecuteInput(a, raw).value) == ParseExecuteInput(a, raw).value
  {
    var left := ParseObject(SchemaOf(a), raw).value;
    var right := ParseObject(ConfirmSchema, raw).value;
    assert "confirm" in ConfirmSchema && ConfirmSchema["confirm"] == LiteralTrue;
    assert CheckField(LiteralTrue, FieldOf(raw, "confirm")) == Success(Bool(true));
    assert Kept(ConfirmSchema, raw, "confirm");
    assert right.fields["confirm"] == Bool(true);
    var merged := left.fields + right.fields;
    assert ParseExecuteInput(a, raw).value == Obj(merged);
    assert merged["confirm" := Bool(true)] == merged;
  }

  /** The user/group schema requires both ids as non-empty strings. */
  lemma UserGroupNeedsBothIds(raw: Value)
    ensures ParseObject(UserGroupSchema, raw).Success? <==>
              && raw.Obj?
              && "userId" in raw.fields && raw.fields["userId"].Str? && |raw.fields["userId"].s| > 0
              && "groupId" in raw.fields && raw.fields["groupId"].Str? && |raw.fields["groupId"].s| > 0
  {
    assert UserGroupSchema == map["userId" := NonEmptyString, "groupId" := NonEmptyString];
    RequiredStringsSchema(UserGroupSchema, raw);
  }

  /** A denied execution performs nothing: the guard's error is audited
      once against the base name with the input as received, and
      re-thrown. */
  lemma DeniedExecutionActsNever(a: AdminAction, input: Value, ctx: Context, env: Env)
    requires BaseName(a) !in AllowList(RoleFromContext(ctx))
    ensures var run := Execute(a, input, ctx, env);
            var e := Plain(DenialMessage(RoleFromContext(ctx), BaseName(a)));
            && run.trace == [Guarded(BaseName(a)), Audited(FailureAudit(BaseName(a), input, ctx, env, e))]
            && run.result == Failure(e)
  {
  }

  /** A permitted execution whose request succeeds calls the action once,
      audits `{...input, confirm: true}` with the result once, and returns
      the action's result unchanged. */
  lemma PermittedExecutionActsOnce(a: AdminAction, input: Value, ctx: Context, env: Env, res: Response)
    requires BaseName(a) in AllowList(RoleFromContext(ctx))
    requires env.provider(ActionRequest(a, input)) == Success(res)
    ensures var run := Execute(a, input, ctx, env);
            var v := ActionResult(a, input, res);
            && run.trace == [Guarded(BaseName(a))] + [Called(ActionRequest(a, input))]
                            + [Audited(SuccessAudit(BaseName(a), ConfirmedInput(input), v, ctx, env))]
            && run.result == Success(v)
  {
    var body := Act(a, input, env);
    ActAnswered(a, input, env, res);
    PermittedRun(BaseName(a), input, ConfirmedInput(input), ctx, env, body);
  }

  /** An action whose request is answered returns its result. */
  lemma ActAnswered(a: AdminAction, input: Value, env: Env, res: Response)
    requires env.provider(ActionRequest(a, input)) == Success(res)
    ensures Act(a, input, env) == Run([Called(ActionRequest(a, input))], Success(ActionResult(a, input, res)))
  {
  }

  /** A permitted execution whose request fails is audited once, with the
      input as received (not the confirmed one), a null result and the
      error, and re-throws that error. */
  lemma FailedActionRethrown(a: AdminAction, input: Value, ctx: Context, env: Env, e: Error)
    requires BaseName(a) in AllowList(RoleFromContext(ctx))
    requires env.provider(ActionRequest(a, input)) == Failure(e)
    ensures var run := Execute(a, input, ctx, env);
            && run.trace == [Guarded(BaseName(a))] + [Called(ActionRequest(a, input))]
                            + [Audited(FailureAudit(BaseName(a), input, ctx, env, e))]
            && run.result == Failure(e)
  {
    var body := Act(a, input, env);
    assert body == Run([Called(ActionRequest(a, input))], Failure(e));
    PermittedRun(BaseName(a), input, ConfirmedInput(input), ctx, env, body);
  }

  /** The caller receives the temporary password a reset answers with,
      while its audit record carries only the redaction marker in its
      place. */
  lemma TempPasswordReturnedNotAudited(input: Value, ctx: Context, env: Env, res: Response)
    requires BaseName(ResetPassword) in AllowList(RoleFromContext(ctx))
    requires env.provider(ActionRequest(ResetPassword, input)) == Success(res)
    ensures var run := Execute(ResetPassword, input, ctx, env);
            && run.result.Success? && run.result.value.Obj? && "tempPassword" in run.result.value.fields
            && run.result.value.fields["tempPassword"] == OptGet(res.data, "tempPassword")
            && LastEvent(run.trace).record.result.Some?
            && LastEvent(run.trace).record.result.value.Obj?
            && LastEvent(run.trace).record.result.value.fields["tempPassword"] == RedactionMarker
  {
    PermittedExecutionActsOnce(ResetPassword, input, ctx, env, res);
    var v := ActionResult(ResetPassword, input, res);
    var record := SuccessAudit(BaseName(ResetPassword), ConfirmedInput(input), v, ctx, env);
    var run := Execute(ResetPassword, input, ctx, env);
    assert LastEvent(run.trace) == Audited(record);
    SuccessAuditOfObject(BaseName(ResetPassword), ConfirmedInput(input), v, ctx, env);
    ResetResultRedacted(input, res);
  }

  /** The audited copy of a reset's result has the password redacted. */
  lemma ResetResultRedacted(input: Value, res: Response)
    ensures var r := SanitizeResult(ActionResult(ResetPassword, input, res));
            r.Obj? && "tempPassword" in r.fields && r.fields["tempPassword"] == RedactionMarker
  {
  }

  /** A piece between a prefix and a suffix sits right after the prefix. */
  lemma InfixAt(pre: string, mid: string, post: string)
    ensures StartsAt(pre + mid + post, |pre|, mid)
  {
    assert (pre + mid + post)[|pre|..|pre| + |mid|] == mid;
  }

  /** A string ends with what was appended last. */
  lemma SuffixAt(pre: string, last: string)
    ensures StartsAt(pre + last, |pre|, last) && EndsWith(pre + last, last)
  {
    assert (pre + last)[|pre|..] == last;
  }

  /** A success message is the action's lead, the user id and the
      action's tail, in that order and nothing else. */
  lemma MessageShape(a: AdminAction, input: Value)
    ensures var m := SuccessMessage(a, input);
            && |m| == |MessageLead(a)| + |UserIdText(input)| + |MessageTail(a, GroupIdText(input))|
            && StartsAt(m, 0, MessageLead(a))
            && StartsAt(m, |MessageLead(a)|, UserIdText(input))
            && EndsWith(m, MessageTail(a, GroupIdText(input)))
  {
    var lead := MessageLead(a);
    var tail := MessageTail(a, GroupIdText(input));
    InfixAt(lead, UserIdText(input), tail);
    SuffixAt(lead + UserIdText(input), tail);
    assert (lead + UserIdText(input) + tail)[..|lead|] == lead;
  }

  /** Each success message names the user it acted on, and the group
      actions name the group too. */
  lemma MessageNamesTargets(a: AdminAction, input: Value)
    ensures exists i :: 0 <= i <= |SuccessMessage(a, input)| && StartsAt(SuccessMessage(a, input), i, UserIdText(input))
    ensures a == AddUserToGroup || a == RemoveUserFromGroup ==>
              EndsWith(SuccessMessage(a, input), GroupIdText(input))
  {
    MessageShape(a, input);
    if a == AddUserToGroup || a == RemoveUserFromGroup {
      MessageNamesGroup(a, input);
    }
  }

  /** A group action's message ends with the group id. */
  lemma MessageNamesGroup(a: AdminAction, input: Value)
    requires a == AddUserToGroup || a == RemoveUserFromGroup
    ensures EndsWith(SuccessMessage(a, input), GroupIdText(input))
  {
    var pre := MessageLead(a) + UserIdText(input);
    var group := GroupIdText(input);
    var link := if a == AddUserToGroup then " added to group " else " removed from group ";
    assert MessageTail(a, group) == link + group;
    assert SuccessMessage(a, input) == pre + (link + group);
    assert pre + (link + group) == (pre + link) + group;
    SuffixAt(pre + link, group);
  }
}

=== FILE: audit.dfy ===
/** The audit recorder (src/utils/audit.ts): one record per tool call, with
    a shallow redaction of sensitive top-level fields of the inputs and the
    result. The timestamp and the fresh correlation id come in as a stamp;
    the structured logger that receives the record is not modelled. */
module Audit {
  import opened Base
  import opened Text
  import opened Values
  import opened RolePolicy
  import opened AccessGuard

  datatype AuditRecord = AuditRecord(
    timestamp: string,
    correlationId: string,
    tool: string,
    caller: string,
    role: string,
    inputs: Value,
    result: Option<Value>,
    error: Option<Error>,
    ok: bool,
    oktaRequestId: Option<string>,
    duration: Option<int>)

  /** What the clock and the uuid generator supply to one audit call. */
  datatype Stamp = Stamp(timestamp: string, freshId: string)

  const RedactionMarker: Value := Str("[REDACTED]")

  const InputSensitiveFields: seq<string> := ["password", "secret", "token", "key"]

  const ResultSensitiveFields: seq<string> := ["tempPassword", "secret", "token"]

  /** Overwrites each of `fields` that `m` has with the marker. */
  function RedactFields(m: map<string, Value>, fields: seq<string>): (r: map<string, Value>)
    ensures r.Keys == m.Keys
    ensures forall k :: k in r ==> r[k] == (if k in fields then RedactionMarker else m[k])
    decreases |fields|
  {
    if |fields| == 0 then m
    else RedactFields(if fields[0] in m then m[fields[0] := RedactionMarker] else m, fields[1..])
  }

  /** The shared shape of `sanitizeInputs` and `sanitizeResult`: a falsy or
      non-object value passes through; anything else is copied with
      `{ ...v }` and the sensitive top-level fields it has are replaced by
      the marker. No field is added or dropped and nested values are left
      alone. */
  function Sanitize(v: Value, fields: seq<string>): (r: Value)
    ensures !Truthy(v) || !IsObjectType(v) ==> r == v
    ensures Truthy(v) && IsObjectType(v) ==> r.Obj? && r.fields.Keys == Spread(v).Keys
    ensures Truthy(v) && IsObjectType(v) ==>
              forall k :: k in r.fields ==>
                r.fields[k] == (if k in fields then RedactionMarker else Spread(v)[k])
  {
    if !Truthy(v) || !IsObjectType(v) then v else Obj(RedactFields(Spread(v), fields))
  }

  /** `sanitizeInputs`: redacts password, secret, token and key. */
  function SanitizeInputs(inputs: Value): (r: Value)
    ensures inputs.Obj? ==> r.Obj? && r.fields.Keys == inputs.fields.Keys
    ensures inputs.Obj? ==> forall k :: k in r.fields ==>
              r.fields[k] == (if k in {"password", "secret", "token", "key"} then RedactionMarker else inputs.fields[k])
  {
    Sanitize(inputs, InputSensitiveFields)
  }

  /** `sanitizeResult`: redacts tempPassword, secret and token, but not key. */
  function SanitizeResult(result: Value): (r: Value)
    ensures result.Obj? ==> r.Obj? && r.fields.Keys == result.fields.Keys
    ensures result.Obj? ==> forall k :: k in r.fields ==>
              r.fields[k] == (if k in {"tempPassword", "secret", "token"} then RedactionMarker else result.fields[k])
  {
    Sanitize(result, ResultSensitiveFields)
  }

  /** Sanitizing twice is sanitizing once. */
  lemma SanitizeIdempotent(v: Value, fields: seq<string>)
    ensures Sanitize(Sanitize(v, fields), fields) == Sanitize(v, fields)
  {
    var once := Sanitize(v, fields);
    if Truthy(v) && IsObjectType(v) {
      var twice := Sanitize(once, fields);
      assert twice.fields == once.fields;
    }
  }

  /** An array at the top level, empty or not, is truthy and is copied index
      by index into an object; index numerals are never sensitive names, so
      nothing is redacted. */
  lemma SpreadOfIndexedValueRedactsNothing(v: Value, fields: seq<string>)
    requires v.Arr?
    requires forall k :: 0 <= k < |fields| ==> !IsNumeral(fields[k])
    ensures Sanitize(v, fields) == Obj(Spread(v))
  {
    var r := Sanitize(v, fields);
    forall k | k in r.fields
      ensures r.fields[k] == Spread(v)[k]
    {
      assert IsNumeral(k);
      assert k !in fields;
    }
    assert r.fields == Spread(v);
  }

  /** The redaction example: the password is masked, the user id kept. */
  lemma RedactsPasswordKeepsUserId()
    ensures SanitizeInputs(Obj(map["userId" := Str("u1"), "password" := Str("secret")]))
         == Obj(map["userId" := Str("u1"), "password" := RedactionMarker])
  {
    var r := SanitizeInputs(Obj(map["userId" := Str("u1"), "password" := Str("secret")]));
    assert r.fields == map["userId" := Str("u1"), "password" := RedactionMarker];
  }

  /** A field called `key` is masked in inputs but kept in results. */
  lemma KeyMaskedInInputsOnly(m: map<string, Value>)
    requires "key" in m && m["key"] != RedactionMarker
    ensures SanitizeInputs(Obj(m)).fields["key"] == RedactionMarker
    ensures SanitizeResult(Obj(m)).fields["key"] == m["key"]
  {
  }

  /** The record's correlation id: the context's, or a fresh uuid. */
  function AuditCorrelationId(ctx: Context, freshId: string): (id: string)
    ensures RawCorrelationId(ctx).Some? && RawCorrelationId(ctx).value != "" ==> id == RawCorrelationId(ctx).value
    ensures RawCorrelationId(ctx).None? || RawCorrelationId(ctx).value == "" ==> id == freshId
  {
    OrElse(RawCorrelationId(ctx), freshId)
  }

  /** The record's role: the raw `callerRole` string, unchecked, or
      "analyst" when it is missing or empty. */
  function AuditRole(ctx: Context): (role: string)
    ensures RawRole(ctx).Some? && RawRole(ctx).value != "" ==> role == RawRole(ctx).value
    ensures RawRole(ctx).None? || RawRole(ctx).value == "" ==> role == "analyst"
  {
    OrElse(RawRole(ctx), "analyst")
  }

  /** `audit`: one record per call. It is ok iff no error was passed; it
      carries the sanitized result only when the result is truthy and the
      error's message and code only when an error was passed. */
  function Audit(
    tool: string, inputs: Value, result: Value, ctx: Context, error: Option<Error>,
    oktaRequestId: Option<string>, duration: Option<int>, stamp: Stamp): (rec: AuditRecord)
    ensures rec.ok <==> error.None?
    ensures rec.error == error
    ensures rec.result.Some? <==> Truthy(result)
    ensures rec.result.Some? ==> rec.result.value == SanitizeResult(result)
    ensures rec.inputs == SanitizeInputs(inputs)
    ensures rec.tool == tool && rec.caller == CallerFromContext(ctx)
    ensures rec.oktaRequestId == oktaRequestId && rec.duration == duration
    ensures rec.timestamp == stamp.timestamp
    ensures rec.role == (if RawRole(ctx).Some? && RawRole(ctx).value != "" then RawRole(ctx).value else "analyst")
    ensures rec.correlationId ==
              (if RawCorrelationId(ctx).Some? && RawCorrelationId(ctx).value != ""
               then RawCorrelationId(ctx).value else stamp.freshId)
  {
    AuditRecord(
      stamp.timestamp,
      AuditCorrelationId(ctx, stamp.freshId),
      tool,
      OrElse(RawCaller(ctx), "unknown"),
      AuditRole(ctx),
      SanitizeInputs(inputs),
      if Truthy(result) then Some(SanitizeResult(result)) else None,
      error,
      error.None?,
      oktaRequestId,
      duration)
  }

  /** The audited role agrees with the role the guard enforced exactly when
      the context's role is missing, empty or a real role name; any other
      string is logged verbatim while the guard treats the caller as
      analyst. */
  lemma AuditRoleMatchesGuardRole(ctx: Context)
    ensures AuditRole(ctx) == Name(RoleFromContext(ctx))
        <==> RawRole(ctx).None? || RawRole(ctx).value == "" || IsRoleValid(RawRole(ctx).value)
  {
    var raw := RawRole(ctx);
    if raw.Some? && raw.value != "" && IsRoleValid(raw.value) {
      ParseName(RoleFromContext(ctx));
    }
  }

  /** A context without a correlation id is audited under the fresh uuid,
      while `getCorrelationIdFromContext` reports "unknown". */
  lemma AuditCorrelationIdMatchesGuard(ctx: Context, freshId: string)
    ensures AuditCorrelationId(ctx, freshId) == CorrelationIdFromContext(ctx)
        <==> (RawCorrelationId(ctx).Some? && RawCorrelationId(ctx).value != "") || freshId == "unknown"
  {
  }
}

=== FILE: base.dfy ===
/** Failure-compatible wrappers and the error value that the server's
    handlers throw. */
module Base {

  datatype Option<+T> = None | Some(value: T)

  /** A JavaScript `Error`: its message and the optional `code` property
      that the audit recorder copies. */
  datatype Error = Error(message: string, code: Option<string>)

  /** A computation that either returns a value or throws. */
  datatype Result<+T> = Success(value: T) | Failure(error: Error) {

    predicate IsFailure() {
      Failure?
    }

    function PropagateFailure<U>(): Result<U>
      requires Failure?
    {
      Failure(error)
    }

    function Extract(): T
      requires Success?
    {
      value
    }
  }

  /** A plain `new Error(message)`: it carries no `code`. */
  function Plain(message: string): Error
  {
    Error(message, None)
  }
}

=== FILE: catalog.dfy ===
/** The tool catalog the server registers (src/server.ts): the five read
    tools, then each destructive action's preview and execute tools. An
    invocation names a tool and carries a raw payload; the payload goes
    through the tool's input schema before the handler sees it. */
module Catalog {
  import opened Base
  import opened Text
  import opened Values
  import opened RolePolicy
  import opened AccessGuard
  import opened Schemas
  import opened Invocation
  import R = ReadHandlers
  import A = AdminHandlers

  datatype Tool =
    | ReadOnly(read: R.ReadTool)
    | PreviewOf(action: A.AdminAction)
    | ExecuteOf(action: A.AdminAction)

  function NameOf(tool: Tool): string {
    match tool
    case ReadOnly(t) => R.ToolName(t)
    case PreviewOf(a) => A.BaseName(a)
    case ExecuteOf(a) => A.ConfirmName(a)
  }

  /** The tools in registration order. */
  const Tools: seq<Tool> := [
    ReadOnly(R.GetUserByEmail), ReadOnly(R.SearchUsers), ReadOnly(R.ListGroups),
    ReadOnly(R.ListApps), ReadOnly(R.SystemLog),
    PreviewOf(A.SuspendUser), ExecuteOf(A.SuspendUser),
    PreviewOf(A.UnsuspendUser), ExecuteOf(A.UnsuspendUser),
    PreviewOf(A.DeactivateUser), ExecuteOf(A.DeactivateUser),
    PreviewOf(A.ReactivateUser), ExecuteOf(A.ReactivateUser),
    PreviewOf(A.ClearUserSessions), ExecuteOf(A.ClearUserSessions),
    PreviewOf(A.AddUserToGroup), ExecuteOf(A.AddUserToGroup),
    PreviewOf(A.RemoveUserFromGroup), ExecuteOf(A.RemoveUserFromGroup),
    PreviewOf(A.ResetPassword), ExecuteOf(A.ResetPassword)]

  /** The tools the administrator's allow list names, in its order: the
      read tools, then each action's preview tool. */
  const Listed: seq<Tool> := [
    ReadOnly(R.GetUserByEmail), ReadOnly(R.SearchUsers), ReadOnly(R.ListGroups),
    ReadOnly(R.ListApps), ReadOnly(R.SystemLog),
    PreviewOf(A.SuspendUser), PreviewOf(A.UnsuspendUser), PreviewOf(A.DeactivateUser),
    PreviewOf(A.ReactivateUser), PreviewOf(A.ClearUserSessions), PreviewOf(A.AddUserToGroup),
    PreviewOf(A.RemoveUserFromGroup), PreviewOf(A.ResetPassword)]

  /** The first tool from index `from` on with the given name. */
  function FindTool(name: string, from: nat): (tool: Option<Tool>)
    requires from <= |Tools|
    ensures tool.Some? ==> NameOf(tool.value) == name && tool.value in Tools[from..]
    ensures tool.None? ==> forall i :: from <= i < |Tools| ==> NameOf(Tools[i]) != name
    decreases |Tools| - from
  {
    if from == |Tools| then None
    else if NameOf(Tools[from]) == name then Some(Tools[from])
    else FindTool(name, from + 1)
  }

  /** The tool registered under a name, if any. */
  function Lookup(name: string): (tool: Option<Tool>)
    ensures tool.Some? ==> NameOf(tool.value) == name && tool.value in Tools
    ensures tool.None? ==> forall i :: 0 <= i < |Tools| ==> NameOf(Tools[i]) != name
  {
    FindTool(name, 0)
  }

  /** The payload a tool's schema makes of a raw one. */
  function ParseInput(tool: Tool, raw: Value): Result<Value> {
    match tool
    case ReadOnly(t) => ParseObject(R.SchemaOf(t), raw)
    case PreviewOf(_) => ParseObject(A.PreviewSchema, raw)
    case ExecuteOf(a) => A.ParseExecuteInput(a, raw)
  }

  /** A tool's handler on an accepted payload. */
  function Handle(tool: Tool, input: Value, ctx: Context, env: Env): Run {
    match tool
    case ReadOnly(t) => R.Invoke(t, input, ctx, env)
    case PreviewOf(a) => A.Preview(a, input)
    case ExecuteOf(a) => A.Execute(a, input, ctx, env)
  }

  /** A registered tool on a raw payload: a payload the schema rejects is
      refused before any handler runs; otherwise the tool's handler runs
      on the accepted payload. */
  function Dispatch(tool: Tool, raw: Value, ctx: Context, env: Env): (run: Run)
    ensures ParseInput(tool, raw).Failure? ==> run == Run([], Failure(InvalidInput))
    ensures Audits(run.trace) == (if tool.PreviewOf? || ParseInput(tool, raw).Failure? then 0 else 1)
    ensures !tool.ExecuteOf? ==> Writes(run.trace) == 0
  {
    match ParseInput(tool, raw)
    case Failure(e) => Run([], Failure(e))
    case Success(input) => Handle(tool, input, ctx, env)
  }

  /** An invocation by name: a name no registered tool carries finds
      nothing; otherwise the one tool registered under it runs. */
  function Invoke(name: string, raw: Value, ctx: Context, env: Env): (run: Option<Run>)
    ensures run.None? <==> forall t :: t in Tools ==> NameOf(t) != name
    ensures forall t :: t in Tools && NameOf(t) == name ==> run == Some(Dispatch(t, raw, ctx, env))
  {
    match Lookup(name)
    case None => None
    case Some(tool) =>
      OnlyToolWithName(tool);
      Some(Dispatch(tool, raw, ctx, env))
  }

  /** A registered tool is the only one registered under its name. */
  lemma OnlyToolWithName(tool: Tool)
    ensures forall t :: t in Tools && NameOf(t) == NameOf(tool) ==> t == tool
  {
    forall t | t in Tools && NameOf(t) == NameOf(tool)
      ensures t == tool
    {
      NamesIdentifyTools(t, tool);
    }
  }

  // ---------------------------------------------------------------------
  // Properties

  /** Every tool the model knows is registered. */
  lemma EveryToolRegistered(t: Tool)
    ensures t in Tools
  {
    match t
    case ReadOnly(r) =>
      assert Tools[r.Index()] == t;
    case PreviewOf(a) =>
      assert Tools[5 + 2 * a.Index()] == t;
    case ExecuteOf(a) =>
      assert Tools[6 + 2 * a.Index()] == t;
  }

  /** No name ends in the confirmation suffix except an execute tool's. */
  lemma SuffixMarksExecute(t: Tool)
    ensures EndsWith(NameOf(t), A.ConfirmSuffix) <==> t.ExecuteOf?
  {
    var name := NameOf(t);
    if t.ExecuteOf? {
      assert name[|name| - |A.ConfirmSuffix|..] == A.ConfirmSuffix;
    } else {
      ConfirmEndsInM(name);
    }
  }

  /** Names identify tools: no two tools are registered under one name. */
  lemma NamesIdentifyTools(t: Tool, u: Tool)
    requires NameOf(t) == NameOf(u)
    ensures t == u
  {
    SuffixMarksExecute(t);
    SuffixMarksExecute(u);
    if t.ExecuteOf? {
      var n := |NameOf(t)| - |A.ConfirmSuffix|;
      assert NameOf(t)[..n] == A.BaseName(t.action);
      assert NameOf(u)[..n] == A.BaseName(u.action);
      BaseNamesDistinct(PreviewOf(t.action), PreviewOf(u.action));
    } else {
      BaseNamesDistinct(t, u);
    }
  }

  /** The read tools' names and the actions' base names are pairwise
      different. */
  lemma BaseNamesDistinct(t: Tool, u: Tool)
    requires !t.ExecuteOf? && !u.ExecuteOf? && NameOf(t) == NameOf(u)
    ensures t == u
  {
  }

  /** Looking up a tool's name finds that tool. */
  lemma LookupFindsEachTool(t: Tool)
    ensures Lookup(NameOf(t)) == Some(t)
  {
    EveryToolRegistered(t);
    var i :| 0 <= i < |Tools| && Tools[i] == t;
    assert NameOf(Tools[i]) == NameOf(t);
    NamesIdentifyTools(Lookup(NameOf(t)).value, t);
  }

  /** The administrator's allow list names the tools of `Listed`. */
  lemma ListedNames()
    ensures |Listed| == |AllowList(Admin)|
    ensures forall k :: 0 <= k < |Listed| ==> NameOf(Listed[k]) == AllowList(Admin)[k]
    ensures forall k :: 0 <= k < |Listed| ==> !Listed[k].ExecuteOf?
  {
  }

  /** Every tool a role may use names a read tool or an action's preview
      tool; no role lists an execute tool. */
  lemma AllowedNamesAreTools(r: Role, name: string)
    requires name in Allowed(r)
    ensures Lookup(name).Some? && !Lookup(name).value.ExecuteOf?
  {
    AllowListsNested();
    ListedNames();
    assert name in Allowed(Admin);
    var k :| 0 <= k < |Listed| && AllowList(Admin)[k] == name;
    LookupFindsEachTool(Listed[k]);
  }

  /** Only an execute tool writes at Okta, and only when its payload said
      `confirm: true` and the caller's role lists the action's base name. */
  lemma OnlyConfirmedPermittedExecutionsWrite(name: string, raw: Value, ctx: Context, env: Env)
    requires Invoke(name, raw, ctx, env).Some?
    requires Writes(Invoke(name, raw, ctx, env).value.trace) > 0
    ensures exists a: A.AdminAction ::
              && name == A.ConfirmName(a)
              && FieldOf(raw, "confirm") == Bool(true)
              && A.BaseName(a) in AllowList(RoleFromContext(ctx))
  {
    var tool := Lookup(name).value;
    match tool
    case ReadOnly(t) =>
      assert false;
    case PreviewOf(a) =>
      assert false;
    case ExecuteOf(a) =>
      if FieldOf(raw, "confirm") != Bool(true) {
        A.ConfirmRequired(a, raw);
        assert false;
      }
  }

  /** Every invocation is audited at most once: previews and refused
      payloads never, every other accepted invocation exactly once. */
  lemma AuditedAtMostOnce(name: string, raw: Value, ctx: Context, env: Env)
    requires Invoke(name, raw, ctx, env).Some?
    ensures var tool := Lookup(name).value;
            Audits(Invoke(name, raw, ctx, env).value.trace)
              == (if tool.PreviewOf? || ParseInput(tool, raw).Failure? then 0 else 1)
  {
  }

  /** An execute tool's name reaches that action's execution with the
      payload its schema accepted. */
  lemma ConfirmNameReachesExecute(a: A.AdminAction, raw: Value, ctx: Context, env: Env)
    requires A.ParseExecuteInput(a, raw).Success?
    ensures Invoke(A.ConfirmName(a), raw, ctx, env)
              == Some(A.Execute(a, A.ParseExecuteInput(a, raw).value, ctx, env))
  {
    EveryToolRegistered(ExecuteOf(a));
    DispatchExecute(a, raw, ctx, env);
  }

  /** A registered execute tool runs the action's execution on the payload
      its schema accepted. */
  lemma DispatchExecute(a: A.AdminAction, raw: Value, ctx: Context, env: Env)
    requires A.ParseExecuteInput(a, raw).Success?
    ensures Dispatch(ExecuteOf(a), raw, ctx, env) == A.Execute(a, A.ParseExecuteInput(a, raw).value, ctx, env)
  {
    var parsed := A.ParseExecuteInput(a, raw);
    assert ParseInput(ExecuteOf(a), raw) == parsed;
  }

  /** An execute tool whose base name the caller's role does not list
      does nothing at Okta, even on a confirmed, well-formed payload: the
      denial is audited once and thrown. */
  lemma UnlistedExecutionDenied(a: A.AdminAction, raw: Value, ctx: Context, env: Env)
    requires A.BaseName(a) !in AllowList(RoleFromContext(ctx))
    requires A.ParseExecuteInput(a, raw).Success?
    ensures Invoke(A.ConfirmName(a), raw, ctx, env).Some?
    ensures var run := Invoke(A.ConfirmName(a), raw, ctx, env).value;
            && Calls(run.trace) == 0 && Audits(run.trace) == 1
            && run.result == Failure(Plain(DenialMessage(RoleFromContext(ctx), A.BaseName(a))))
  {
    var input := A.ParseExecuteInput(a, raw).value;
    ConfirmNameReachesExecute(a, raw, ctx, env);
    A.DeniedExecutionActsNever(a, input, ctx, env);
  }

  /** The helpdesk role lists every action's base name but deactivation's
      and reactivation's. */
  lemma HelpdeskLists(a: A.AdminAction)
    ensures A.BaseName(a) in AllowList(Helpdesk) <==> !(a.DeactivateUser? || a.ReactivateUser?)
  {
    var list := AllowList(Helpdesk);
    match a
    case SuspendUser => assert list[5] == A.BaseName(a);
    case UnsuspendUser => assert list[6] == A.BaseName(a);
    case ClearUserSessions => assert list[7] == A.BaseName(a);
    case AddUserToGroup => assert list[8] == A.BaseName(a);
    case RemoveUserFromGroup => assert list[9] == A.BaseName(a);
    case ResetPassword => assert list[10] == A.BaseName(a);
    case DeactivateUser =>
    case ReactivateUser =>
  }

  /** A helpdesk caller can neither deactivate nor reactivate a user, and
      those are the only actions it cannot perform. */
  lemma HelpdeskCannotDeactivate(a: A.AdminAction, raw: Value, ctx: Context, env: Env)
    requires RoleFromContext(ctx) == Helpdesk
    requires A.ParseExecuteInput(a, raw).Success?
    ensures Invoke(A.ConfirmName(a), raw, ctx, env).Some?
    ensures var run := Invoke(A.ConfirmName(a), raw, ctx, env).value;
            Calls(run.trace) == 0 <==> a.DeactivateUser? || a.ReactivateUser?
  {
    ConfirmNameReachesExecute(a, raw, ctx, env);
    var run := Invoke(A.ConfirmName(a), raw, ctx, env).value;
    HelpdeskLists(a);
    if a.DeactivateUser? || a.ReactivateUser? {
      UnlistedExecutionDenied(a, raw, ctx, env);
    } else {
      assert Calls(run.trace) == 1;
    }
  }

  /** A deactivation payload with a user id and `confirm: true` passes the
      execute schema. */
  lemma DeactivatePayloadAccepted(userId: string)
    requires userId != ""
    ensures A.ParseExecuteInput(A.DeactivateUser, Obj(map["userId" := Str(userId), "confirm" := Bool(true)])).Success?
  {
    var raw := Obj(map["userId" := Str(userId), "confirm" := Bool(true)]);
    assert FieldsPass(A.SchemaOf(A.DeactivateUser), raw) by {
      assert A.SchemaOf(A.DeactivateUser) == map["userId" := NonEmptyString];
    }
    assert FieldsPass(A.ConfirmSchema, raw);
  }
}

=== FILE: invocation.dfy ===
/** One tool invocation as an explicit trace of events. The HTTP client,
    the clock and the uuid generator come in as an environment; what the
    handler would have awaited or thrown becomes the run's trace and its
    result (a `Failure` is a thrown error). The shared shape of both tool
    wrappers — guard, handler, one audit, re-throw — is `GuardedRun`
    (src/tools/read-tools.ts and src/tools/admin-tools.ts). */
module Invocation {
  import opened Base
  import opened Values
  import opened RolePolicy
  import opened AccessGuard
  import opened Audit
  import opened OktaClient

  datatype Verb = GET | POST | PUT | DELETE

  /** One call to the Okta API: verb, path and the `params` object. */
  datatype Request = Request(verb: Verb, path: string, params: map<string, Value>)

  /** An API answer: its body and its (lower-cased) headers. */
  datatype Response = Response(data: Value, headers: map<string, string>)

  datatype Event =
    | Guarded(tool: string)            // ensureAllowed was consulted
    | Called(request: Request)         // a request went to the Okta API
    | Warned(warning: RateLimitWarning)
    | Audited(record: AuditRecord)

  /** What one invocation receives from outside: the API's answer to each
      request, the elapsed time the audit reports, and the clock reading
      and fresh uuid of the audit record. */
  datatype Env = Env(provider: Request -> Result<Response>, duration: int, stamp: Stamp)

  /** The events of an invocation in order, and what it returned
      (`Success`) or threw (`Failure`). */
  datatype Run = Run(trace: seq<Event>, result: Result<Value>)

  function Audits(trace: seq<Event>): nat {
    if |trace| == 0 then 0 else (if trace[0].Audited? then 1 else 0) + Audits(trace[1..])
  }

  function Calls(trace: seq<Event>): nat {
    if |trace| == 0 then 0 else (if trace[0].Called? then 1 else 0) + Calls(trace[1..])
  }

  /** Calls that change something at Okta: anything but a GET. */
  function Writes(trace: seq<Event>): nat {
    if |trace| == 0 then 0
    else (if trace[0].Called? && !trace[0].request.verb.GET? then 1 else 0) + Writes(trace[1..])
  }

  /** Event counts add up over concatenated traces. */
  lemma {:induction false} CountsAppend(a: seq<Event>, b: seq<Event>)
    ensures Audits(a + b) == Audits(a) + Audits(b)
    ensures Calls(a + b) == Calls(a) + Calls(b)
    ensures Writes(a + b) == Writes(a) + Writes(b)
    decreases |a|
  {
    if |a| > 0 {
      assert (a + b)[0] == a[0];
      assert (a + b)[1..] == a[1..] + b;
      CountsAppend(a[1..], b);
    } else {
      assert a + b == b;
    }
  }

  /** The counts of a one-event trace. */
  lemma CountsOne(e: Event)
    ensures Audits([e]) == (if e.Audited? then 1 else 0)
    ensures Calls([e]) == (if e.Called? then 1 else 0)
    ensures Writes([e]) == (if e.Called? && !e.request.verb.GET? then 1 else 0)
  {
    assert [e][1..] == [];
  }

  /** No request writes without being a call. */
  lemma {:induction false} WritesAreCalls(trace: seq<Event>)
    ensures Writes(trace) <= Calls(trace)
    decreases |trace|
  {
    if |trace| > 0 {
      WritesAreCalls(trace[1..]);
    }
  }

  /** The warning event `handleRateLimit` leaves, if any. */
  function RateLimitEvents(headers: map<string, string>): (events: seq<Event>)
    ensures |events| <= 1
    ensures |events| == 1 <==> HandleRateLimit(headers).Some?
    ensures Calls(events) == 0 && Audits(events) == 0 && Writes(events) == 0
  {
    match HandleRateLimit(headers)
    case None => []
    case Some(w) =>
      CountsOne(Warned(w));
      [Warned(w)]
  }

  /** `const res = await okta.<verb>(...)`, then, when `checkRate`,
      `handleRateLimit(res.headers)`, then the rest of the handler: the
      request is made exactly once, a failed request is re-thrown as it
      is, and an answer is passed on. */
  function Exchange(env: Env, req: Request, checkRate: bool, rest: Response -> Result<Value>): (run: Run)
    ensures |run.trace| >= 1 && run.trace[0] == Called(req)
    ensures Calls(run.trace) == 1 && Audits(run.trace) == 0
    ensures Writes(run.trace) == (if req.verb.GET? then 0 else 1)
    ensures env.provider(req).Failure? ==> run == Run([Called(req)], Failure(env.provider(req).error))
    ensures env.provider(req).Success? ==> run.result == rest(env.provider(req).value)
  {
    match env.provider(req)
    case Failure(e) => Run([Called(req)], Failure(e))
    case Success(res) =>
      var warned := if checkRate then RateLimitEvents(res.headers) else [];
      CountsAppend([Called(req)], warned);
      Run([Called(req)] + warned, rest(res))
  }

  /** The audit of a failed invocation: the inputs as received, a null
      result and the thrown error. */
  function FailureAudit(tool: string, input: Value, ctx: Context, env: Env, e: Error): AuditRecord {
    Audit.Audit(tool, input, Null, ctx, Some(e), None, Some(env.duration), env.stamp)
  }

  /** The audit of a successful invocation. */
  function SuccessAudit(tool: string, input: Value, result: Value, ctx: Context, env: Env): AuditRecord {
    Audit.Audit(tool, input, result, ctx, None, None, Some(env.duration), env.stamp)
  }

  /** A successful invocation's record keeps the sanitized copy of an
      object result. */
  lemma SuccessAuditOfObject(tool: string, input: Value, result: Value, ctx: Context, env: Env)
    requires result.Obj?
    ensures SuccessAudit(tool, input, result, ctx, env).result == Some(SanitizeResult(result))
  {
  }

  /** The last event of a non-empty trace. */
  function LastEvent(trace: seq<Event>): Event
    requires |trace| > 0
  {
    trace[|trace| - 1]
  }

  /** The wrapper both tool kinds share: `ensureAllowed(tool, ctx)`, then
      the handler, then one audit, re-throwing what was thrown. `input` is
      audited on failure and `auditedOnSuccess` on success; `body` is what
      the handler does, and it is not run when the guard denies. */
  function GuardedRun(tool: string, input: Value, auditedOnSuccess: Value, ctx: Context, env: Env, body: Run): (run: Run)
    ensures |run.trace| >= 2 && run.trace[0] == Guarded(tool) && LastEvent(run.trace).Audited?
    ensures run.result.Success? <==> tool in AllowList(RoleFromContext(ctx)) && body.result.Success?
    ensures run.result.Success? ==> run.result == body.result
    ensures LastEvent(run.trace).record.ok <==> run.result.Success?
    ensures LastEvent(run.trace).record.tool == tool
    ensures tool !in AllowList(RoleFromContext(ctx)) ==>
              && run.trace == [Guarded(tool), LastEvent(run.trace)]
              && run.result == Failure(Plain(DenialMessage(RoleFromContext(ctx), tool)))
    ensures tool in AllowList(RoleFromContext(ctx)) ==> run.trace == [Guarded(tool)] + body.trace + [LastEvent(run.trace)]
    ensures run.result.Failure? ==> LastEvent(run.trace).record == FailureAudit(tool, input, ctx, env, run.result.error)
    ensures run.result.Success? ==>
              LastEvent(run.trace).record == SuccessAudit(tool, auditedOnSuccess, run.result.value, ctx, env)
  {
    match EnsureAllowed(tool, ctx)
    case Deny(e) => Run([Guarded(tool), Audited(FailureAudit(tool, input, ctx, env, e))], Failure(e))
    case Permit =>
      match body.result
      case Failure(e) =>
        Run([Guarded(tool)] + body.trace + [Audited(FailureAudit(tool, input, ctx, env, e))], Failure(e))
      case Success(v) =>
        Run([Guarded(tool)] + body.trace + [Audited(SuccessAudit(tool, auditedOnSuccess, v, ctx, env))], Success(v))
  }

  /** A guarded invocation is audited exactly once whatever happens, as
      long as the handler itself does not audit. */
  lemma ExactlyOneAudit(tool: string, input: Value, audited: Value, ctx: Context, env: Env, body: Run)
    requires Audits(body.trace) == 0
    ensures Audits(GuardedRun(tool, input, audited, ctx, env, body).trace) == 1
  {
    var run := GuardedRun(tool, input, audited, ctx, env, body);
    var last := LastEvent(run.trace);
    CountsOne(Guarded(tool));
    CountsOne(last);
    if tool in AllowList(RoleFromContext(ctx)) {
      assert run.trace == [Guarded(tool)] + body.trace + [last];
      CountsAppend([Guarded(tool)], body.trace);
      CountsAppend([Guarded(tool)] + body.trace, [last]);
    } else {
      assert run.trace == [Guarded(tool)] + [last];
      CountsAppend([Guarded(tool)], [last]);
    }
  }

  /** The API is reached only through a permitted handler: a denied
      invocation makes no request, and a permitted one makes exactly the
      handler's requests. */
  lemma CallsOnlyWhenPermitted(tool: string, input: Value, audited: Value, ctx: Context, env: Env, body: Run)
    ensures var run := GuardedRun(tool, input, audited, ctx, env, body);
            && Calls(run.trace) == (if tool in AllowList(RoleFromContext(ctx)) then Calls(body.trace) else 0)
            && Writes(run.trace) == (if tool in AllowList(RoleFromContext(ctx)) then Writes(body.trace) else 0)
  {
    var run := GuardedRun(tool, input, audited, ctx, env, body);
    var last := LastEvent(run.trace);
    CountsOne(Guarded(tool));
    CountsOne(last);
    if tool in AllowList(RoleFromContext(ctx)) {
      assert run.trace == [Guarded(tool)] + body.trace + [last];
      CountsAppend([Guarded(tool)], body.trace);
      CountsAppend([Guarded(tool)] + body.trace, [last]);
    } else {
      assert run.trace == [Guarded(tool)] + [last];
      CountsAppend([Guarded(tool)], [last]);
    }
  }

  /** A permitted invocation is the guard, the handler's events and the
      audit of what the handler returned or threw. */
  lemma PermittedRun(tool: string, input: Value, audited: Value, ctx: Context, env: Env, body: Run)
    requires tool in AllowList(RoleFromContext(ctx))
    ensures var run := GuardedRun(tool, input, audited, ctx, env, body);
            && run.result == body.result
            && run.trace == [Guarded(tool)] + body.trace + [Audited(
                 if body.result.Success? then SuccessAudit(tool, audited, body.result.value, ctx, env)
                 else FailureAudit(tool, input, ctx, env, body.result.error))]
  {
  }
}

=== FILE: link_header.dfy ===
/** The two regular expressions that read an HTTP `Link` header:
    `/<([^>]+)>;\s*rel="next"/` (src/utils/okta-client.ts) and the global
    `/<([^>]+)>;\s*rel="([^"]+)"/g` (src/utils/validation.ts).

    Each is modelled as a matcher at one position plus a left-to-right
    scan. The matchers need no backtracking: `[^>]+` can only stop at the
    first `>`, `\s*` can only stop at the `r` of `rel`, and `[^"]+` can only
    stop at the first `"`. */
module LinkHeader {
  import opened Base
  import opened Text

  /** A match of `<([^>]+)>;\s*rel="`: the URL and the index just past the
      opening quote of the relation. */
  datatype Target = Target(url: string, relStart: nat)

  function TargetAt(s: string, i: nat): (t: Option<Target>)
    requires i <= |s|
    ensures t.Some? ==> i < |s| && s[i] == '<' && t.value.relStart <= |s|
    ensures t.Some? ==> |t.value.url| > 0
  {
    if i < |s| && s[i] == '<' then
      var j := Find(s, i + 1, '>');
      if j > i + 1 && j + 1 < |s| && s[j + 1] == ';' then
        var k := Span(s, j + 2, IsSpace);
        if StartsAt(s, k, "rel=\"") then
          Some(Target(s[i + 1..j], k + 5))
        else None
      else None
    else None
  }

  /** A match of the `next` pattern at index `i`: its URL. */
  function NextAt(s: string, i: nat): Option<string>
    requires i <= |s|
  {
    match TargetAt(s, i)
    case None => None
    case Some(t) => if StartsAt(s, t.relStart, "next\"") then Some(t.url) else None
  }

  /** Where `exec` finds the `next` pattern when searching from `from`: the
      least index with a match. */
  function FirstNext(s: string, from: nat): (i: Option<nat>)
    requires from <= |s|
    ensures i.Some? ==> from <= i.value < |s| && NextAt(s, i.value).Some?
    ensures i.Some? ==> forall j :: from <= j < i.value ==> NextAt(s, j).None?
    ensures i.None? ==> forall j :: from <= j <= |s| ==> NextAt(s, j).None?
    decreases |s| - from
  {
    if from == |s| then None
    else if NextAt(s, from).Some? then Some(from)
    else FirstNext(s, from + 1)
  }

  /** One match of the general pattern: URL, relation and the index where
      the global search resumes. */
  datatype LinkMatch = LinkMatch(url: string, rel: string, end: nat)

  function RelMatchAt(s: string, i: nat): (m: Option<LinkMatch>)
    requires i <= |s|
    ensures m.Some? ==> i < m.value.end <= |s|
    ensures m.Some? ==> |m.value.url| > 0 && |m.value.rel| > 0
  {
    match TargetAt(s, i)
    case None => None
    case Some(t) =>
      var q := Find(s, t.relStart, '"');
      if q > t.relStart && q < |s| then
        Some(LinkMatch(t.url, s[t.relStart..q], q + 1))
      else None
  }

  /** Every match the global pattern finds from `from` on, in order: each
      search starts where the previous match ended. */
  function AllMatches(s: string, from: nat): (ms: seq<LinkMatch>)
    requires from <= |s|
    ensures forall k :: 0 <= k < |ms| ==> ms[k].end <= |s|
    decreases |s| - from
  {
    if from == |s| then []
    else match RelMatchAt(s, from)
      case Some(m) => [m] + AllMatches(s, m.end)
      case None => AllMatches(s, from + 1)
  }

  /** What follows the URL of a link up to its relation. */
  const LinkMiddle: string := ">; rel=\""

  /** A well-formed link `<url>; rel="rel"`. */
  function Link(url: string, rel: string): string {
    "<" + url + LinkMiddle + rel + "\""
  }

  /** The first pattern matches at `i` when a `<` is followed by a URL free
      of `>` and then by `>; rel="`. */
  lemma TargetAtIs(s: string, i: nat, j: nat)
    requires j > i + 1 && StartsAt(s, j, LinkMiddle) && s[i] == '<'
    requires forall k :: i + 1 <= k < j ==> s[k] != '>'
    ensures TargetAt(s, i) == Some(Target(s[i + 1..j], j + 8))
  {
    assert s[j..j + 8] == LinkMiddle;
    assert s[j] == LinkMiddle[0];
    assert s[j + 1] == LinkMiddle[1];
    assert s[j + 2] == LinkMiddle[2];
    assert s[j + 3] == LinkMiddle[3];
    FindIs(s, i + 1, '>', j);
    SpanIs(s, j + 2, IsSpace, j + 3);
    assert s[j + 3..j + 8] == s[j..j + 8][3..];
    assert LinkMiddle[3..] == "rel=\"";
  }

  /** Where the parts of a link sit inside a header that holds it at
      index `i`. */
  lemma LinkLayout(s: string, i: nat, url: string, rel: string)
    requires StartsAt(s, i, Link(url, rel))
    ensures var j := i + 1 + |url|;
            && j + 9 + |rel| <= |s|
            && s[i] == '<'
            && s[i + 1..j] == url
            && s[j..j + 8] == LinkMiddle
            && s[j + 8..j + 8 + |rel|] == rel
            && s[j + 8 + |rel|] == '"'
  {
    var l := Link(url, rel);
    var j := i + 1 + |url|;
    assert l == ['<'] + url + LinkMiddle + rel + ['"'];
    assert l[1..1 + |url|] == url;
    assert l[1 + |url|..9 + |url|] == LinkMiddle;
    assert l[9 + |url|..9 + |url| + |rel|] == rel;
    assert s[i] == s[i..i + |l|][0];
    StartsAtPart(s, i, l, 1, 1 + |url|);
    StartsAtPart(s, i, l, 1 + |url|, 9 + |url|);
    StartsAtPart(s, i, l, 9 + |url|, 9 + |url| + |rel|);
    assert s[j + 8 + |rel|] == s[i..i + |l|][9 + |url| + |rel|];
  }

  /** The link `Link(url, rel)` held at index `i` of a header is found there
      by the first half of both patterns. */
  lemma TargetOfLink(s: string, i: nat, url: string, rel: string)
    requires StartsAt(s, i, Link(url, rel))
    requires |url| > 0 && '>' !in url
    ensures TargetAt(s, i) == Some(Target(url, i + |url| + 9))
  {
    var j := i + 1 + |url|;
    LinkLayout(s, i, url, rel);
    forall k | i + 1 <= k < j
      ensures s[k] != '>'
    {
      assert s[k] == s[i + 1..j][k - i - 1];
    }
    TargetAtIs(s, i, j);
  }

  /** A link written by `Link` is matched where it starts by the general
      pattern, and the match ends right after it. */
  lemma RelMatchOfLink(s: string, i: nat, url: string, rel: string)
    requires StartsAt(s, i, Link(url, rel))
    requires |url| > 0 && '>' !in url
    requires |rel| > 0 && '"' !in rel
    ensures RelMatchAt(s, i) == Some(LinkMatch(url, rel, i + |Link(url, rel)|))
  {
    TargetOfLink(s, i, url, rel);
    LinkLayout(s, i, url, rel);
    var r := i + |url| + 9;
    forall k | r <= k < r + |rel|
      ensures s[k] != '"'
    {
      assert s[k] == s[r..r + |rel|][k - r];
    }
    FindIs(s, r, '"', r + |rel|);
  }

  /** A `next` link written by `Link` is matched where it starts by the
      `next` pattern. */
  lemma NextOfLink(s: string, i: nat, url: string)
    requires StartsAt(s, i, Link(url, "next"))
    requires |url| > 0 && '>' !in url
    ensures NextAt(s, i) == Some(url)
  {
    TargetOfLink(s, i, url, "next");
    LinkLayout(s, i, url, "next");
    var r := i + |url| + 9;
    assert s[r..r + 4] == "next";
    assert s[r + 4] == '"';
    assert s[r..r + 5] == "next\"";
  }

  /** A character that cannot start a match is skipped by both scans. */
  lemma NoMatchUnlessAngle(s: string, i: nat)
    requires i < |s| && s[i] != '<'
    ensures TargetAt(s, i).None? && RelMatchAt(s, i).None? && NextAt(s, i).None?
  {
  }

  /** The global scan steps over a character that cannot start a match. */
  lemma AllMatchesSkip(s: string, i: nat)
    requires i < |s| && s[i] != '<'
    ensures AllMatches(s, i) == AllMatches(s, i + 1)
  {
    NoMatchUnlessAngle(s, i);
  }

  /** The global scan reads a link written by `Link` and resumes after it. */
  lemma AllMatchesAtLink(s: string, i: nat, url: string, rel: string, end: nat)
    requires StartsAt(s, i, Link(url, rel)) && end == i + |Link(url, rel)|
    requires |url| > 0 && '>' !in url
    requires |rel| > 0 && '"' !in rel
    ensures AllMatches(s, i) == [LinkMatch(url, rel, end)] + AllMatches(s, end)
  {
    RelMatchOfLink(s, i, url, rel);
    AllMatchesStep(s, i, LinkMatch(url, rel, end));
  }

  /** The global scan takes a match where one starts and resumes after it. */
  lemma AllMatchesStep(s: string, i: nat, m: LinkMatch)
    requires i < |s| && RelMatchAt(s, i) == Some(m)
    ensures m.end <= |s| && AllMatches(s, i) == [m] + AllMatches(s, m.end)
  {
  }

  /** After a link, `, ` and one more link that ends the header, the global
      scan finds just that last link. */
  lemma AllMatchesOfLastLink(s: string, n: nat, url: string, rel: string)
    requires |url| > 0 && '>' !in url && |rel| > 0 && '"' !in rel
    requires |s| == n + 2 + |Link(url, rel)| && StartsAt(s, n + 2, Link(url, rel))
    requires s[n] == ',' && s[n + 1] == ' '
    ensures AllMatches(s, n) == [LinkMatch(url, rel, |s|)]
  {
    AllMatchesAtLink(s, n + 2, url, rel, |s|);
    AllMatchesSkip(s, n + 1);
    AllMatchesSkip(s, n);
  }

  /** A header holding two links separated by `, ` is read as those two
      links, in order. */
  lemma AllMatchesOfTwoLinks(s: string, n: nat, url1: string, rel1: string, url2: string, rel2: string)
    requires |url1| > 0 && '>' !in url1 && |rel1| > 0 && '"' !in rel1
    requires |url2| > 0 && '>' !in url2 && |rel2| > 0 && '"' !in rel2
    requires n == |Link(url1, rel1)| && |s| == n + 2 + |Link(url2, rel2)|
    requires StartsAt(s, 0, Link(url1, rel1)) && StartsAt(s, n + 2, Link(url2, rel2))
    requires s[n] == ',' && s[n + 1] == ' '
    ensures AllMatches(s, 0) == [LinkMatch(url1, rel1, n), LinkMatch(url2, rel2, |s|)]
  {
    AllMatchesOfLastLink(s, n, url2, rel2);
    AllMatchesAtLink(s, 0, url1, rel1, n);
  }
}

=== FILE: okta_client.dfy ===
/** The decision logic of the Okta HTTP client (src/utils/okta-client.ts):
    when `getToken` reuses its cached OAuth token, how it updates the cache,
    how `nextCursorFromLink` reads the `after` cursor of the `next` link, and
    when `handleRateLimit` warns. The clock, the OAuth POST and the logger
    are parameters or results; nothing here performs I/O. */
module OktaClient {
  import opened Base
  import opened Text
  import opened LinkHeader
  import opened Validation

  // ---------------------------------------------------------------------
  // getToken

  /** The module-level token cache: the token and its expiry in seconds. */
  datatype TokenCache = TokenCache(accessToken: string, exp: int)

  /** The body of a successful token response. */
  datatype TokenGrant = TokenGrant(accessToken: string, expiresIn: int)

  /** One call of `getToken`: the token or the error it throws, the cache
      afterwards, and whether it asked the token endpoint. */
  datatype TokenStep = TokenStep(token: Result<string>, cache: Option<TokenCache>, fetched: bool)

  /** Seconds before expiry at which a cached token stops being used. */
  const ExpiryBuffer: int := 30

  const TokenFailurePrefix: string := "OAuth token request failed: "

  /** `Math.floor(ms / 1000)` for a non-negative clock reading. */
  function Seconds(ms: nat): nat {
    ms / 1000
  }

  /** `getToken`. `nowMs` is the clock when the call starts, `fetch` the
      outcome of the token POST (used only when the cache is not fresh) and
      `laterMs` the clock read again once the response has arrived, which
      is what the new expiry is computed from. */
  function GetToken(cache: Option<TokenCache>, nowMs: nat, fetch: Result<TokenGrant>, laterMs: nat): (step: TokenStep)
    ensures !step.fetched <==> cache.Some? && Seconds(nowMs) < cache.value.exp - ExpiryBuffer
    ensures !step.fetched ==> step.token == Success(cache.value.accessToken) && step.cache == cache
    ensures step.fetched && fetch.Success? ==>
              && step.token == Success(fetch.value.accessToken)
              && step.cache == Some(TokenCache(fetch.value.accessToken, Seconds(laterMs) + fetch.value.expiresIn))
    ensures step.fetched && fetch.Failure? ==>
              && step.cache == cache
              && step.token.Failure?
              && step.token.error == Plain(TokenFailurePrefix + fetch.error.message)
  {
    var now := Seconds(nowMs);
    if cache.Some? && now < cache.value.exp - ExpiryBuffer then
      TokenStep(Success(cache.value.accessToken), cache, false)
    else
      match fetch
      case Failure(e) => TokenStep(Failure(Plain(TokenFailurePrefix + e.message)), cache, true)
      case Success(grant) =>
        var renewed := TokenCache(grant.accessToken, Seconds(laterMs) + grant.expiresIn);
        TokenStep(Success(renewed.accessToken), Some(renewed), true)
  }

  /** After a successful fetch, later calls get the same token without
      fetching for as long as they start more than 30 seconds before the
      new expiry, and fetch again from then on. */
  lemma FetchedTokenReusedUntilBuffer(
    cache: Option<TokenCache>, nowMs: nat, grant: TokenGrant, laterMs: nat,
    nextMs: nat, nextFetch: Result<TokenGrant>, afterMs: nat)
    requires GetToken(cache, nowMs, Success(grant), laterMs).fetched
    ensures var first := GetToken(cache, nowMs, Success(grant), laterMs);
            var second := GetToken(first.cache, nextMs, nextFetch, afterMs);
            && (!second.fetched <==> Seconds(nextMs) < Seconds(laterMs) + grant.expiresIn - ExpiryBuffer)
            && (!second.fetched ==> second.token == Success(grant.accessToken))
  {
  }

  /** A token granted for 30 seconds or less is never reused by a call that
      starts after it was obtained. */
  lemma ShortLivedTokenNeverReused(
    cache: Option<TokenCache>, nowMs: nat, grant: TokenGrant, laterMs: nat,
    nextMs: nat, nextFetch: Result<TokenGrant>, afterMs: nat)
    requires grant.expiresIn <= ExpiryBuffer && laterMs <= nextMs
    ensures var first := GetToken(cache, nowMs, Success(grant), laterMs);
            first.fetched ==> GetToken(first.cache, nextMs, nextFetch, afterMs).fetched
  {
    assert Seconds(laterMs) <= Seconds(nextMs);
  }

  /** Once a cache is stale it stays stale: a later call fetches too. */
  lemma StalenessPersists(cache: Option<TokenCache>, nowMs: nat, laterNowMs: nat,
                          fetch: Result<TokenGrant>, fetch2: Result<TokenGrant>, laterMs: nat)
    requires nowMs <= laterNowMs
    requires GetToken(cache, nowMs, fetch, laterMs).fetched
    ensures GetToken(cache, laterNowMs, fetch2, laterMs).fetched
  {
    assert Seconds(nowMs) <= Seconds(laterNowMs);
  }

  /** A failed fetch changes nothing, so retrying at the same time makes
      the same decision again. */
  lemma FailedFetchKeepsState(cache: Option<TokenCache>, nowMs: nat, e: Error, laterMs: nat,
                              fetch2: Result<TokenGrant>, laterMs2: nat)
    requires GetToken(cache, nowMs, Failure(e), laterMs).fetched
    ensures var first := GetToken(cache, nowMs, Failure(e), laterMs);
            first.cache == cache && GetToken(first.cache, nowMs, fetch2, laterMs2).fetched
  {
  }

  // ---------------------------------------------------------------------
  // nextCursorFromLink

  /** `/<([^>]+)>;\s*rel="next"/.exec(link)?.[1]`: the URL of the first
      `next` link. */
  function NextUrl(link: string): Option<string> {
    match FirstNext(link, 0)
    case None => None
    case Some(i) => NextAt(link, i)
  }

  predicate IsSchemeChar(c: char) {
    IsLetter(c) || IsDigit(c) || c == '+' || c == '-' || c == '.'
  }

  /** Whether `new URL(u)` accepts `u` without a base: `u` starts with a
      scheme, a letter followed by letters, digits, `+`, `-` or `.`, and a
      colon. */
  predicate IsAbsoluteUrl(u: string) {
    && |u| > 0
    && IsLetter(u[0])
    && var k := Span(u, 1, IsSchemeChar);
       k < |u| && u[k] == ':'
  }

  /** The query of a URL: what follows the first `?` up to the fragment,
      which starts at the first `#`. */
  function QueryOf(url: string): string {
    var h := Find(url, 0, '#');
    var m := Find(url, 0, '?');
    if m < h then url[m + 1..h] else ""
  }

  /** The form decoding `URLSearchParams` applies to names and values: a
      `+` stands for a blank. Percent escapes are left as written. */
  function FormDecode(s: string): (r: string)
    ensures |r| == |s|
    ensures forall k :: 0 <= k < |s| ==> r[k] == (if s[k] == '+' then ' ' else s[k])
    ensures '+' !in r
    ensures '+' !in s ==> r == s
    decreases |s|
  {
    if |s| == 0 then ""
    else FormDecode(s[..|s| - 1]) + [if s[|s| - 1] == '+' then ' ' else s[|s| - 1]]
  }

  /** A query cut at every `&`, in order. */
  function SplitParams(q: string): (pieces: seq<string>)
    ensures |pieces| > 0
    decreases |q|
  {
    var j := Find(q, 0, '&');
    if j == |q| then [q] else [q[..j]] + SplitParams(q[j + 1..])
  }

  /** The decoded name of a piece: the text before its first `=`. */
  function ParamName(piece: string): string {
    FormDecode(piece[..Find(piece, 0, '=')])
  }

  /** The decoded value of a piece: the text after its first `=`, or
      nothing when it has none. */
  function ParamValue(piece: string): string {
    var e := Find(piece, 0, '=');
    FormDecode(if e < |piece| then piece[e + 1..] else "")
  }

  /** `URLSearchParams.get(name)` over the pieces of a query: the value of
      the first non-empty piece with that name. */
  function GetParam(pieces: seq<string>, name: string): (v: Option<string>)
    ensures v.Some? ==> '+' !in v.value
    ensures v.Some? ==>
              exists k :: && 0 <= k < |pieces| && pieces[k] != "" && ParamName(pieces[k]) == name
                          && v.value == ParamValue(pieces[k])
                          && forall j :: 0 <= j < k && pieces[j] != "" ==> ParamName(pieces[j]) != name
    ensures v.None? ==> forall k :: 0 <= k < |pieces| && pieces[k] != "" ==> ParamName(pieces[k]) != name
    decreases |pieces|
  {
    if |pieces| == 0 then None
    else if pieces[0] != "" && ParamName(pieces[0]) == name then Some(ParamValue(pieces[0]))
    else
      var rest := GetParam(pieces[1..], name);
      assert forall k :: 1 <= k < |pieces| ==> pieces[k] == pieces[1..][k - 1];
      rest
  }

  /** `new URL(url).searchParams.get(name)` for a URL that parses. */
  function LookupParam(url: string, name: string): Option<string> {
    GetParam(SplitParams(QueryOf(url)), name)
  }

  /** The query parameter that carries the pagination cursor. */
  const AfterParam: string := "after"

  /** `nextCursorFromLink`: the `after` parameter of the first `next` link,
      or nothing when the header is missing or empty, has no `next` link,
      or its URL does not parse or has no `after` parameter. */
  function NextCursorFromLink(link: Option<string>): (cursor: Option<string>)
    ensures link.None? || link.value == "" ==> cursor.None?
    ensures link.Some? && NextUrl(link.value).None? ==> cursor.None?
    ensures link.Some? && NextUrl(link.value).Some? && !IsAbsoluteUrl(NextUrl(link.value).value)
            ==> cursor.None?
    ensures cursor.Some? ==> '+' !in cursor.value
  {
    if link.None? || link.value == "" then None
    else match NextUrl(link.value)
      case None => None
      case Some(url) =>
        if !IsAbsoluteUrl(url) then None
        else LookupParam(url, AfterParam)
  }

  /** The URL `base?after=cursor`. */
  function WithAfter(base: string, cursor: string): string {
    base + ['?'] + (AfterParam + ['='] + cursor)
  }

  /** The parameter name holds no character a URL or a query gives a
      meaning to. */
  lemma AfterParamIsPlain()
    ensures |AfterParam| > 0
    ensures forall c :: c in AfterParam ==> IsLetter(c)
  {
  }

  /** `base?after=cursor` holds a character only if one of its parts does. */
  lemma CharsOfWithAfter(base: string, cursor: string, c: char)
    requires c !in base && c !in cursor && c != '?' && c != '=' && !IsLetter(c)
    ensures c !in WithAfter(base, cursor)
  {
    AfterParamIsPlain();
  }

  /** A scheme prefix keeps a URL absolute whatever follows it. */
  lemma AbsoluteUrlExtends(base: string, rest: string)
    requires IsAbsoluteUrl(base)
    ensures IsAbsoluteUrl(base + rest)
  {
    var u := base + rest;
    var k := Span(base, 1, IsSchemeChar);
    forall i | 1 <= i < k
      ensures IsSchemeChar(u[i])
    {
      assert u[i] == base[i];
    }
    assert u[k] == base[k];
    SpanIs(u, 1, IsSchemeChar, k);
  }

  /** The query of `base?after=cursor` when neither part has a `?` or `#`. */
  lemma QueryOfAfter(base: string, cursor: string)
    requires '?' !in base && '#' !in base && '#' !in cursor
    ensures QueryOf(WithAfter(base, cursor)) == AfterParam + ['='] + cursor
  {
    var query := AfterParam + ['='] + cursor;
    var url := WithAfter(base, cursor);
    CharsOfWithAfter(base, cursor, '#');
    FindIs(url, 0, '#', |url|);
    FindAfterPrefix(base, '?', query);
    assert url[|base| + 1..] == query;
  }

  /** A query without `&` is a single piece. */
  lemma SplitSingle(q: string)
    requires '&' !in q
    ensures SplitParams(q) == [q]
  {
    FindIs(q, 0, '&', |q|);
  }

  /** A query holding the single parameter `name=value` yields the value,
      form-decoded, for that name. */
  lemma LookupSingle(name: string, value: string)
    requires '&' !in name && '=' !in name && '+' !in name && '&' !in value
    ensures GetParam(SplitParams(name + ['='] + value), name) == Some(FormDecode(value))
  {
    var q := name + ['='] + value;
    SplitSingle(q);
    FindAfterPrefix(name, '=', value);
    assert q[..|name|] == name;
    assert q[|name| + 1..] == value;
  }

  /** A link header whose first `next` URL is known yields that URL's
      `after` parameter. */
  lemma CursorOfNextUrl(header: string, url: string)
    requires NextUrl(header) == Some(url) && IsAbsoluteUrl(url)
    ensures NextCursorFromLink(Some(header)) == LookupParam(url, AfterParam)
  {
  }

  /** The first `next` URL of a single `next` link is its URL. */
  lemma NextUrlOfLink(url: string)
    requires |url| > 0 && '>' !in url
    ensures NextUrl(Link(url, "next")) == Some(url)
  {
    var s := Link(url, "next");
    assert s[0..|s|] == s;
    NextOfLink(s, 0, url);
  }

  /** `base?after=cursor` is an absolute URL with no `>`, whose query is
      `after=cursor`. */
  lemma WithAfterFacts(base: string, cursor: string)
    requires IsAbsoluteUrl(base) && '?' !in base && '#' !in base && '>' !in base
    requires '#' !in cursor && '>' !in cursor
    ensures var url := WithAfter(base, cursor);
            && |url| > 0 && '>' !in url && IsAbsoluteUrl(url)
            && QueryOf(url) == AfterParam + ['='] + cursor
  {
    var url := WithAfter(base, cursor);
    CharsOfWithAfter(base, cursor, '>');
    AbsoluteUrlExtends(base, ['?'] + (AfterParam + ['='] + cursor));
    assert url == base + (['?'] + (AfterParam + ['='] + cursor));
    QueryOfAfter(base, cursor);
  }

  /** The `after` parameter of a `next` link comes back form-decoded,
      provided the base URL is absolute and free of `?`, `#` and `>` and
      the value has none of `&`, `#` or `>`. */
  lemma AfterParamOfNextLink(base: string, cursor: string)
    requires IsAbsoluteUrl(base) && '?' !in base && '#' !in base && '>' !in base
    requires '&' !in cursor && '#' !in cursor && '>' !in cursor
    ensures NextCursorFromLink(Some(Link(WithAfter(base, cursor), "next"))) == Some(FormDecode(cursor))
  {
    var url := WithAfter(base, cursor);
    WithAfterFacts(base, cursor);
    NextUrlOfLink(url);
    AfterParamIsPlain();
    LookupSingle(AfterParam, cursor);
    CursorOfNextUrl(Link(url, "next"), url);
  }

  /** A cursor put into the `after` parameter of a `next` link comes back
      out unchanged, provided the base URL is absolute and free of `?`, `#`
      and `>` and the cursor has none of `&`, `#`, `>`, `+` or `%`. Base64
      padding `=` is fine: only the first `=` splits name from value. */
  lemma CursorRoundTrip(base: string, cursor: string)
    requires IsAbsoluteUrl(base) && '?' !in base && '#' !in base && '>' !in base
    requires '&' !in cursor && '#' !in cursor && '>' !in cursor && '+' !in cursor && '%' !in cursor
    ensures NextCursorFromLink(Some(Link(WithAfter(base, cursor), "next"))) == Some(cursor)
  {
    AfterParamOfNextLink(base, cursor);
  }

  /** Every `https:` URL is absolute. */
  lemma HttpsIsAbsolute(rest: string)
    ensures IsAbsoluteUrl("https:" + rest)
  {
    var u := "https:" + rest;
    assert u[..6] == "https:";
    assert u[1] == 't' && u[2] == 't' && u[3] == 'p' && u[4] == 's' && u[5] == ':';
    SpanIs(u, 1, IsSchemeChar, 5);
  }

  /** A base URL as Okta writes it in its links. */
  const OktaUsersUrl: string := "https:" + OktaUsersAuthorityAndPath

  const OktaUsersAuthorityAndPath: string := "//example.okta.com/api/v1/users"

  /** The example base URL is absolute. */
  lemma OktaUsersUrlIsAbsolute()
    ensures IsAbsoluteUrl(OktaUsersUrl)
  {
    HttpsIsAbsolute(OktaUsersAuthorityAndPath);
  }

  /** The example base URL meets the conditions of the cursor round trip. */
  lemma OktaUsersUrlIsBase()
    ensures IsAbsoluteUrl(OktaUsersUrl)
    ensures '?' !in OktaUsersUrl && '#' !in OktaUsersUrl && '>' !in OktaUsersUrl
  {
    OktaUsersUrlIsAbsolute();
    NoQueryInPath();
    NoFragmentOrBracketInPath();
  }

  /** The example's authority and path have no query. */
  lemma NoQueryInPath()
    ensures '?' !in OktaUsersAuthorityAndPath
  {
  }

  /** The example's authority and path have no fragment and no `>`. */
  lemma NoFragmentOrBracketInPath()
    ensures '#' !in OktaUsersAuthorityAndPath && '>' !in OktaUsersAuthorityAndPath
  {
  }

  /** The cursor of a typical Okta `next` link. */
  lemma OktaNextLinkCursor()
    ensures NextCursorFromLink(Some(Link(WithAfter(OktaUsersUrl, "00u1abc"), "next"))) == Some("00u1abc")
  {
    OktaUsersUrlIsBase();
    CursorRoundTrip(OktaUsersUrl, "00u1abc");
  }

  /** Form decoding turns a `+` into a blank. */
  lemma DecodePlus()
    ensures FormDecode("a+b") == "a b"
  {
    assert FormDecode("a+b") == FormDecode("a+") + "b";
    assert FormDecode("a+") == FormDecode("a") + " ";
  }

  /** The cursor check accepts `+` but not a blank. */
  lemma BlankFailsCursorCheck()
    ensures ValidateCursor(Some("a+b")) && !ValidateCursor(Some("a b"))
  {
    assert !IsCursorChar(' ');
  }

  /** A `+` in a cursor comes back as a blank, which the cursor check then
      rejects although it accepted the cursor as written. */
  lemma PlusInCursorComesBackAsBlank(base: string)
    requires IsAbsoluteUrl(base) && '?' !in base && '#' !in base && '>' !in base
    ensures NextCursorFromLink(Some(Link(WithAfter(base, "a+b"), "next"))) == Some("a b")
    ensures ValidateCursor(Some("a+b")) && !ValidateCursor(Some("a b"))
  {
    AfterParamOfNextLink(base, "a+b");
    DecodePlus();
    BlankFailsCursorCheck();
  }

  /** With two `next` links the cursor comes from the first, while
      `parseLinkHeader` keeps the second. */
  lemma FirstNextVersusLastNext(url1: string, url2: string)
    requires |url1| > 0 && '>' !in url1 && |url2| > 0 && '>' !in url2
    ensures var header := Link(url1, "next") + ", " + Link(url2, "next");
            && NextUrl(header) == Some(url1)
            && ParseLinkHeader(Some(header)) == map["next" := url2]
  {
    var l1 := Link(url1, "next");
    var header := l1 + ", " + Link(url2, "next");
    assert header[0..|l1|] == l1;
    NextOfLink(header, 0, url1);
    TwoLinksParsed(url1, "next", url2, "next");
  }

  // ---------------------------------------------------------------------
  // handleRateLimit

  const RemainingHeader: string := "x-rate-limit-remaining"

  const ResetHeader: string := "x-rate-limit-reset"

  /** Warnings start below this many remaining requests. */
  const RateLimitThreshold: int := 10

  predicate AllDigits(s: string) {
    forall k :: 0 <= k < |s| ==> IsDigit(s[k])
  }

  /** The value of a digit string read in base ten. */
  function DigitsValue(s: string): (n: nat)
    requires AllDigits(s)
    decreases |s|
  {
    if |s| == 0 then 0
    else
      assert IsDigit(s[|s| - 1]);
      DigitsValue(s[..|s| - 1]) * 10 + (s[|s| - 1] as int - '0' as int)
  }

  /** The greedy digit run is all digits. */
  lemma DigitRun(s: string, start: nat)
    requires start <= |s|
    ensures AllDigits(s[start..Span(s, start, IsDigit)])
  {
    var j := Span(s, start, IsDigit);
    forall k | 0 <= k < j - start
      ensures IsDigit(s[start..j][k])
    {
      assert s[start..j][k] == s[start + k];
    }
  }

  /** `parseInt(s)` in base ten: leading white space is skipped, an optional
      sign is read, then the longest run of digits; with no digit the result
      is `NaN`, written `None`. */
  function ParseInt(s: string): (r: Option<int>)
    ensures r.Some? ==> exists k :: 0 <= k < |s| && IsDigit(s[k])
  {
    var i := Span(s, 0, IsSpace);
    var sign := if i < |s| && s[i] == '-' then -1 else 1;
    var start := if i < |s| && (s[i] == '-' || s[i] == '+') then i + 1 else i;
    var j := Span(s, start, IsDigit);
    if j == start then None
    else
      assert IsDigit(s[start]);
      DigitRun(s, start);
      Some(sign * DigitsValue(s[start..j]))
  }

  /** A numeral parses to its value. */
  lemma ParseIntOfNumeral(s: string)
    ensures IsNumeral(s) ==> AllDigits(s) && ParseInt(s) == Some(DigitsValue(s))
  {
    if IsNumeral(s) {
      assert !IsSpace(s[0]);
      SpanIs(s, 0, IsSpace, 0);
      SpanIs(s, 0, IsDigit, |s|);
      assert s[0..|s|] == s;
    }
  }

  /** The warning `handleRateLimit` logs. */
  datatype RateLimitWarning = RateLimitWarning(remaining: string, reset: Option<string>)

  /** `handleRateLimit`: it never fails and has no result; it logs a warning
      iff the remaining-requests header is present, non-empty and parses to
      a number below 10. A missing header or one without digits never
      warns. */
  function HandleRateLimit(headers: map<string, string>): (warning: Option<RateLimitWarning>)
    ensures RemainingHeader !in headers ==> warning.None?
    ensures RemainingHeader in headers && IsNumeral(headers[RemainingHeader]) ==>
              (warning.Some? <==> DigitsValue(headers[RemainingHeader]) < RateLimitThreshold)
    ensures RemainingHeader in headers && ParseInt(headers[RemainingHeader]).None? ==> warning.None?
    ensures warning.Some? ==>
              && warning.value.remaining == headers[RemainingHeader]
              && warning.value.reset == (if ResetHeader in headers then Some(headers[ResetHeader]) else None)
  {
    if RemainingHeader !in headers then None
    else
      var remaining := headers[RemainingHeader];
      ParseIntOfNumeral(remaining);
      var n := ParseInt(remaining);
      if remaining != "" && n.Some? && n.value < RateLimitThreshold then
        Some(RateLimitWarning(remaining, if ResetHeader in headers then Some(headers[ResetHeader]) else None))
      else None
  }

  /** Reading a number written by `String(n)` gives `n` back. */
  lemma {:induction false} DigitsOfDecimal(n: nat)
    ensures DigitsValue(DecimalString(n)) == n
    decreases n
  {
    var d := DecimalString(n);
    if n < 10 {
      assert d == [DigitChar(n)];
      assert d[..0] == [];
    } else {
      DigitsOfDecimal(n / 10);
      assert d[..|d| - 1] == DecimalString(n / 10);
      assert d[|d| - 1] == DigitChar(n % 10);
    }
    DigitCharValue(if n < 10 then n else n % 10);
  }

  /** The digit character of `d` stands for `d`. */
  lemma DigitCharValue(d: nat)
    requires d < 10
    ensures DigitChar(d) as int - '0' as int == d
  {
  }

  /** For a count written as a number, the client warns exactly when fewer
      than 10 requests remain. */
  lemma RateLimitWarnsBelowTen(n: nat, reset: string)
    ensures HandleRateLimit(map[RemainingHeader := DecimalString(n), ResetHeader := reset]).Some?
        <==> n < RateLimitThreshold
  {
    DigitsOfDecimal(n);
  }
}

=== FILE: read_tools.dfy ===
/** The five read tools (src/tools/read-tools.ts): their input schemas, the
    request parameters each builds, the mapping of the API's answer to the
    tool's result, and the wrapper that guards, runs and audits them. */
module ReadHandlers {
  import opened Base
  import opened Text
  import opened Values
  import opened RolePolicy
  import opened AccessGuard
  import opened OktaClient
  import opened Validation
  import opened Schemas
  import opened Invocation

  datatype ReadTool = GetUserByEmail | SearchUsers | ListGroups | ListApps | SystemLog {
    /** The tool's place in the role policy's list of read tools. */
    function Index(): nat {
      match this
      case GetUserByEmail => 0
      case SearchUsers => 1
      case ListGroups => 2
      case ListApps => 3
      case SystemLog => 4
    }
  }

  function ToolName(t: ReadTool): string {
    match t
    case GetUserByEmail => "get_user_by_email"
    case SearchUsers => "search_users"
    case ListGroups => "list_groups"
    case ListApps => "list_apps"
    case SystemLog => "system_log"
  }

  // ---------------------------------------------------------------------
  // Input schemas

  const UserStatuses: seq<string> :=
    ["ACTIVE", "DEPROVISIONED", "LOCKED_OUT", "PASSWORD_EXPIRED",
     "PROVISIONED", "RECOVERY", "STAGED", "SUSPENDED"]

  const EmailSchema: Schema := map["email" := EmailAddress]

  const SearchUsersSchema: Schema := map[
    "query" := NonEmptyString,
    "status" := OptionalEnum(UserStatuses),
    "limit" := OptionalInt(1, MaxListLimit),
    "after" := OptionalString]

  const GroupQuerySchema: Schema := map[
    "query" := OptionalString,
    "limit" := OptionalInt(1, MaxListLimit),
    "after" := OptionalString]

  const LogQuerySchema: Schema := map[
    "query" := OptionalString,
    "since" := OptionalString,
    "until" := OptionalString,
    "limit" := OptionalInt(1, MaxLogLimit),
    "after" := OptionalString]

  /** The schema of each tool; list_apps reuses the group schema. */
  function SchemaOf(t: ReadTool): Schema {
    match t
    case GetUserByEmail => EmailSchema
    case SearchUsers => SearchUsersSchema
    case ListGroups => GroupQuerySchema
    case ListApps => GroupQuerySchema
    case SystemLog => LogQuerySchema
  }

  /** The largest page a list tool's schema admits. */
  function MaxLimitOf(t: ReadTool): int {
    if t == SystemLog then MaxLogLimit else MaxListLimit
  }

  // ---------------------------------------------------------------------
  // Request parameters

  /** The search expression get_user_by_email sends. */
  function EmailSearch(email: string): string {
    "profile.email eq \"" + email + "\""
  }

  /** The e-mail search is a filter the filter check accepts, as long as
      the address holds no quote. */
  lemma EmailSearchAccepted(email: string)
    requires NoQuotes(email)
    ensures ValidateOktaFilter(EmailSearch(email))
  {
    EqualityFilterAccepted("profile.email", email);
    assert "profile.email" + " eq \"" == "profile.email eq \"";
    assert "profile.email" + " eq \"" + email + "\"" == EmailSearch(email);
  }

  /** The filter search_users sends for a status. */
  function StatusFilter(status: string): string {
    "status eq \"" + status + "\""
  }

  /** `{ limit: input.limit ?? 100, after: input.after }`, the start of
      every list request. */
  function PageParams(input: Value): map<string, Value> {
    map["limit" := Coalesce(FieldOf(input, "limit"), Num(DefaultLimit)), "after" := FieldOf(input, "after")]
  }

  /** `if (input[key]) params[name] = input[key]`. */
  function WithIfTruthy(params: map<string, Value>, name: string, v: Value): (r: map<string, Value>)
    ensures r.Keys == params.Keys + (if Truthy(v) then {name} else {})
    ensures Truthy(v) ==> r[name] == v
    ensures forall k :: k in params && k != name ==> r[k] == params[k]
  {
    if Truthy(v) then params[name := v] else params
  }

  /** get_user_by_email: only `search`, the equality filter on the
      profile's e-mail address. */
  function GetUserByEmailParams(input: Value): (params: map<string, Value>)
    ensures params.Keys == {"search"}
    ensures FieldOf(input, "email").Str? ==> params["search"] == Str(EmailSearch(FieldOf(input, "email").s))
  {
    map["search" := Str(EmailSearch(Interpolate(FieldOf(input, "email"))))]
  }

  /** search_users: the query as `search`, the page and, only for a truthy
      status, the status filter. */
  function SearchUsersParams(input: Value): (params: map<string, Value>)
    ensures params.Keys == {"search", "limit", "after"} + (if Truthy(FieldOf(input, "status")) then {"filter"} else {})
    ensures params["search"] == FieldOf(input, "query") && params["after"] == FieldOf(input, "after")
    ensures "filter" in params ==> params["filter"] == Str(StatusFilter(Interpolate(FieldOf(input, "status"))))
  {
    var status := FieldOf(input, "status");
    var params := PageParams(input)["search" := FieldOf(input, "query")];
    if Truthy(status) then params["filter" := Str(StatusFilter(Interpolate(status)))] else params
  }

  /** list_groups and list_apps: the page and, only for a truthy query, `q`. */
  function GroupQueryParams(input: Value): (params: map<string, Value>)
    ensures params.Keys == {"limit", "after"} + (if Truthy(FieldOf(input, "query")) then {"q"} else {})
    ensures "q" in params ==> params["q"] == FieldOf(input, "query")
  {
    WithIfTruthy(PageParams(input), "q", FieldOf(input, "query"))
  }

  /** Whether `params` holds the payload's field `key` exactly when that
      field is truthy. */
  predicate CopiedIfTruthy(params: map<string, Value>, input: Value, key: string) {
    && (key in params <==> Truthy(FieldOf(input, key)))
    && (key in params ==> params[key] == FieldOf(input, key))
  }

  /** system_log: the page and each of `query`, `since` and `until` only
      when truthy. */
  function LogQueryParams(input: Value): (params: map<string, Value>)
    ensures CopiedIfTruthy(params, input, "query")
    ensures CopiedIfTruthy(params, input, "since")
    ensures CopiedIfTruthy(params, input, "until")
    ensures params.Keys <= {"limit", "after", "query", "since", "until"}
    ensures "limit" in params && "after" in params
  {
    var withQuery := WithIfTruthy(PageParams(input), "query", FieldOf(input, "query"));
    var withSince := WithIfTruthy(withQuery, "since", FieldOf(input, "since"));
    WithIfTruthy(withSince, "until", FieldOf(input, "until"))
  }

  /** The request each tool sends. */
  function RequestOf(t: ReadTool, input: Value): (req: Request)
    ensures req.verb == GET
  {
    match t
    case GetUserByEmail => Request(GET, "/users", GetUserByEmailParams(input))
    case SearchUsers => Request(GET, "/users", SearchUsersParams(input))
    case ListGroups => Request(GET, "/groups", GroupQueryParams(input))
    case ListApps => Request(GET, "/apps", GroupQueryParams(input))
    case SystemLog => Request(GET, "/logs", LogQueryParams(input))
  }

  // ---------------------------------------------------------------------
  // Response mapping

  /** The `TypeError` of calling `map` on a response body that is neither
      an array nor nullish. */
  const NotAnArray: Error := Plain("res.data.map is not a function")

  /** `xs.map(f)` where `f` may throw: the first throw propagates. */
  function MapSeq(xs: seq<Value>, f: Value -> Result<Value>): (r: Result<seq<Value>>)
    ensures r.Success? <==> forall i :: 0 <= i < |xs| ==> f(xs[i]).Success?
    ensures r.Success? ==> |r.value| == |xs| && forall i :: 0 <= i < |xs| ==> f(xs[i]) == Success(r.value[i])
    ensures r.Failure? ==> exists i :: 0 <= i < |xs| && f(xs[i]) == Failure(r.error)
                                         && forall j :: 0 <= j < i ==> f(xs[j]).Success?
    decreases |xs|
  {
    if |xs| == 0 then Success([])
    else
      match f(xs[0])
      case Failure(e) => Failure(e)
      case Success(head) =>
        match MapSeq(xs[1..], f)
        case Failure(e) =>
          assert forall i :: 1 <= i < |xs| ==> xs[i] == xs[1..][i - 1];
          Failure(e)
        case Success(tail) =>
          assert forall i :: 1 <= i < |xs| ==> xs[i] == xs[1..][i - 1];
          Success([head] + tail)
  }

  /** `(res.data as any[]).map(f)`: a nullish body throws on reading `map`,
      any other non-array has no `map` to call, and an array is mapped
      item by item. */
  function MapItems(data: Value, f: Value -> Result<Value>): (r: Result<Value>)
    ensures Nullish(data) ==> r == Failure(ReadError(data, "map"))
    ensures !Nullish(data) && !data.Arr? ==> r == Failure(NotAnArray)
    ensures r.Success? ==> data.Arr? && r.value.Arr? && |r.value.items| == |data.items|
    ensures r.Success? ==> forall i :: 0 <= i < |data.items| ==> f(data.items[i]) == Success(r.value.items[i])
    ensures data.Arr? ==> (r.Success? <==> forall i :: 0 <= i < |data.items| ==> f(data.items[i]).Success?)
  {
    match data
    case Undefined => Failure(ReadError(data, "map"))
    case Null => Failure(ReadError(data, "map"))
    case Arr(xs) =>
      var ys :- MapSeq(xs, f);
      Success(Arr(ys))
    case _ => Failure(NotAnArray)
  }

  /** A user as the tools report it: `u.id`, `u.status` and the profile's
      names and email, plus the login when `withLogin`. Reading
      `u.profile.email` throws when the user or its profile is nullish. */
  function UserRecord(u: Value, withLogin: bool): (r: Result<Value>)
    ensures Nullish(u) ==> r == Failure(ReadError(u, "id"))
    ensures !Nullish(u) && Nullish(OptGet(u, "profile")) ==> r == Failure(ReadError(OptGet(u, "profile"), "email"))
    ensures r.Success? <==> !Nullish(u) && !Nullish(OptGet(u, "profile"))
    ensures r.Success? ==>
              && r.value.Obj?
              && r.value.fields.Keys == {"id", "status", "email", "firstName", "lastName"} + (if withLogin then {"login"} else {})
              && r.value.fields["id"] == OptGet(u, "id")
              && r.value.fields["email"] == OptGet(OptGet(u, "profile"), "email")
    ensures r.Success? ==>
              && r.value.fields["status"] == OptGet(u, "status")
              && r.value.fields["firstName"] == OptGet(OptGet(u, "profile"), "firstName")
              && r.value.fields["lastName"] == OptGet(OptGet(u, "profile"), "lastName")
              && (withLogin ==> r.value.fields["login"] == OptGet(OptGet(u, "profile"), "login"))
  {
    if Nullish(u) then Failure(ReadError(u, "id"))
    else
      var profile := OptGet(u, "profile");
      if Nullish(profile) then Failure(ReadError(profile, "email"))
      else
        var fields := map["id" := OptGet(u, "id"), "status" := OptGet(u, "status"),
                          "email" := OptGet(profile, "email"),
                          "firstName" := OptGet(profile, "firstName"),
                          "lastName" := OptGet(profile, "lastName")];
        Success(Obj(if withLogin then fields["login" := OptGet(profile, "login")] else fields))
  }

  /** search_users' summary of one user. */
  function UserSummary(u: Value): Result<Value> {
    UserRecord(u, false)
  }

  /** list_groups' summary of one group; `g.profile?.name` tolerates a
      missing profile. */
  function GroupSummary(g: Value): (r: Result<Value>)
    ensures r.Failure? <==> Nullish(g)
    ensures r.Failure? ==> r.error == ReadError(g, "id")
    ensures r.Success? ==> r.value.Obj? && r.value.fields.Keys == {"id", "name", "type"}
    ensures r.Success? ==> r.value.fields["name"] == OptGet(OptGet(g, "profile"), "name")
    ensures r.Success? ==> r.value.fields["id"] == OptGet(g, "id") && r.value.fields["type"] == OptGet(g, "type")
  {
    if Nullish(g) then Failure(ReadError(g, "id"))
    else Success(Obj(map["id" := OptGet(g, "id"),
                         "name" := OptGet(OptGet(g, "profile"), "name"),
                         "type" := OptGet(g, "type")]))
  }

  /** list_apps' summary of one application. */
  function AppSummary(a: Value): (r: Result<Value>)
    ensures r.Failure? <==> Nullish(a)
    ensures r.Failure? ==> r.error == ReadError(a, "id")
    ensures r.Success? ==> r.value.Obj? && r.value.fields.Keys == {"id", "label", "status", "name"}
    ensures r.Success? ==>
              && r.value.fields["id"] == OptGet(a, "id") && r.value.fields["label"] == OptGet(a, "label")
              && r.value.fields["status"] == OptGet(a, "status") && r.value.fields["name"] == OptGet(a, "name")
  {
    if Nullish(a) then Failure(ReadError(a, "id"))
    else Success(Obj(map["id" := OptGet(a, "id"), "label" := OptGet(a, "label"),
                         "status" := OptGet(a, "status"), "name" := OptGet(a, "name")]))
  }

  /** system_log's summary of one event; its optional parts are read with
      optional chaining, so only a nullish event throws. */
  function EventSummary(e: Value): (r: Result<Value>)
    ensures r.Failure? <==> Nullish(e)
    ensures r.Failure? ==> r.error == ReadError(e, "uuid")
    ensures r.Success? ==> r.value.Obj? && "target" in r.value.fields && "outcome" in r.value.fields
    ensures r.Success? ==> r.value.fields["target"] == OptGet(OptFirst(OptGet(e, "target")), "displayName")
    ensures r.Success? ==> r.value.fields["outcome"] == OptGet(OptGet(e, "outcome"), "result")
    ensures r.Success? ==>
              && r.value.fields.Keys == {"uuid", "published", "eventType", "outcome", "actor", "target"}
              && r.value.fields["uuid"] == OptGet(e, "uuid")
              && r.value.fields["published"] == OptGet(e, "published")
              && r.value.fields["eventType"] == OptGet(e, "eventType")
              && r.value.fields["actor"] == OptGet(OptGet(e, "actor"), "displayName")
  {
    if Nullish(e) then Failure(ReadError(e, "uuid"))
    else Success(Obj(map["uuid" := OptGet(e, "uuid"), "published" := OptGet(e, "published"),
                         "eventType" := OptGet(e, "eventType"),
                         "outcome" := OptGet(OptGet(e, "outcome"), "result"),
                         "actor" := OptGet(OptGet(e, "actor"), "displayName"),
                         "target" := OptGet(OptFirst(OptGet(e, "target")), "displayName")]))
  }

  /** The `link` header of an answer, if any. */
  function LinkOf(headers: map<string, string>): Option<string> {
    if "link" in headers then Some(headers["link"]) else None
  }

  /** A cursor as the result object holds it: a string or `null`. */
  function CursorValue(cursor: Option<string>): Value {
    if cursor.Some? then Str(cursor.value) else Null
  }

  /** The result of a list tool: the mapped items under `key` and the
      cursor of the next page, `null` on the last page. An item that
      cannot be mapped makes the whole call throw, as `.map` does. */
  function ListResult(key: string, res: Response, f: Value -> Result<Value>): (r: Result<Value>)
    requires key != "nextCursor"
    ensures r.Success? <==> res.data.Arr? && forall i :: 0 <= i < |res.data.items| ==> f(res.data.items[i]).Success?
    ensures r.Failure? ==> r == MapItems(res.data, f)
    ensures r.Success? ==> r.value.Obj? && r.value.fields.Keys == {key, "nextCursor"}
    ensures r.Success? ==>
              && r.value.fields[key].Arr?
              && |r.value.fields[key].items| == |res.data.items|
              && forall i :: 0 <= i < |res.data.items| ==> f(res.data.items[i]) == Success(r.value.fields[key].items[i])
    ensures r.Success? ==>
              var cursor := NextCursorFromLink(LinkOf(res.headers));
              && (r.value.fields["nextCursor"] == Null <==> cursor.None?)
              && (cursor.Some? ==> r.value.fields["nextCursor"] == Str(cursor.value))
  {
    var items :- MapItems(res.data, f);
    Success(Obj(map[key := items, "nextCursor" := CursorValue(NextCursorFromLink(LinkOf(res.headers)))]))
  }

  /** get_user_by_email's reading of the answer: no first user gives
      `{found: false}`, otherwise the first user with its login. */
  function UserLookup(data: Value): (r: Result<Value>)
    ensures Nullish(data) ==> r == Failure(ReadError(data, "0"))
    ensures data.Arr? && |data.items| == 0 ==> r == Success(Obj(map["found" := Bool(false)]))
    ensures data.Arr? && |data.items| > 0 && !Truthy(data.items[0]) ==> r == Success(Obj(map["found" := Bool(false)]))
    ensures data.Arr? && |data.items| > 0 && Truthy(data.items[0]) ==>
              r == (var u := UserRecord(data.items[0], true);
                    if u.Success? then Success(Obj(map["found" := Bool(true), "user" := u.value])) else u)
  {
    if Nullish(data) then Failure(ReadError(data, "0"))
    else
      var user := First(data).value;
      if !Truthy(user) then Success(Obj(map["found" := Bool(false)]))
      else
        var u :- UserRecord(user, true);
        Success(Obj(map["found" := Bool(true), "user" := u]))
  }

  // ---------------------------------------------------------------------
  // Handlers and the wrapper

  /** What each handler does with a parsed input: one GET, the rate-limit
      check for the list tools, and the mapping of the answer. */
  function Handler(t: ReadTool, input: Value, env: Env): (run: Run)
    ensures Calls(run.trace) == 1 && Writes(run.trace) == 0 && Audits(run.trace) == 0
    ensures run.trace[0] == Called(RequestOf(t, input))
  {
    var req := RequestOf(t, input);
    match t
    case GetUserByEmail => Exchange(env, req, false, (res: Response) => UserLookup(res.data))
    case _ => Exchange(env, req, true, (res: Response) => ListResult(ListKey(t), res, Summary(t)))
  }

  /** `wrapTool(name, schema, handler).handler(input, ctx)`. */
  function Invoke(t: ReadTool, input: Value, ctx: Context, env: Env): (run: Run)
    ensures |run.trace| >= 2 && run.trace[0] == Guarded(ToolName(t)) && LastEvent(run.trace).Audited?
    ensures Audits(run.trace) == 1 && Writes(run.trace) == 0
    ensures run.result.Success? ==> run.result == Handler(t, input, env).result
  {
    var body := Handler(t, input, env);
    ExactlyOneAudit(ToolName(t), input, input, ctx, env, body);
    CallsOnlyWhenPermitted(ToolName(t), input, input, ctx, env, body);
    GuardedRun(ToolName(t), input, input, ctx, env, body)
  }

  /** The descriptions the read tools are registered with. */
  const Descriptions: map<string, string> := map[
    "get_user_by_email" := "Return a single user by primary email address.",
    "search_users" := "Search users with Okta search syntax. Supports pagination via 'after' cursor.",
    "list_groups" := "List groups with optional query filter. Supports pagination via 'after' cursor.",
    "list_apps" := "List Okta applications with optional query filter. Supports pagination via 'after' cursor.",
    "system_log" := "Query Okta System Log by expression with optional since/until ISO timestamps."]

  const NoDescription: string := "No description available."

  /** `getToolDescription`: the tool's own text, or the fallback for any
      other name. */
  function GetToolDescription(name: string): (d: string)
    ensures d != ""
    ensures name !in Descriptions ==> d == NoDescription
    ensures name in Descriptions ==> d == Descriptions[name]
  {
    OrElse(if name in Descriptions then Some(Descriptions[name]) else None, NoDescription)
  }
  // ---------------------------------------------------------------------
  // Properties

  /** Every role may use every read tool, so a read invocation is never
      denied: its handler always runs, making exactly its one GET. */
  lemma ReadToolsAlwaysRun(t: ReadTool, input: Value, ctx: Context, env: Env)
    ensures var run := Invoke(t, input, ctx, env);
            && run.trace[1] == Called(RequestOf(t, input))
            && Calls(run.trace) == 1
            && run.result == Handler(t, input, env).result
  {
    ReadToolListed(t, RoleFromContext(ctx));
    var body := Handler(t, input, env);
    CallsOnlyWhenPermitted(ToolName(t), input, input, ctx, env, body);
    PermittedRun(ToolName(t), input, input, ctx, env, body);
  }

  /** Every role lists every read tool. */
  lemma ReadToolListed(t: ReadTool, role: Role)
    ensures ToolName(t) in AllowList(role)
  {
    assert AllowList(role)[..|ReadTools|] == ReadTools;
    assert ToolName(t) == ReadTools[t.Index()] by {
      match t
      case GetUserByEmail =>
      case SearchUsers =>
      case ListGroups =>
      case ListApps =>
      case SystemLog =>
    }
    assert ToolName(t) == AllowList(role)[t.Index()];
  }

  /** A failed API call is re-thrown unchanged by the read tool, and the
      one audit of the invocation records that error against the tool. */
  lemma FailedCallRethrown(t: ReadTool, input: Value, ctx: Context, env: Env)
    requires env.provider(RequestOf(t, input)).Failure?
    ensures var run := Invoke(t, input, ctx, env);
            var e := env.provider(RequestOf(t, input)).error;
            && run.result == Failure(e)
            && LastEvent(run.trace) == Audited(FailureAudit(ToolName(t), input, ctx, env, e))
  {
    ReadToolsAlwaysRun(t, input, ctx, env);
  }

  /** The requests of the list tools, by tool. */
  function ListParams(t: ReadTool, input: Value): map<string, Value>
    requires t != GetUserByEmail
  {
    RequestOf(t, input).params
  }

  /** On any input its schema admits, a list tool asks for a page of
      1..max items, 100 when no limit was given; the page size is what the
      shared limit schema of the validation helpers yields. */
  lemma PageSizeWithinBounds(t: ReadTool, raw: Value)
    requires t != GetUserByEmail
    requires ParseObject(SchemaOf(t), raw).Success?
    ensures var input := ParseObject(SchemaOf(t), raw).value;
            var limit := ListParams(t, input)["limit"];
            && limit.Num? && 1 <= limit.n <= MaxLimitOf(t)
            && ParseLimit(FieldOf(raw, "limit"), MaxLimitOf(t)) == Success(limit.n)
            && (FieldOf(raw, "limit").Undefined? ==> limit == Num(DefaultLimit))
  {
    LimitRuleOf(t);
    LimitParamOf(t, ParseObject(SchemaOf(t), raw).value);
    ParsedLimit(SchemaOf(t), raw, MaxLimitOf(t));
  }

  /** Every list tool's schema bounds `limit` by the tool's maximum. */
  lemma LimitRuleOf(t: ReadTool)
    requires t != GetUserByEmail
    ensures "limit" in SchemaOf(t) && SchemaOf(t)["limit"] == OptionalInt(1, MaxLimitOf(t))
    ensures DefaultLimit <= MaxLimitOf(t)
  {
  }

  /** Every list tool sends `limit ?? 100`. */
  lemma LimitParamOf(t: ReadTool, input: Value)
    requires t != GetUserByEmail
    ensures ListParams(t, input)["limit"] == Coalesce(FieldOf(input, "limit"), Num(DefaultLimit))
  {
    var page := PageParams(input);
    assert "limit" in page && page["limit"] == Coalesce(FieldOf(input, "limit"), Num(DefaultLimit));
    match t
    case SearchUsers =>
    case ListGroups =>
      assert ListParams(t, input) == WithIfTruthy(page, "q", FieldOf(input, "query"));
    case ListApps =>
      assert ListParams(t, input) == WithIfTruthy(page, "q", FieldOf(input, "query"));
    case SystemLog =>
  }

  /** The page size read from any input a schema with an optional
      `limit` in 1..max admits. */
  lemma ParsedLimit(schema: Schema, raw: Value, max: int)
    requires ParseObject(schema, raw).Success?
    requires "limit" in schema && schema["limit"] == OptionalInt(1, max) && DefaultLimit <= max
    ensures var limit := Coalesce(FieldOf(ParseObject(schema, raw).value, "limit"), Num(DefaultLimit));
            && limit.Num? && 1 <= limit.n <= max
            && ParseLimit(FieldOf(raw, "limit"), max) == Success(limit.n)
            && (FieldOf(raw, "limit").Undefined? ==> limit == Num(DefaultLimit))
  {
    var input := ParseObject(schema, raw).value;
    var v := FieldOf(raw, "limit");
    assert CheckField(schema["limit"], v).Success?;
    if "limit" in input.fields {
      assert Success(input.fields["limit"]) == CheckField(schema["limit"], v);
    }
  }

  /** The statuses search_users admits hold no quote character. */
  lemma StatusesHaveNoQuotes(status: string)
    requires status in UserStatuses
    ensures NoQuotes(status)
  {
  }

  /** On any input its schema admits, search_users sends a status filter
      exactly when a status was given, and that filter is one the filter
      validator accepts. */
  lemma StatusFilterIsValid(raw: Value)
    requires ParseObject(SearchUsersSchema, raw).Success?
    ensures var params := SearchUsersParams(ParseObject(SearchUsersSchema, raw).value);
            && ("filter" in params <==> FieldOf(raw, "status").Str?)
            && ("filter" in params ==> params["filter"].Str? && ValidateOktaFilter(params["filter"].s))
  {
    var schema := SearchUsersSchema;
    var input := ParseObject(schema, raw).value;
    var status := FieldOf(raw, "status");
    assert "status" in schema && schema["status"] == OptionalEnum(UserStatuses);
    assert CheckField(schema["status"], status).Success?;
    if status.Str? {
      assert status.s in UserStatuses;
      assert "status" in input.fields && Success(input.fields["status"]) == CheckField(schema["status"], status);
      assert status.s != "";
      StatusesHaveNoQuotes(status.s);
      StatusFilterAccepted(status.s);
    } else {
      assert status.Undefined?;
      assert FieldOf(input, "status") == Undefined;
    }
  }

  /** An empty answer to get_user_by_email is reported as not found. */
  lemma EmptyAnswerIsNotFound(input: Value, ctx: Context, env: Env, headers: map<string, string>)
    requires env.provider(RequestOf(GetUserByEmail, input)) == Success(Response(Arr([]), headers))
    ensures Invoke(GetUserByEmail, input, ctx, env).result == Success(Obj(map["found" := Bool(false)]))
  {
    ReadToolsAlwaysRun(GetUserByEmail, input, ctx, env);
  }

  /** A list tool answered with an array reports one summary per item, in
      the same order, or throws the first item's error. */
  lemma ListKeepsOrder(t: ReadTool, input: Value, ctx: Context, env: Env, items: seq<Value>, headers: map<string, string>)
    requires t != GetUserByEmail
    requires env.provider(RequestOf(t, input)) == Success(Response(Arr(items), headers))
    requires Invoke(t, input, ctx, env).result.Success?
    ensures var out := Invoke(t, input, ctx, env).result.value;
            && out.Obj? && ListKey(t) in out.fields && out.fields[ListKey(t)].Arr?
            && |out.fields[ListKey(t)].items| == |items|
            && forall i :: 0 <= i < |items| ==> Summary(t)(items[i]) == Success(out.fields[ListKey(t)].items[i])
  {
    ReadToolsAlwaysRun(t, input, ctx, env);
    var res := Response(Arr(items), headers);
    assert Handler(t, input, env).result == ListResult(ListKey(t), res, Summary(t));
  }

  /** The key a list tool reports its items under. */
  function ListKey(t: ReadTool): string {
    match t
    case GetUserByEmail => "user"
    case SearchUsers => "users"
    case ListGroups => "groups"
    case ListApps => "apps"
    case SystemLog => "events"
  }

  /** The per-item mapping of a list tool. */
  function Summary(t: ReadTool): Value -> Result<Value> {
    match t
    case GetUserByEmail => (u: Value) => UserRecord(u, true)
    case SearchUsers => UserSummary
    case ListGroups => GroupSummary
    case ListApps => AppSummary
    case SystemLog => EventSummary
  }

  /** Each read tool has its own description; any other name gets the
      fallback. */
  lemma DescriptionsCoverReadTools(t: ReadTool, other: string)
    requires forall u: ReadTool :: ToolName(u) != other
    ensures GetToolDescription(ToolName(t)) != NoDescription
    ensures GetToolDescription(other) == NoDescription
  {
    assert other !in Descriptions by {
      assert Descriptions.Keys == {ToolName(GetUserByEmail), ToolName(SearchUsers), ToolName(ListGroups),
                                   ToolName(ListApps), ToolName(SystemLog)};
    }
  }
}

=== FILE: role_policy.dfy ===
/** The role policy (src/config/rbac.ts): three roles, a static allow list
    of tool names per role, the default role and the validity check. */
module RolePolicy {
  import opened Base
  import opened Text

  datatype Role = Analyst | Helpdesk | Admin

  /** The spelling of a role in an invocation context and in messages. */
  function Name(r: Role): string {
    match r
    case Analyst => "analyst"
    case Helpdesk => "helpdesk"
    case Admin => "admin"
  }

  /** The five read-only tools. */
  const ReadTools: seq<string> :=
    ["get_user_by_email", "search_users", "list_groups", "list_apps", "system_log"]

  /** The allow list of each role, in the order the source writes it (the
      order shows up in denial messages). Each list begins with the read
      tools and names no tool containing a comma, so a denial message that
      joins it can be split back. */
  function AllowList(r: Role): (tools: seq<string>)
    ensures |tools| >= |ReadTools| && tools[..|ReadTools|] == ReadTools
    ensures CommaFree(tools)
  {
    ListsCommaFree();
    match r
    case Analyst => ReadTools
    case Helpdesk => ReadTools + HelpdeskActions
    case Admin => ReadTools + AdminActions
  }

  /** The destructive actions helpdesk may perform. */
  const HelpdeskActions: seq<string> :=
    ["suspend_user", "unsuspend_user", "clear_user_sessions",
     "add_user_to_group", "remove_user_from_group", "reset_password"]

  /** The destructive actions admin may perform. */
  const AdminActions: seq<string> :=
    ["suspend_user", "unsuspend_user", "deactivate_user", "reactivate_user",
     "clear_user_sessions", "add_user_to_group", "remove_user_from_group",
     "reset_password"]

  /** No name in the list contains a comma. */
  predicate CommaFree(names: seq<string>) {
    forall k :: 0 <= k < |names| ==> ',' !in names[k]
  }

  lemma ListsCommaFree()
    ensures CommaFree(ReadTools) && CommaFree(HelpdeskActions) && CommaFree(AdminActions)
    ensures CommaFree(ReadTools + HelpdeskActions) && CommaFree(ReadTools + AdminActions)
  {
    ReadToolsCommaFree();
    ActionsCommaFree();
    assert forall k :: 0 <= k < |ReadTools + HelpdeskActions| ==>
      (ReadTools + HelpdeskActions)[k] == if k < |ReadTools| then ReadTools[k] else HelpdeskActions[k - |ReadTools|];
    assert forall k :: 0 <= k < |ReadTools + AdminActions| ==>
      (ReadTools + AdminActions)[k] == if k < |ReadTools| then ReadTools[k] else AdminActions[k - |ReadTools|];
  }

  lemma ReadToolsCommaFree()
    ensures CommaFree(ReadTools)
  {
  }

  lemma ActionsCommaFree()
    ensures CommaFree(HelpdeskActions) && CommaFree(AdminActions)
  {
  }

  /** The tools a role may use, as a set. */
  function Allowed(r: Role): set<string> {
    set t | t in AllowList(r)
  }

  /** The role an absent or unusable caller role resolves to: the one whose
      allow list is contained in every other role's. */
  function DefaultRole(): (r: Role)
    ensures r == Analyst
    ensures forall other: Role :: Allowed(r) <= Allowed(other)
  {
    Analyst
  }

  /** The role a string names, if any. */
  function ParseRole(s: string): (r: Option<Role>)
    ensures r.Some? ==> Name(r.value) == s
    ensures r.None? ==> forall x: Role :: Name(x) != s
  {
    if s == "analyst" then Some(Analyst)
    else if s == "helpdesk" then Some(Helpdesk)
    else if s == "admin" then Some(Admin)
    else None
  }

  /** `isRoleValid`: the string is the name of one of the three roles. */
  function IsRoleValid(s: string): (valid: bool)
    ensures valid <==> exists r: Role :: Name(r) == s
  {
    ParseRole(s).Some?
  }

  lemma ConfirmEndsInM(t: string)
    ensures EndsWith(t, "_confirm") ==> t[|t| - 1] == 'm'
  {
    if EndsWith(t, "_confirm") {
      assert t[|t| - 1] == t[|t| - 8..][7];
    }
  }

  /** Allow lists hold base tool names only: no `_confirm` execute tool is
      ever listed. */
  lemma {:induction false} NoConfirmToolListed(r: Role)
    ensures forall k :: 0 <= k < |AllowList(r)| ==> !EndsWith(AllowList(r)[k], "_confirm")
  {
    var tools := AllowList(r);
    assert forall k :: 0 <= k < |tools| ==> tools[k][|tools[k]| - 1] != 'm';
    forall k | 0 <= k < |tools|
      ensures !EndsWith(tools[k], "_confirm")
    {
      ConfirmEndsInM(tools[k]);
    }
  }

  /** Reading a role's name gives the role back. */
  lemma ParseName(r: Role)
    ensures ParseRole(Name(r)) == Some(r)
    ensures IsRoleValid(Name(r))
  {
  }

  /** Privilege only grows from analyst to helpdesk to admin. */
  lemma AllowListsNested()
    ensures Allowed(Analyst) <= Allowed(Helpdesk) <= Allowed(Admin)
  {
  }

  /** What admin may do beyond helpdesk is exactly deactivation and
      reactivation. */
  lemma AdminBeyondHelpdesk()
    ensures Allowed(Admin) - Allowed(Helpdesk) == {"deactivate_user", "reactivate_user"}
  {
  }

  /** The analyst role may use exactly the read tools. */
  lemma AnalystReadOnly()
    ensures Allowed(Analyst) == set t | t in ReadTools
  {
  }
}

=== FILE: schemas.dfy ===
/** The part of zod's object schemas that the tool inputs rely on: a
    non-object is rejected, each declared field is checked, undeclared
    fields are stripped, an absent optional field stays absent and a
    defaulted field is filled in. `z.intersection` of two object schemas
    merges their results. */
module Schemas {
  import opened Base
  import opened Text
  import opened Values

  /** The field validators the tool schemas use. */
  datatype FieldRule =
    | NonEmptyString                       // z.string().min(1)
    | OptionalString                       // z.string().optional()
    | OptionalEnum(options: seq<string>)   // z.enum([...]).optional()
    | OptionalInt(lo: int, hi: int)        // z.number().int().min(lo).max(hi).optional()
    | EmailAddress                         // z.string().email()
    | LiteralTrue                          // z.literal(true)
    | BoolDefault(default: bool)           // z.boolean().default(d)

  type Schema = map<string, FieldRule>

  /** The error of a rejected payload; zod's issue list is not modelled. */
  const InvalidInput: Error := Plain("Invalid input")

  /** A simplified e-mail check: one `@` with a non-empty local part before
      it and, after it, a domain with an inner dot. */
  predicate LooksLikeEmail(s: string) {
    var at := Find(s, 0, '@');
    && 0 < at < |s|
    && '@' !in s[at + 1..]
    && exists k :: at + 1 < k < |s| - 1 && s[k] == '.'
  }

  /** `obj[key]`, reading `undefined` for an absent field. */
  function FieldOf(raw: Value, key: string): Value {
    if raw.Obj? && key in raw.fields then raw.fields[key] else Undefined
  }

  /** One field validator applied to the field's value (`Undefined` when
      absent): it passes the value through, fills in a default, or
      rejects. */
  function CheckField(rule: FieldRule, v: Value): (r: Result<Value>)
    ensures r.Success? && r.value.Undefined? ==> v.Undefined?
    ensures r.Success? && !v.Undefined? ==> r.value == v
  {
    match rule
    case NonEmptyString =>
      if v.Str? && |v.s| >= 1 then Success(v) else Failure(InvalidInput)
    case OptionalString =>
      if v.Undefined? || v.Str? then Success(v) else Failure(InvalidInput)
    case OptionalEnum(options) =>
      if v.Undefined? || (v.Str? && v.s in options) then Success(v) else Failure(InvalidInput)
    case OptionalInt(lo, hi) =>
      if v.Undefined? || (v.Num? && lo <= v.n <= hi) then Success(v) else Failure(InvalidInput)
    case EmailAddress =>
      if v.Str? && LooksLikeEmail(v.s) then Success(v) else Failure(InvalidInput)
    case LiteralTrue =>
      if v == Bool(true) then Success(v) else Failure(InvalidInput)
    case BoolDefault(d) =>
      if v.Undefined? then Success(Bool(d))
      else if v.Bool? then Success(v)
      else Failure(InvalidInput)
  }

  /** Whether every declared field of `raw` passes its validator. */
  predicate FieldsPass(schema: Schema, raw: Value) {
    forall k :: k in schema ==> CheckField(schema[k], FieldOf(raw, k)).Success?
  }

  /** Whether the parsed object keeps declared field `k`: it does when the
      payload has it, even as `undefined`, or its validator produced a
      value. */
  predicate Kept(schema: Schema, raw: Value, k: string)
    requires k in schema && FieldsPass(schema, raw)
  {
    (raw.Obj? && k in raw.fields) || !CheckField(schema[k], FieldOf(raw, k)).value.Undefined?
  }

  /** `z.object(shape).parse(raw)`. */
  function ParseObject(schema: Schema, raw: Value): (r: Result<Value>)
    ensures r.Success? <==> raw.Obj? && FieldsPass(schema, raw)
    ensures r.Failure? ==> r.error == InvalidInput
    ensures r.Success? ==> r.value.Obj? && r.value.fields.Keys <= schema.Keys
    ensures r.Success? ==> forall k :: k in schema ==> (k in r.value.fields <==> Kept(schema, raw, k))
    ensures r.Success? ==> forall k :: k in r.value.fields ==>
              Success(r.value.fields[k]) == CheckField(schema[k], FieldOf(raw, k))
  {
    if !raw.Obj? || !FieldsPass(schema, raw) then Failure(InvalidInput)
    else Success(Obj(map k | k in schema && Kept(schema, raw, k) :: CheckField(schema[k], FieldOf(raw, k)).value))
  }

  /** `z.intersection(a, b).parse(raw)` for object schemas whose fields
      are disjoint, as every intersection the tools build is: both sides
      parse the same payload and their results are merged. A field both
      sides declare is outside the model: zod rejects the payload when the
      two parsed values differ, while this merge keeps the right one. */
  function ParseIntersection(a: Schema, b: Schema, raw: Value): (r: Result<Value>)
    ensures r.Success? <==> ParseObject(a, raw).Success? && ParseObject(b, raw).Success?
    ensures r.Success? ==> r.value.Obj?
  {
    var left :- ParseObject(a, raw);
    var right :- ParseObject(b, raw);
    Success(Obj(left.fields + right.fields))
  }

  /** A field validator accepts its own output unchanged. */
  lemma CheckFieldIdempotent(rule: FieldRule, v: Value)
    requires CheckField(rule, v).Success?
    ensures CheckField(rule, CheckField(rule, v).value) == CheckField(rule, v)
  {
  }

  /** Parsing is idempotent: a parsed payload parses to itself. */
  lemma ParseIdempotent(schema: Schema, raw: Value)
    requires ParseObject(schema, raw).Success?
    ensures ParseObject(schema, ParseObject(schema, raw).value) == ParseObject(schema, raw)
  {
    var out := ParseObject(schema, raw).value;
    forall k | k in schema
      ensures CheckField(schema[k], FieldOf(out, k)) == CheckField(schema[k], FieldOf(raw, k))
    {
      CheckFieldIdempotent(schema[k], FieldOf(raw, k));
    }
    assert FieldsPass(schema, out);
    var again := ParseObject(schema, out).value;
    forall k | k in schema
      ensures k in again.fields <==> k in out.fields
      ensures k in again.fields ==> again.fields[k] == out.fields[k]
    {
      assert Kept(schema, out, k) <==> Kept(schema, raw, k);
    }
    assert again.fields == out.fields;
  }

  /** For object schemas over disjoint fields the intersection parses like
      the single schema holding both sets of fields. */
  lemma IntersectionIsUnion(a: Schema, b: Schema, raw: Value)
    requires a.Keys !! b.Keys
    ensures ParseIntersection(a, b, raw) == ParseObject(a + b, raw)
  {
    var ab := a + b;
    if raw.Obj? && FieldsPass(a, raw) && FieldsPass(b, raw) {
      forall k | k in ab
        ensures CheckField(ab[k], FieldOf(raw, k)).Success?
      {
        if k in b {
          assert ab[k] == b[k];
        } else {
          assert ab[k] == a[k];
        }
      }
      var left := ParseObject(a, raw).value;
      var right := ParseObject(b, raw).value;
      var whole := ParseObject(ab, raw).value;
      forall k | k in ab
        ensures k in whole.fields <==> k in left.fields + right.fields
      {
        if k in b {
          assert ab[k] == b[k];
        } else {
          assert ab[k] == a[k];
        }
      }
      assert whole.fields == left.fields + right.fields;
    } else if raw.Obj? {
      if !FieldsPass(a, raw) {
        var k :| k in a && CheckField(a[k], FieldOf(raw, k)).Failure?;
        assert ab[k] == a[k];
      } else {
        var k :| k in b && CheckField(b[k], FieldOf(raw, k)).Failure?;
        assert ab[k] == b[k];
      }
    }
  }

  /** A schema of required non-empty strings admits a payload iff it is an
      object carrying each such field as a non-empty string, and keeps
      exactly those fields. */
  lemma RequiredStringsSchema(schema: Schema, raw: Value)
    requires forall k :: k in schema ==> schema[k] == NonEmptyString
    ensures ParseObject(schema, raw).Success?
        <==> raw.Obj? && forall k :: k in schema ==> k in raw.fields && raw.fields[k].Str? && |raw.fields[k].s| > 0
    ensures ParseObject(schema, raw).Success? ==> ParseObject(schema, raw).value.fields.Keys == schema.Keys
  {
    if raw.Obj? && forall k :: k in schema ==> k in raw.fields && raw.fields[k].Str? && |raw.fields[k].s| > 0 {
      assert FieldsPass(schema, raw);
    }
  }
}

=== FILE: text.dfy ===
/** String helpers shared by the policy layer: searching, joining and
    splitting, the JavaScript `\s` class and decimal numerals. */
module Text {

  /** The characters matched by JavaScript's regular-expression class `\s`. */
  predicate IsSpace(c: char) {
    || c == ' ' || c == '\t' || c == '\n' || c == '\r'
    || c == '\U{0B}' || c == '\U{0C}' || c == '\U{A0}' || c == '\U{1680}'
    || ('\U{2000}' <= c <= '\U{200A}')
    || c == '\U{2028}' || c == '\U{2029}' || c == '\U{202F}'
    || c == '\U{205F}' || c == '\U{3000}' || c == '\U{FEFF}'
  }

  predicate IsDigit(c: char) {
    '0' <= c <= '9'
  }

  predicate IsLetter(c: char) {
    ('a' <= c <= 'z') || ('A' <= c <= 'Z')
  }

  /** `t` occurs in `s` starting at index `i`. */
  predicate StartsAt(s: string, i: nat, t: string) {
    i + |t| <= |s| && s[i..i + |t|] == t
  }

  /** A piece of a string held at `i` is held at the matching offset. */
  lemma StartsAtPart(s: string, i: nat, t: string, a: nat, b: nat)
    requires StartsAt(s, i, t) && a <= b <= |t|
    ensures s[i + a..i + b] == t[a..b]
  {
    forall k | 0 <= k < b - a
      ensures s[i + a..i + b][k] == t[a..b][k]
    {
      assert s[i + a + k] == s[i..i + |t|][a + k];
    }
  }

  predicate EndsWith(s: string, suffix: string) {
    |suffix| <= |s| && s[|s| - |suffix|..] == suffix
  }

  /** The index of the first `c` in `s` at or after `from`, or `|s|` when
      there is none. */
  function Find(s: string, from: nat, c: char): (j: nat)
    requires from <= |s|
    ensures from <= j <= |s|
    ensures j < |s| ==> s[j] == c
    ensures forall k :: from <= k < j ==> s[k] != c
    decreases |s| - from
  {
    if from == |s| || s[from] == c then from else Find(s, from + 1, c)
  }

  /** `Find` is determined by its contract. */
  lemma FindIs(s: string, from: nat, c: char, j: nat)
    requires from <= j <= |s|
    requires j < |s| ==> s[j] == c
    requires forall k :: from <= k < j ==> s[k] != c
    ensures Find(s, from, c) == j
  {
  }

  /** The first `c` of `p + [c] + rest` is the one after `p` when `p` has
      none. */
  lemma FindAfterPrefix(p: string, c: char, rest: string)
    requires c !in p
    ensures Find(p + [c] + rest, 0, c) == |p|
  {
    var s := p + [c] + rest;
    forall k | 0 <= k < |p|
      ensures s[k] != c
    {
      assert s[k] == p[k];
    }
    FindIs(s, 0, c, |p|);
  }

  /** The end of the longest run starting at `from` whose characters all
      satisfy `p`: a greedy `[...]*` in a regular expression. */
  function Span(s: string, from: nat, p: char -> bool): (j: nat)
    requires from <= |s|
    ensures from <= j <= |s|
    ensures forall k :: from <= k < j ==> p(s[k])
    ensures j < |s| ==> !p(s[j])
    decreases |s| - from
  {
    if from == |s| || !p(s[from]) then from else Span(s, from + 1, p)
  }

  /** `Span` is determined by its contract. */
  lemma SpanIs(s: string, from: nat, p: char -> bool, j: nat)
    requires from <= j <= |s|
    requires forall k :: from <= k < j ==> p(s[k])
    requires j < |s| ==> !p(s[j])
    ensures Span(s, from, p) == j
  {
  }

  /** `Array.prototype.join(sep)` on an array of strings. */
  function Join(xs: seq<string>, sep: string): string {
    if |xs| == 0 then ""
    else if |xs| == 1 then xs[0]
    else xs[0] + sep + Join(xs[1..], sep)
  }

  /** The separator the access guard lists allowed tools with. */
  const ListSeparator: string := ", "

  /** Cuts `s` at every comma and drops the comma together with the blank
      that `ListSeparator` puts after it: the reading of a list written by
      `Join(_, ListSeparator)`. */
  function SplitList(s: string): seq<string>
    decreases |s|
  {
    var i := Find(s, 0, ',');
    if i == |s| then [s]
    else [s[..i]] + SplitList(s[if i + 2 <= |s| then i + 2 else |s|..])
  }

  /** Splitting undoes joining, so a joined list of comma-free names names
      exactly those entries, in order. */
  lemma {:induction false} SplitJoin(xs: seq<string>)
    requires |xs| > 0
    requires forall k :: 0 <= k < |xs| ==> ',' !in xs[k]
    ensures SplitList(Join(xs, ListSeparator)) == xs
    decreases |xs|
  {
    if |xs| == 1 {
      FindIs(xs[0], 0, ',', |xs[0]|);
    } else {
      var s := Join(xs, ListSeparator);
      var rest := Join(xs[1..], ListSeparator);
      assert s == xs[0] + ", " + rest;
      forall k | 0 <= k < |xs[0]|
        ensures s[k] != ','
      {
        assert s[k] == xs[0][k];
      }
      FindIs(s, 0, ',', |xs[0]|);
      assert s[..|xs[0]|] == xs[0];
      assert s[|xs[0]| + 2..] == rest;
      SplitJoin(xs[1..]);
    }
  }

  function DigitChar(d: nat): (c: char)
    requires d < 10
    ensures IsDigit(c)
  {
    ['0', '1', '2', '3', '4', '5', '6', '7', '8', '9'][d]
  }

  /** A non-empty string of decimal digits. */
  predicate IsNumeral(s: string) {
    |s| > 0 && forall k :: 0 <= k < |s| ==> IsDigit(s[k])
  }

  /** The decimal spelling of `n`, as `String(n)` writes it. */
  function DecimalString(n: nat): (r: string)
    ensures IsNumeral(r)
    decreases n
  {
    if n < 10 then [DigitChar(n)] else DecimalString(n / 10) + [DigitChar(n % 10)]
  }
}

=== FILE: validation.dfy ===
/** The validation helpers (src/utils/validation.ts): search-query
    stripping, the filter-syntax check, capped exponential backoff, the
    retry predicate, the cursor alphabet check, `Link` header parsing and
    the standalone limit schemas. */
module Validation {
  import opened Base
  import opened Text
  import opened Values
  import opened LinkHeader

  // ---------------------------------------------------------------------
  // sanitizeSearchQuery

  /** The characters `sanitizeSearchQuery` deletes. */
  predicate IsUnsafe(c: char) {
    c == '<' || c == '>' || c == '"' || c == '\'' || c == '&'
  }

  /** The reference reading of the replacement: the unsafe characters
      deleted, every other character kept in order. */
  function StripUnsafe(s: string): (r: string)
    ensures |r| <= |s|
    ensures forall k :: 0 <= k < |r| ==> !IsUnsafe(r[k])
  {
    if |s| == 0 then ""
    else StripUnsafe(s[..|s| - 1]) + (if IsUnsafe(s[|s| - 1]) then "" else [s[|s| - 1]])
  }

  /** `sanitizeSearchQuery`: `query.replace(/[<>"'&]/g, "")`, one character
      at a time. */
  method SanitizeSearchQuery(query: string) returns (clean: string)
    ensures clean == StripUnsafe(query)
    ensures |clean| <= |query|
    ensures forall k :: 0 <= k < |clean| ==> !IsUnsafe(clean[k])
  {
    clean := "";
    var i := 0;
    while i < |query|
      invariant 0 <= i <= |query|
      invariant clean == StripUnsafe(query[..i])
    {
      if !IsUnsafe(query[i]) {
        clean := clean + [query[i]];
      }
      assert query[..i + 1][..i] == query[..i];
      i := i + 1;
    }
    assert query[..|query|] == query;
  }

  /** Stripping distributes over concatenation; with `StripOne` this pins
      the stripping down completely. */
  lemma {:induction false} StripAppend(a: string, b: string)
    ensures StripUnsafe(a + b) == StripUnsafe(a) + StripUnsafe(b)
    decreases |b|
  {
    if |b| == 0 {
      assert a + b == a;
    } else {
      var b' := b[..|b| - 1];
      assert (a + b)[..|a + b| - 1] == a + b';
      StripAppend(a, b');
    }
  }

  /** One character is deleted iff it is unsafe. */
  lemma StripOne(c: char)
    ensures StripUnsafe([c]) == (if IsUnsafe(c) then "" else [c])
  {
    assert [c][..0] == "";
  }

  /** A string without unsafe characters is left as it is. */
  lemma {:induction false} StripSafe(s: string)
    requires forall k :: 0 <= k < |s| ==> !IsUnsafe(s[k])
    ensures StripUnsafe(s) == s
  {
    if |s| > 0 {
      StripSafe(s[..|s| - 1]);
      assert s[..|s| - 1] + [s[|s| - 1]] == s;
    }
  }

  /** Sanitizing twice is sanitizing once. */
  lemma StripIdempotent(s: string)
    ensures StripUnsafe(StripUnsafe(s)) == StripUnsafe(s)
  {
    StripSafe(StripUnsafe(s));
  }

  // ---------------------------------------------------------------------
  // validateOktaFilter

  predicate IsFieldChar(c: char) {
    IsLetter(c) || c == '.'
  }

  predicate IsQuote(c: char) {
    c == '"' || c == '\''
  }

  /** The ten operators of the filter pattern. */
  const FilterOperators: seq<string> := ["eq", "ne", "gt", "lt", "ge", "le", "sw", "ew", "co", "pr"]

  predicate NoQuotes(s: string) {
    forall k :: 0 <= k < |s| ==> !IsQuote(s[k])
  }

  /** `validateOktaFilter`: the pattern
      `^([a-zA-Z.]+)\s+(eq|ne|gt|lt|ge|le|sw|ew|co|pr)\s+["']([^"']*)["']$`
      read greedily from the left. Neither the field nor the operator is
      checked against any other list, and the two quotes need not match. */
  function ValidateOktaFilter(filter: string): (valid: bool)
    ensures valid ==> 7 <= |filter| && IsFieldChar(filter[0]) && IsQuote(filter[|filter| - 1])
  {
    var a := Span(filter, 0, IsFieldChar);
    if a == 0 then false
    else
      var b := Span(filter, a, IsSpace);
      if b == a || b + 2 > |filter| || filter[b..b + 2] !in FilterOperators then false
      else
        var c := Span(filter, b + 2, IsSpace);
        && c > b + 2
        && c + 2 <= |filter|
        && IsQuote(filter[c])
        && IsQuote(filter[|filter| - 1])
        && NoQuotes(filter[c + 1..|filter| - 1])
  }

  /** The pieces of a filter the pattern describes. */
  datatype FilterParts = FilterParts(
    field: string, gap1: string, op: string, gap2: string,
    open: char, value: string, close: char)

  predicate AllSatisfy(s: string, p: char -> bool) {
    forall k :: 0 <= k < |s| ==> p(s[k])
  }

  predicate WellFormed(p: FilterParts) {
    && |p.field| > 0 && AllSatisfy(p.field, IsFieldChar)
    && |p.gap1| > 0 && AllSatisfy(p.gap1, IsSpace)
    && p.op in FilterOperators
    && |p.gap2| > 0 && AllSatisfy(p.gap2, IsSpace)
    && IsQuote(p.open) && NoQuotes(p.value) && IsQuote(p.close)
  }

  function Render(p: FilterParts): string {
    p.field + p.gap1 + p.op + p.gap2 + [p.open] + p.value + [p.close]
  }

  /** Splits an accepted filter into its pieces. */
  function Decompose(filter: string): FilterParts
    requires ValidateOktaFilter(filter)
  {
    var a := Span(filter, 0, IsFieldChar);
    var b := Span(filter, a, IsSpace);
    var c := Span(filter, b + 2, IsSpace);
    FilterParts(filter[..a], filter[a..b], filter[b..b + 2], filter[b + 2..c],
                filter[c], filter[c + 1..|filter| - 1], filter[|filter| - 1])
  }

  lemma SpaceIsNoFieldChar(c: char)
    ensures IsSpace(c) ==> !IsFieldChar(c) && !IsQuote(c)
  {
  }

  lemma OperatorsAreLetters(op: string)
    requires op in FilterOperators
    ensures |op| == 2 && IsLetter(op[0]) && IsLetter(op[1])
  {
  }

  /** Every accepted filter is the rendering of well-formed pieces. */
  lemma AcceptedFilterDecomposes(filter: string)
    requires ValidateOktaFilter(filter)
    ensures WellFormed(Decompose(filter)) && Render(Decompose(filter)) == filter
  {
    DecomposedPiecesWellFormed(filter);
    DecomposedPiecesRender(filter);
  }

  /** The filter check accepts exactly the renderings of well-formed
      pieces. */
  lemma FilterAcceptedIffWellFormed(filter: string)
    ensures ValidateOktaFilter(filter) <==> exists p :: WellFormed(p) && Render(p) == filter
  {
    if ValidateOktaFilter(filter) {
      AcceptedFilterDecomposes(filter);
      var p := Decompose(filter);
      assert WellFormed(p) && Render(p) == filter;
    }
    if exists p :: WellFormed(p) && Render(p) == filter {
      var p :| WellFormed(p) && Render(p) == filter;
      WellFormedFilterAccepted(p);
    }
  }

  /** The pieces an accepted filter splits into are well formed. */
  lemma DecomposedPiecesWellFormed(filter: string)
    requires ValidateOktaFilter(filter)
    ensures WellFormed(Decompose(filter))
  {
  }

  /** The pieces an accepted filter splits into put it back together. */
  lemma DecomposedPiecesRender(filter: string)
    requires ValidateOktaFilter(filter)
    ensures Render(Decompose(filter)) == filter
  {
    var a := Span(filter, 0, IsFieldChar);
    var b := Span(filter, a, IsSpace);
    var c := Span(filter, b + 2, IsSpace);
    DecomposeAt(filter, a, b, c);
    Reassemble(filter, a, b, c);
  }

  /** A string is the concatenation of its pieces between the cut points. */
  lemma Reassemble(s: string, a: nat, b: nat, c: nat)
    requires a <= b && b + 2 <= c && c + 2 <= |s|
    ensures s[..a] + s[a..b] + s[b..b + 2] + s[b + 2..c] + [s[c]] + s[c + 1..|s| - 1] + [s[|s| - 1]] == s
  {
    var head := s[..a] + s[a..b] + s[b..b + 2] + s[b + 2..c];
    assert head == s[..c];
    assert s == s[..c] + [s[c]] + s[c + 1..|s| - 1] + [s[|s| - 1]];
  }

  /** Where each piece sits in a rendering `s` whose cut points are `a`,
      `b` and `c`. */
  lemma RenderPieces(p: FilterParts, s: string, a: nat, b: nat, c: nat)
    requires |p.op| == 2 && s == Render(p)
    requires a == |p.field| && b == a + |p.gap1| && c == b + 2 + |p.gap2|
    ensures |s| == c + |p.value| + 2
    ensures s[..a] == p.field && s[a..b] == p.gap1 && s[b..b + 2] == p.op
    ensures s[b + 2..c] == p.gap2 && s[c] == p.open
    ensures s[c + 1..|s| - 1] == p.value && s[|s| - 1] == p.close
  {
    var head := p.field + p.gap1 + p.op + p.gap2;
    assert |head| == c && s == head + [p.open] + p.value + [p.close];
    assert s[..c] == head && s[c + 1..|s| - 1] == p.value;
    assert head == p.field + p.gap1 + p.op + p.gap2;
  }

  /** Every rendering of well-formed pieces is accepted and splits back
      into the same pieces. */
  lemma WellFormedFilterAccepted(p: FilterParts)
    requires WellFormed(p)
    ensures ValidateOktaFilter(Render(p)) && Decompose(Render(p)) == p
  {
    var s := Render(p);
    var a := |p.field|;
    var b := a + |p.gap1|;
    var c := b + 2 + |p.gap2|;
    RenderingAccepted(p);
    OperatorsAreLetters(p.op);
    SpansOfRendering(p);
    DecomposeAt(s, a, b, c);
    RenderPieces(p, s, a, b, c);
    var d := Decompose(s);
    assert d.field == p.field && d.gap1 == p.gap1 && d.op == p.op && d.gap2 == p.gap2;
    assert d.open == p.open && d.value == p.value && d.close == p.close;
  }

  /** The split of an accepted filter at the ends of its three scans. */
  lemma DecomposeAt(s: string, a: nat, b: nat, c: nat)
    requires ValidateOktaFilter(s)
    requires Span(s, 0, IsFieldChar) == a && Span(s, a, IsSpace) == b && Span(s, b + 2, IsSpace) == c
    ensures a <= b && b + 2 <= c && c + 2 <= |s|
    ensures Decompose(s) == FilterParts(s[..a], s[a..b], s[b..b + 2], s[b + 2..c], s[c], s[c + 1..|s| - 1], s[|s| - 1])
  {
  }

  /** The pattern accepts every rendering of well-formed pieces. */
  lemma RenderingAccepted(p: FilterParts)
    requires WellFormed(p)
    ensures ValidateOktaFilter(Render(p))
  {
    var s := Render(p);
    var a := |p.field|;
    var b := a + |p.gap1|;
    var c := b + 2 + |p.gap2|;
    OperatorsAreLetters(p.op);
    RenderPieces(p, s, a, b, c);
    SpansOfRendering(p);
    assert a > 0 && b > a && b + 2 <= |s| && s[b..b + 2] in FilterOperators;
    assert c > b + 2 && c + 2 <= |s|;
    assert IsQuote(s[c]) && IsQuote(s[|s| - 1]);
    assert NoQuotes(s[c + 1..|s| - 1]);
  }

  /** The three scans of the pattern stop where the pieces of a rendering
      end. */
  lemma SpansOfRendering(p: FilterParts)
    requires WellFormed(p)
    ensures var s := Render(p);
            var a := |p.field|;
            var b := a + |p.gap1|;
            var c := b + 2 + |p.gap2|;
            && c < |s|
            && Span(s, 0, IsFieldChar) == a && Span(s, a, IsSpace) == b && Span(s, b + 2, IsSpace) == c
  {
    var s := Render(p);
    var a := |p.field|;
    var b := a + |p.gap1|;
    var c := b + 2 + |p.gap2|;
    OperatorsAreLetters(p.op);
    RenderPieces(p, s, a, b, c);
    SpaceIsNoFieldChar(p.gap1[0]);
    assert s[a] == p.gap1[0];
    SpanIs(s, 0, IsFieldChar, a);
    assert s[b] == p.op[0];
    SpanIs(s, a, IsSpace, b);
    SpaceIsNoFieldChar(s[c]);
    SpanIs(s, b + 2, IsSpace, c);
  }

  /** An equality test of a field against a double-quoted, quote-free
      value is accepted. */
  lemma EqualityFilterAccepted(field: string, value: string)
    requires |field| > 0 && AllSatisfy(field, IsFieldChar)
    requires NoQuotes(value)
    ensures ValidateOktaFilter(field + " eq \"" + value + "\"")
  {
    var p := FilterParts(field, " ", "eq", " ", '"', value, '"');
    WellFormedFilterAccepted(p);
    assert field + " " + "eq" + " " + ['"'] == field + " eq \"";
    assert Render(p) == field + " eq \"" + value + "\"";
  }

  /** The filter search_users builds from a status is accepted. */
  lemma StatusFilterAccepted(status: string)
    requires NoQuotes(status)
    ensures ValidateOktaFilter("status eq \"" + status + "\"")
  {
    EqualityFilterAccepted("status", status);
    assert "status" + " eq \"" == "status eq \"";
    assert "status" + " eq \"" + status + "\"" == "status eq \"" + status + "\"";
  }

  // ---------------------------------------------------------------------
  // calculateBackoffDelay and shouldRetry

  function Pow2(n: nat): (p: nat)
    ensures p >= 1
  {
    if n == 0 then 1 else 2 * Pow2(n - 1)
  }

  lemma {:induction false} Pow2Monotone(m: nat, n: nat)
    requires m <= n
    ensures Pow2(m) <= Pow2(n)
    decreases n - m
  {
    if m < n {
      Pow2Monotone(m, n - 1);
    }
  }

  const MaxBackoffDelay: int := 30000

  const DefaultBaseDelay: int := 1000

  /** `calculateBackoffDelay(attempt, baseDelay)`:
      `min(baseDelay * 2^attempt, 30000)`. It never exceeds the cap. */
  function CalculateBackoffDelay(attempt: nat, baseDelay: int): (delay: int)
    ensures delay <= MaxBackoffDelay && delay <= baseDelay * Pow2(attempt)
    ensures delay == MaxBackoffDelay || delay == baseDelay * Pow2(attempt)
  {
    var raw := baseDelay * Pow2(attempt);
    if raw < MaxBackoffDelay then raw else MaxBackoffDelay
  }

  /** With a non-negative base the delay never shrinks as attempts grow. */
  lemma BackoffMonotone(m: nat, n: nat, baseDelay: int)
    requires m <= n && baseDelay >= 0
    ensures CalculateBackoffDelay(m, baseDelay) <= CalculateBackoffDelay(n, baseDelay)
  {
    Pow2Monotone(m, n);
    assert baseDelay * Pow2(m) <= baseDelay * Pow2(n);
  }

  /** With the default base the delays are 1, 2, 4, 8 and 16 seconds, and
      30 seconds from the sixth attempt on. */
  lemma DefaultBackoffSchedule(attempt: nat)
    ensures attempt < 5 ==> CalculateBackoffDelay(attempt, DefaultBaseDelay) == 1000 * Pow2(attempt) < MaxBackoffDelay
    ensures attempt >= 5 ==> CalculateBackoffDelay(attempt, DefaultBaseDelay) == MaxBackoffDelay
  {
    assert Pow2(4) == 16 && Pow2(5) == 32;
    if attempt < 5 {
      Pow2Monotone(attempt, 4);
    } else {
      Pow2Monotone(5, attempt);
    }
  }

  const TooManyRequests: int := 429

  const FirstServerError: int := 500

  /** `shouldRetry`: below the server-error range only "too many requests"
      is retried; every server error is. */
  function ShouldRetry(statusCode: int): (retry: bool)
    ensures statusCode < FirstServerError ==> (retry <==> statusCode == TooManyRequests)
    ensures statusCode >= FirstServerError ==> retry
  {
    statusCode >= 500 || statusCode == 429
  }

  // ---------------------------------------------------------------------
  // validateCursor

  /** The alphabet of `^[A-Za-z0-9+/=]+$`. */
  predicate IsCursorChar(c: char) {
    IsLetter(c) || IsDigit(c) || c == '+' || c == '/' || c == '='
  }

  /** `validateCursor`: an absent or empty cursor passes; any other passes
      iff the greedy run of alphabet characters covers all of it. */
  function ValidateCursor(cursor: Option<string>): (valid: bool)
    ensures valid <==> cursor.None? || forall k :: 0 <= k < |cursor.value| ==> IsCursorChar(cursor.value[k])
  {
    cursor.None? || cursor.value == "" || Span(cursor.value, 0, IsCursorChar) == |cursor.value|
  }

  /** A valid cursor has nothing the search-query sanitizer would strip. */
  lemma ValidCursorSurvivesSanitizing(cursor: string)
    requires ValidateCursor(Some(cursor))
    ensures StripUnsafe(cursor) == cursor
  {
    StripSafe(cursor);
  }

  // ---------------------------------------------------------------------
  // parseLinkHeader

  /** The match `k` is the last one for its relation. */
  predicate LastOfRel(ms: seq<LinkMatch>, k: nat)
    requires k < |ms|
  {
    forall j :: k < j < |ms| ==> ms[j].rel != ms[k].rel
  }

  /** Stores the matches in order, so a later relation overwrites an
      earlier one. */
  function ToMap(ms: seq<LinkMatch>): map<string, string> {
    if |ms| == 0 then map[]
    else ToMap(ms[..|ms| - 1])[ms[|ms| - 1].rel := ms[|ms| - 1].url]
  }

  /** The stored relations are exactly the matched ones. */
  lemma {:induction false} ToMapKeys(ms: seq<LinkMatch>)
    ensures ToMap(ms).Keys == set k | 0 <= k < |ms| :: ms[k].rel
  {
    if |ms| > 0 {
      var init := ms[..|ms| - 1];
      var last := ms[|ms| - 1];
      ToMapKeys(init);
      var keys := set k | 0 <= k < |ms| :: ms[k].rel;
      var initKeys := set k | 0 <= k < |init| :: init[k].rel;
      forall x | x in keys
        ensures x in initKeys + {last.rel}
      {
        var k :| 0 <= k < |ms| && ms[k].rel == x;
        if k < |init| {
          assert init[k] == ms[k];
        }
      }
      forall x | x in initKeys + {last.rel}
        ensures x in keys
      {
        if x in initKeys {
          var k :| 0 <= k < |init| && init[k].rel == x;
          assert ms[k] == init[k];
        } else {
          assert ms[|ms| - 1].rel == x;
        }
      }
    }
  }

  /** Each stored relation maps to the URL of its last match. */
  lemma {:induction false} ToMapLastWins(ms: seq<LinkMatch>)
    ensures forall k :: 0 <= k < |ms| && LastOfRel(ms, k) ==> ms[k].rel in ToMap(ms) && ToMap(ms)[ms[k].rel] == ms[k].url
  {
    if |ms| > 0 {
      var init := ms[..|ms| - 1];
      var last := ms[|ms| - 1];
      ToMapLastWins(init);
      forall k | 0 <= k < |ms| && LastOfRel(ms, k)
        ensures ms[k].rel in ToMap(ms) && ToMap(ms)[ms[k].rel] == ms[k].url
      {
        if k < |ms| - 1 {
          assert init[k] == ms[k];
          assert ms[k].rel != last.rel;
          assert LastOfRel(init, k);
        }
      }
    }
  }

  /** `parseLinkHeader`: an absent or empty header gives no links; else each
      relation maps to the URL of its last match. */
  function ParseLinkHeader(linkHeader: Option<string>): (links: map<string, string>)
    ensures linkHeader.None? || linkHeader.value == "" ==> links == map[]
    ensures linkHeader.Some? ==>
              var ms := AllMatches(linkHeader.value, 0);
              && links.Keys == (set k | 0 <= k < |ms| :: ms[k].rel)
              && forall k :: 0 <= k < |ms| && LastOfRel(ms, k) ==> links[ms[k].rel] == ms[k].url
  {
    if linkHeader.None? || linkHeader.value == "" then map[]
    else
      var ms := AllMatches(linkHeader.value, 0);
      ToMapKeys(ms);
      ToMapLastWins(ms);
      ToMap(ms)
  }

  /** A header of two links, separated as servers write them, is read as
      those two links, in order. */
  lemma TwoLinksMatched(url1: string, rel1: string, url2: string, rel2: string)
    requires |url1| > 0 && '>' !in url1 && |rel1| > 0 && '"' !in rel1
    requires |url2| > 0 && '>' !in url2 && |rel2| > 0 && '"' !in rel2
    ensures var s := Link(url1, rel1) + ", " + Link(url2, rel2);
            AllMatches(s, 0) == [LinkMatch(url1, rel1, |Link(url1, rel1)|), LinkMatch(url2, rel2, |s|)]
  {
    var l1 := Link(url1, rel1);
    var l2 := Link(url2, rel2);
    var s := l1 + ", " + l2;
    var n := |l1|;
    assert s[0..n] == l1;
    assert s[n + 2..n + 2 + |l2|] == l2;
    assert s[n] == ',' && s[n + 1] == ' ';
    AllMatchesOfTwoLinks(s, n, url1, rel1, url2, rel2);
  }

  /** Both links are kept when their relations differ; the second wins when
      they are the same. */
  lemma TwoLinksParsed(url1: string, rel1: string, url2: string, rel2: string)
    requires |url1| > 0 && '>' !in url1 && |rel1| > 0 && '"' !in rel1
    requires |url2| > 0 && '>' !in url2 && |rel2| > 0 && '"' !in rel2
    ensures ParseLinkHeader(Some(Link(url1, rel1) + ", " + Link(url2, rel2)))
         == map[rel1 := url1][rel2 := url2]
  {
    var s := Link(url1, rel1) + ", " + Link(url2, rel2);
    TwoLinksMatched(url1, rel1, url2, rel2);
    var m1 := LinkMatch(url1, rel1, |Link(url1, rel1)|);
    var ms := AllMatches(s, 0);
    assert ms[..1] == [m1];
    assert [m1][..0] == [];
    assert ToMap([m1]) == map[rel1 := url1];
    assert ToMap(ms) == map[rel1 := url1][rel2 := url2];
    assert s != "";
  }

  // ---------------------------------------------------------------------
  // LimitSchema and LogLimitSchema

  const MaxListLimit: int := 200

  const MaxLogLimit: int := 1000

  const DefaultLimit: int := 100

  /** `z.number().int().min(1).max(max).default(100)`: a missing value
      takes the default; a number in [1, max] is kept; anything else is
      rejected. */
  function ParseLimit(v: Value, max: int): (r: Result<int>)
    ensures r.Success? ==> (1 <= r.value <= max) || r.value == DefaultLimit
    ensures v.Undefined? ==> r == Success(DefaultLimit)
    ensures v.Num? ==> (r.Success? <==> 1 <= v.n <= max)
    ensures v.Num? && 1 <= v.n <= max ==> r == Success(v.n)
    ensures !v.Undefined? && !v.Num? ==> r.Failure?
  {
    match v
    case Undefined => Success(DefaultLimit)
    case Num(n) => if 1 <= n <= max then Success(n) else Failure(Plain("Invalid limit"))
    case _ => Failure(Plain("Invalid limit"))
  }

  /** Both limit schemas only ever yield a limit their range admits. */
  lemma LimitSchemasInRange(v: Value)
    ensures ParseLimit(v, MaxListLimit).Success? ==> 1 <= ParseLimit(v, MaxListLimit).value <= MaxListLimit
    ensures ParseLimit(v, MaxLogLimit).Success? ==> 1 <= ParseLimit(v, MaxLogLimit).value <= MaxLogLimit
  {
  }
}

=== FILE: values.dfy ===
/** The JSON-shaped JavaScript values that tool inputs, tool results and
    provider responses are made of, with the handful of language rules the
    policy layer relies on: truthiness, `typeof x === "object"`, object
    spread, property access with and without optional chaining, and `||`
    used as a default. */
module Values {
  import opened Base
  import opened Text

  /** Numbers are integers here; an absent property reads as `Undefined`. */
  datatype Value =
    | Undefined
    | Null
    | Bool(b: bool)
    | Num(n: int)
    | Str(s: string)
    | Arr(items: seq<Value>)
    | Obj(fields: map<string, Value>)

  /** JavaScript truthiness: `undefined`, `null`, `false`, `0` and `""` are
      falsy; every array and object, even an empty one, is truthy. */
  predicate Truthy(v: Value) {
    match v
    case Undefined => false
    case Null => false
    case Bool(b) => b
    case Num(n) => n != 0
    case Str(s) => s != ""
    case Arr(_) => true
    case Obj(_) => true
  }

  /** `typeof v === "object"`, which holds for `null` and for arrays too. */
  predicate IsObjectType(v: Value) {
    v.Null? || v.Arr? || v.Obj?
  }

  predicate Nullish(v: Value) {
    v.Undefined? || v.Null?
  }

  /** The own enumerable properties of an array-like: index numerals. */
  function IndexMap(xs: seq<Value>): (m: map<string, Value>)
    ensures forall k :: k in m ==> IsNumeral(k)
  {
    if |xs| == 0 then map[]
    else IndexMap(xs[..|xs| - 1])[DecimalString(|xs| - 1) := xs[|xs| - 1]]
  }

  /** The properties `{ ...v }` copies. Objects copy their fields; arrays
      and strings copy index-numbered entries; everything else copies
      nothing. */
  function Spread(v: Value): (m: map<string, Value>)
    ensures v.Obj? ==> m == v.fields
    ensures !v.Obj? ==> forall k :: k in m ==> IsNumeral(k)
  {
    match v
    case Obj(f) => f
    case Arr(xs) => IndexMap(xs)
    case Str(s) => IndexMap(seq(|s|, i requires 0 <= i < |s| => Str([s[i]])))
    case _ => map[]
  }

  /** The `TypeError` V8 throws for a property read on `undefined` or
      `null`. */
  function ReadError(v: Value, key: string): Error {
    Plain("Cannot read properties of " + (if v.Null? then "null" else "undefined")
          + " (reading '" + key + "')")
  }

  /** `v.key` for a property name that is neither an array index nor a
      built-in property such as `length`. */
  function Get(v: Value, key: string): (r: Result<Value>)
    ensures r.Failure? <==> Nullish(v)
    ensures r.Failure? ==> r.error == ReadError(v, key)
    ensures v.Obj? ==> r == Success(if key in v.fields then v.fields[key] else Undefined)
    ensures !Nullish(v) && !v.Obj? ==> r == Success(Undefined)
  {
    match v
    case Undefined => Failure(ReadError(v, key))
    case Null => Failure(ReadError(v, key))
    case Obj(f) => Success(if key in f then f[key] else Undefined)
    case _ => Success(Undefined)
  }

  /** `v?.key`: never throws. */
  function OptGet(v: Value, key: string): (r: Value)
    ensures Nullish(v) ==> r == Undefined
    ensures !Nullish(v) ==> Get(v, key) == Success(r)
  {
    if Nullish(v) then Undefined else Get(v, key).value
  }

  /** `v[0]`. */
  function First(v: Value): (r: Result<Value>)
    ensures r.Failure? <==> Nullish(v)
    ensures v.Arr? ==> r == Success(if |v.items| > 0 then v.items[0] else Undefined)
  {
    match v
    case Undefined => Failure(ReadError(v, "0"))
    case Null => Failure(ReadError(v, "0"))
    case Arr(xs) => Success(if |xs| > 0 then xs[0] else Undefined)
    case Str(s) => Success(if |s| > 0 then Str([s[0]]) else Undefined)
    case Obj(f) => Success(if "0" in f then f["0"] else Undefined)
    case _ => Success(Undefined)
  }

  /** `v?.[0]`: never throws. */
  function OptFirst(v: Value): Value {
    if Nullish(v) then Undefined else First(v).value
  }

  /** `(s as string) || fallback` on an optional string. */
  function OrElse(s: Option<string>, fallback: string): (r: string)
    ensures s.Some? && s.value != "" ==> r == s.value
    ensures s.None? || s.value == "" ==> r == fallback
  {
    if s.Some? && s.value != "" then s.value else fallback
  }

  /** A string value, or `undefined` when absent. */
  function OptStr(s: Option<string>): Value {
    if s.Some? then Str(s.value) else Undefined
  }
  /** `v ?? fallback`: only `undefined` and `null` give way. */
  function Coalesce(v: Value, fallback: Value): Value {
    if Nullish(v) then fallback else v
  }

  /** `${v}` in a template literal, for the values that reach one: strings
      as they are, integers in decimal, arrays joined with commas (their
      `undefined` and `null` entries as empty text) and every plain object
      as "[object Object]". */
  function Interpolate(v: Value): string
    decreases v
  {
    match v
    case Undefined => "undefined"
    case Null => "null"
    case Bool(b) => if b then "true" else "false"
    case Num(n) => if n < 0 then "-" + DecimalString(-n) else DecimalString(n)
    case Str(s) => s
    case Arr(xs) =>
      Join(seq(|xs|, i requires 0 <= i < |xs| => if Nullish(xs[i]) then "" else Interpolate(xs[i])), ",")
    case Obj(_) => "[object Object]"
  }
}
